=== FILE: README.md ===
# git-ai context core, modelled in Dafny

git-ai is a command-line helper that asks an AI agent to write commit
messages, pull-request descriptions, merge-conflict resolutions, project
rules and `.gitignore` files. Before asking, it gathers *context*: git
state, the project's file tree, the agent's own rule files, documentation
and a record of the current invocation. Each kind of context comes from a
provider and may be kept in an on-disk cache, keyed by context type, that
expires after a time-to-live and whenever the commit or the working tree
changes.

This project models that context subsystem as pure functions over explicit
state:

- the cache directory is a map from file name to what the file holds (a
  stored entry, or something that does not parse);
- the clock, the live git fingerprints (commit hash and working-tree
  hash), whether writes succeed, the output of each `git` subprocess, the
  directory walks, file reads and the JSON / YAML / TOML parsers are
  parameters;
- every provider's `gather` and `should_refresh` is a function of those
  parameters, and the context manager is a function from the disk and the
  providers' results to a result and the new disk.

The pure helpers the commands build their prompts with (prompt overrides,
custom messages, placeholder filling, the context block appended to a
prompt) and the configuration's loading and context-type parsing are
modelled alongside.

One Dafny module per source file, plus shared modules:

| module | models |
|---|---|
| `Cache` | `src/context/cache.rs` |
| `ContextManager` | `src/context/mod.rs` |
| `ContextTypes` | `src/context/types.rs` |
| `FileHash` | `src/context/file_hash.rs` |
| `GitProvider`, `GitStatus` | `src/context/providers/git.rs` |
| `Project` | `src/context/providers/project.rs` |
| `Agent` | `src/context/providers/agent.rs` |
| `Interaction` | `src/context/providers/interaction.rs` |
| `Repository` | `src/context/providers/repository.rs` |
| `Documentation` | `src/context/providers/documentation.rs` |
| `Configuration` | `src/config.rs` |
| `Prompts` | `src/prompts/mod.rs` |
| `Commands` | `src/commands/commit.rs`, `ignore.rs`, `init.rs`, `merge.rs`, `pr.rs` |
| `Text`, `Paths`, `Ordering`, `Sorting`, `Collect`, `Counting`, `Values`, `Wrappers` | string, path, ordering, sorting and collection helpers the above share; `Values` is the parsed JSON / YAML document tree |

Times are whole seconds (`int`). Strings are `seq<char>`. Where the source
measures a string in bytes (`str::len`), the model uses the UTF-8 length
of its characters.


## Model

| member | source | states |
|---|---|---|
| Cache.CacheFileName | src/context/cache.rs:185-188 | the cache file of a type is its debug name, lower-cased, with ".json" appended |
| Cache.CacheFileNameOf | src/context/cache.rs:185-188 | the four file names are "git.json", "project.json", "agent.json" and "interaction.json" |
| Cache.GitFileName | src/context/cache.rs:185-188 | git context is cached in "git.json" |
| Cache.ProjectFileName | src/context/cache.rs:185-188 | project context is cached in "project.json" |
| Cache.AgentFileName | src/context/cache.rs:185-188 | agent context is cached in "agent.json" |
| Cache.InteractionFileName | src/context/cache.rs:185-188 | interaction context would be cached in "interaction.json" |
| Cache.CacheFileNameInjective | src/context/cache.rs:185-188 | different context types never share a cache file |
| Cache.TimeToLive | src/context/cache.rs:251-260 | git entries live 5 minutes, project 1 hour, agent 24 hours; interaction entries never expire |
| Cache.ExpiryTime | src/context/cache.rs:251-260 | an entry expires exactly its type's time-to-live after it is written, and an interaction entry never does |
| Cache.IsValid | src/context/cache.rs:191-213 | an entry is valid iff it has not expired (now is not past the expiry) and both the commit hash and the working-tree hash equal the live ones |
| Cache.Get | src/context/cache.rs:39-62 | a missing file is a miss; an unparsable file is an error; a valid entry is a hit returning its data with the disk unchanged; an invalid entry is a miss and its file is removed (when removal can succeed); no other file changes |
| Cache.NewEntry | src/context/cache.rs:69-75 | a new entry carries the data, the live fingerprints, the current time and the type's expiry |
| Cache.Store | src/context/cache.rs:65-85 | a store succeeds iff writing succeeds, and then replaces exactly the type's file with a fresh entry; on failure the disk is unchanged |
| Cache.ClearType | src/context/cache.rs:89-97 | after a successful clear the type's file is gone; it fails only when the file exists and cannot be removed; other files are untouched |
| Cache.ClearAll | src/context/cache.rs:101-117 | a successful clear leaves the cache directory empty; it fails only when there is a file to remove and removal fails |
| Cache.StoreThenGet | src/context/cache.rs:39-85 | reading back a stored entry before it expires, with unchanged fingerprints, is a hit with the stored data and changes nothing |
| Cache.StoreThenGetExpired | src/context/cache.rs:39-85 | reading back after the time-to-live is a miss and deletes the file |
| Cache.FingerprintChangeInvalidates | src/context/cache.rs:191-213 | after the commit or the working tree changes, a stored entry is a miss |
| Cache.InteractionNeverExpires | src/context/cache.rs:251-260 | an interaction entry is a hit at any later time while the fingerprints hold |
| Cache.StoreIsolated | src/context/cache.rs:65-85 | storing one type never changes what reading another type returns |
| Cache.GetReadsOwnFile | src/context/cache.rs:42-61 | reading a type looks only at that type's own file: two directories that agree on it give the same result |
| Cache.GetStaleThenAbsent | src/context/cache.rs:54-61 | a miss that removed a stale file leaves a disk on which the next read is a plain miss |
| Cache.ClearTypeThenGet | src/context/cache.rs:89-97 | after clearing a type, reading it is a miss that changes nothing |
| ContextTypes.ContextBundle.Get | src/context/types.rs:58-60 | a bundle returns data for a type iff it holds that type, and then returns that type's data |
| ContextTypes.ContextBundle.Has | src/context/types.rs:64-66 | `has` agrees with `get` |
| ContextTypes.NewBundle | src/context/types.rs:48-55 | a new bundle holds the given contexts, the current time and no fingerprints |
| ContextManager.GetOrFetch | src/context/mod.rs:115-135 | a cache error propagates; a hit is returned without touching disk or providers; on a miss a missing provider is an error naming the type, a provider error propagates, and otherwise the data is stored and returned iff the store succeeds; only the type's own file can change |
| ContextManager.HitIgnoresProviders | src/context/mod.rs:117-119 | a cache hit does not depend on what the providers would produce |
| ContextManager.FetchThenHit | src/context/mod.rs:115-135 | after a successful fetch, fetching again at the same moment returns the same data, changes nothing, and ignores the providers |
| ContextManager.GetOrFetchThenHit | src/context/mod.rs:115-135 | after a successful fetch, reading the cache is a hit on the fetched data, whether it came from the cache or from the provider |
| ContextManager.GetOrFetchReadsOwnFile | src/context/mod.rs:115-135 | the result of a fetch depends only on the type's own cache file |
| ContextManager.InteractionProviderFor | src/context/mod.rs:50-54 | interaction context is built with the command when there is one, and with no user message and no flags |
| ContextManager.FetchOne | src/context/mod.rs:47-58 | interaction context is gathered directly and leaves the disk alone; every other type goes through the cache |
| ContextManager.FetchOneRepeat | src/context/mod.rs:47-58 | fetching a type that is already a hit, or interaction context, returns that data and leaves the disk unchanged |
| ContextManager.FetchOneKeepsOtherReads | src/context/mod.rs:47-58 | fetching one type never changes what reading another type returns |
| ContextManager.FetchOneFresh | src/context/mod.rs:45-60 | a type not requested earlier in the loop finds its cache file as it was at the start, so it fetches as it would alone |
| ContextManager.GatherAll | src/context/mod.rs:45-60 | on success the map holds exactly the requested types, and the interaction entry is what the interaction provider gathers |
| ContextManager.FetchOneFrame | src/context/mod.rs:47-58 | fetching one requested type changes no cache file outside the requested non-interaction types' files |
| ContextManager.TouchedFilesGrow | src/context/mod.rs:47-60 | requesting one more type can only add files that may change |
| ContextManager.LastStepFrame | src/context/mod.rs:47-60 | the last type of the loop changes at most the files of the requested types |
| ContextManager.SameOutsideChain | src/context/mod.rs:47-60 | two steps that each keep the files outside a set keep them across both |
| ContextManager.GatherAllFrame | src/context/mod.rs:45-60 | gathering changes only the cache files of the requested non-interaction types |
| ContextManager.OwnFileAfterFetch | src/context/mod.rs:115-135 | after a fetch, the type's own file holds data of that type (given providers and disk that already do) |
| ContextManager.GetOrFetchWellKeyed | src/context/mod.rs:115-135 | a fetch keeps every cache file holding data of its own type and returns data of the requested type |
| ContextManager.FetchOneWellKeyed | src/context/mod.rs:47-58 | the same, for one step of the loop, including interaction context |
| ContextManager.GatherAllWellKeyed | src/context/mod.rs:45-60 | every gathered value has the type it is filed under, and the disk stays well keyed |
| ContextManager.GatherAllServes | src/context/mod.rs:45-60 | the loop succeeds exactly when every requested type succeeds alone from the starting cache; each value is what that type alone gives, whether it was requested once or several times; afterwards every requested cached type reads back as a hit on its value; a failure is the first failing type's error |
| ContextManager.GatherAllServed | src/context/mod.rs:45-60 | the same promise, kept by every step of the loop: the error of an earlier type is kept, a repeated type is a hit that changes nothing, and a new type fetches as it would alone |
| ContextManager.GatherContextWithCommand | src/context/mod.rs:40-71 | the bundle succeeds exactly when every requested type, fetched alone from the starting cache, succeeds; each type then holds what that fetch gives (its cached entry or its provider's data, and interaction context built from the command); a failure carries the error of the first requested type that fails; the bundle holds exactly the requested types, the current time and the live fingerprints, and leaves the disk as the loop does |
| ContextManager.InteractionBypassesCache | src/context/mod.rs:47-55 | interaction context neither reads nor writes the cache: its file is unchanged and its data is the same whatever the disk holds |
| ContextManager.RefreshContext | src/context/mod.rs:139-150 | a refresh ignores the cache: it fails without a provider or on a provider error with the disk unchanged, and otherwise stores the fresh data and returns it iff the store succeeds |
| ContextManager.RefreshIgnoresCache | src/context/mod.rs:139-150 | the result of a refresh is the same whatever the disk holds |
| ContextManager.RefreshThenGet | src/context/mod.rs:139-150 | after a successful refresh, reading the cache is a hit with the refreshed data |
| ContextManager.ClearCache | src/context/mod.rs:154-159 | clearing one type clears that type's file; clearing without a type clears every file |
| ContextManager.ApplyContext | src/context/mod.rs:169-178 | the result is the prompt, then the opening marker, then the serialised context, then the closing marker, each recoverable by position |
| FileHash.LoadHashes | src/context/file_hash.rs:25-41 | a missing hash file is an empty store stamped now; an unreadable one fails with "Failed to read file hashes"; an unparsable one fails with "Failed to parse file hashes JSON"; otherwise the decoded store is returned |
| FileHash.LoadAfterSave | src/context/file_hash.rs:25-53 | loading what was saved gives back the same store, whenever serialisation round-trips |
| FileHash.ChangedIff | src/context/file_hash.rs:69-87 | over readable files, the walk reports a change iff some listed file that exists has no stored hash or a stored hash different from its current digest |
| FileHash.MissingPathsIgnored | src/context/file_hash.rs:70-72 | paths that do not exist never count as changed |
| FileHash.FilesChanged | src/context/file_hash.rs:66-88 | a load failure is the result; otherwise the answer is the walk over the stored hashes |
| FileHash.NoStoreMeansChanged | src/context/file_hash.rs:26-84 | without a hash file, any existing listed file counts as new, so the answer is "changed" |
| FileHash.UpdatedContents | src/context/file_hash.rs:94-100 | after the update the store holds the old keys plus every existing listed file; each listed file maps to its current digest and every other key keeps its old hash |
| FileHash.UpdateFileHashes | src/context/file_hash.rs:91-106 | a load failure is an error; the update succeeds whenever loading and every read of an existing listed file succeed; on success the saved store is the updated hashes stamped now |
| FileHash.UpdateThenUnchanged | src/context/file_hash.rs:66-106 | when the store loads and every listed existing file is readable, the update succeeds, and the same files then report no change at any later time |
| FileHash.WithoutMissing | src/context/file_hash.rs:111-123 | the cleaned store keeps exactly the keys whose files exist, with their hashes unchanged |
| FileHash.CleanupMissingFiles | src/context/file_hash.rs:110-131 | cleanup fails iff loading fails; when some hashes remain they are saved stamped now, and when none remain the hash file is left as it was |
| FileHash.CleanupIdempotent | src/context/file_hash.rs:110-131 | a second cleanup with the same files present changes nothing |
| FileHash.AllMissingKeepsStore | src/context/file_hash.rs:125-128 | when every stored file is missing the stale store stays on disk, so a file recreated with its old bytes is not reported as changed |
| Interaction.New | src/context/providers/interaction.rs:16-22 | a new provider has no command, no message and no flags |
| Interaction.WithCommand | src/context/providers/interaction.rs:26-32 | the provider carries the command, with no message and no flags |
| Interaction.WithMessage | src/context/providers/interaction.rs:36-39 | only the message is replaced |
| Interaction.WithFlag | src/context/providers/interaction.rs:43-46 | the flag is set to the value; every other flag, the command and the message are unchanged |
| Interaction.WithFlags | src/context/providers/interaction.rs:50-53 | the flag keys are the union; the new flags win, the others keep their values; command and message are unchanged |
| Interaction.WithFlagsSingleton | src/context/providers/interaction.rs:43-53 | extending with one flag is setting that flag |
| Interaction.WithFlagsTwice | src/context/providers/interaction.rs:50-53 | extending twice is extending once with the second map overriding the first |
| Interaction.AgentVersion | src/context/providers/interaction.rs:56-70 | the agent version is known iff its command succeeded, and is then its trimmed output |
| Interaction.Metadata | src/context/providers/interaction.rs:73-92 | the metadata holds the current time, the working directory or "unknown", the tool's version and the agent's version |
| Interaction.Gather | src/context/providers/interaction.rs:97-111 | the gathered context is interaction data: the command or "unknown", the message, the flags and the metadata |
| Interaction.ShouldRefresh | src/context/providers/interaction.rs:117-121 | interaction context always asks to be refreshed |
| Configuration.LoadFromPath | src/config.rs:129-141 | loading succeeds iff the file exists, reads and parses, and then yields the parsed configuration; each failure has its own message naming the path |
| Configuration.JoinPath | src/config.rs:146-151 | a joined path starts with the base and ends with the relative part, with one separator between them |
| Configuration.UserConfigPath | src/config.rs:144-153 | the user configuration path exists iff a configuration or home directory is known; it lies under the configuration directory when there is one, otherwise under the home directory, and ends in "git-ai/config.yaml" |
| Configuration.Load | src/config.rs:109-126 | loading never fails, and a readable, parsable local ".git-ai.yaml" always wins |
| Configuration.LoadUsesUserConfig | src/config.rs:115-123 | without a usable local file, a usable user configuration is what is loaded |
| Configuration.LoadFallsBackToDefault | src/config.rs:115-125 | without a usable local file or user file, the default configuration is loaded |
| Configuration.BrokenLocalConfigIgnored | src/config.rs:115-117 | a local file that cannot be read or parsed is treated exactly as if it were absent |
| Configuration.DependencyPatterns | src/config.rs:197-220 | the patterns are strictly sorted (sorted, no duplicates), and a pattern is listed iff some configured category lists it |
| Configuration.DependencyPatternsIgnoreCategories | src/config.rs:197-220 | which category a pattern came from does not matter: the patterns listed as one extra category come out the same |
| Configuration.ParseName | src/config.rs:226-236 | a recognised name is the name of the kind it yields |
| Configuration.ParseNameOf | src/config.rs:226-231 | each kind's own name is recognised as that kind |
| Configuration.KindsOfNames | src/config.rs:223-238 | keeping the recognised names yields at most one kind per name, and a kind exactly when its name is given |
| Configuration.ParseContextTypes | src/config.rs:223-238 | at most one kind per name, and a kind is in the result iff its name is in the list |
| Configuration.ParseContextTypesAppend | src/config.rs:223-238 | the names are mapped one by one, in order: two lists parse to the concatenation of their parses |
| Configuration.NamesOf | src/config.rs:226-231 | one name per kind |
| Configuration.ParseContextTypesOfNames | src/config.rs:223-238 | writing kinds out by name and parsing them back gives the same kinds in the same order |
| Configuration.UnknownNameDropped | src/config.rs:232-235 | an unknown name anywhere in the list is skipped without affecting the rest |
| Prompts.WithOverrides | src/prompts/mod.rs:35-51 | each configured prompt replaces the registry's, and each unset one leaves it as it was |
| Prompts.WithOverridesTwice | src/prompts/mod.rs:35-51 | applying two override sets is applying one in which the later set wins prompt by prompt |
| Prompts.WithOverridesIdempotent | src/prompts/mod.rs:35-51 | an empty override set changes nothing, and applying the same overrides twice is applying them once |
| Prompts.AddCustomMessage | src/prompts/mod.rs:55-63 | without a message the prompt is unchanged; with one, the fixed lead-in and the message are appended |
| Prompts.CustomMessageRecoverable | src/prompts/mod.rs:55-63 | the base prompt, the lead-in and the message can each be read back from the result by position |
| Prompts.CustomMessageInjective | src/prompts/mod.rs:55-63 | different messages give different prompts |
| Prompts.PromptForCommand | src/prompts/mod.rs:66-88 | "commit" and "pr" use their prompts; "merge" fills every "{}" with the branch when one is given; any other command yields "Unknown command: " and the command; a custom message is appended in the first three cases |
| Prompts.MergeWithoutPlaceholderIgnoresBranch | src/prompts/mod.rs:75-83 | a merge prompt without "{}" is the same with or without a branch |
| Prompts.MergeBranchFillsEveryPlaceholder | src/prompts/mod.rs:76-79 | with a non-empty branch name that has no braces, the merge prompt begins with the template whose every "{}" is replaced by the branch, and that filled template has no "{}" left |
| Prompts.UnknownCommandIgnoresInputs | src/prompts/mod.rs:84 | an unknown command's answer depends on nothing but the command |
| Commands.PromptTemplate | src/commands/commit.rs:82-85 | a command uses the prompt from its configuration when there is one, and its built-in prompt otherwise |
| Commands.ConfigOverridesNoConfirm | src/commands/ignore.rs:129-135 | for `ignore` and `init` a configured `no_confirm` replaces the command-line flag either way; unset, the flag stands |
| Commands.CommitNoConfirm | src/commands/commit.rs:87-96 | for `commit` a command-line `--no-confirm` is never overridden; otherwise the configured value, if any, applies |
| Commands.NoConfirmResolution | src/commands/commit.rs:87-96 | `commit` skips confirmation iff the flag is given or the configuration says so; a configured `false` turns the flag off for `ignore` and `init` but not for `commit` |
| Commands.Section | src/commands/ignore.rs:154 | a titled section is appended after a blank line as "Title: body" |
| Commands.OptionalSection | src/commands/init.rs:89-101 | an absent value adds nothing; a present one adds its titled section |
| Commands.CommitRequiredContext | src/commands/commit.rs:98-105 | `commit` needs git, project, agent and interaction context, each once |
| Commands.CommitBasePrompt | src/commands/commit.rs:114-118 | without a message the template is the prompt; with one, a "User context" section follows the template |
| Commands.GitStatus | src/commands/commit.rs:127-128 | the repository status is available iff the bundle holds git data, and is then that data's status |
| Commands.CommitExecute | src/commands/commit.rs:107-196 | a gathering error is the result; with git status, a clean repository stops with nothing to commit, and only-unstaged changes abort iff confirmation is required and the answer does not start with "y"; the run fails iff gathering fails, a required answer cannot be read, or a run that goes ahead cannot serialise its context, each with that error; it is a dry run iff it goes ahead, serialises and dry-run is set, and otherwise sent to the agent; both carry the base prompt with the context block appended, and a run keeps the resolved confirmation flag |
| Commands.CommitNoConfirmNeverAsks | src/commands/commit.rs:158-170 | with confirmation off, the user's answer has no influence |
| Commands.CommitCleanIgnoresSerialisation | src/commands/commit.rs:174-181 | a clean repository stops before the context is serialised |
| Commands.IgnoreRequiredContext | src/commands/ignore.rs:137-143 | `ignore` needs project, agent and interaction context, each once, and no git context |
| Commands.IgnorePrompt | src/commands/ignore.rs:151-160 | the prompt is the template, an "Action" section and, only when languages are given, a "Languages/Tools" section |
| Commands.LanguagesPartCons | src/commands/ignore.rs:157-160 | the languages section lists the languages joined by ", " in order |
| Commands.IgnoreExecute | src/commands/ignore.rs:145-181 | `ignore` fails iff gathering or serialisation fails, shows the prompt with the context block iff it is a dry run, otherwise runs the agent with that prompt and the resolved flag; it never aborts or reports nothing to commit |
| Commands.InitPrompt | src/commands/init.rs:86-101 | the template followed by the language, project name and user context sections, each only when given, in that order |
| Commands.InitPromptEnds | src/commands/init.rs:86-101 | with nothing given the template is used as it is; a user message always ends the prompt |
| Commands.InitExecute | src/commands/init.rs:85-114 | `init` gathers no context: it shows the prompt iff it is a dry run and otherwise runs the agent with it and the resolved flag |
| Commands.MergePrompt | src/commands/merge.rs:24-40 | both templates with every `{}` replaced by the branch; with a message they are joined by a "Specific context" section and a blank line, without one by a blank line alone |
| Commands.FramedPrompt | src/commands/merge.rs:33-39 | the base, then the message under its titled heading when there is one, a blank line, and the instruction |
| Commands.MergePromptFilled | src/commands/merge.rs:29-31 | with a non-empty branch name that has no braces, no "{}" is left in either filled template |
| Commands.FramedPromptFrame | src/commands/merge.rs:33-39 | a framed prompt begins with the base and ends with the instruction |
| Commands.FramedPromptMessage | src/commands/merge.rs:33-37 | the message sits unchanged right after its heading, so it can be read back from its fixed position |
| Commands.PrPrompt | src/commands/pr.rs:18-26 | with a message: the base prompt, the "Specific focus areas" section, a blank line and the instruction; without one: base and instruction joined by a blank line |
| Commands.PrPromptFrame | src/commands/pr.rs:18-26 | the description always begins with the base prompt and ends with the instruction |
| GitStatus.NonEmptyFields | src/context/providers/git.rs:40 | empty fields are dropped and nothing is added |
| GitStatus.NonEmptyFieldsKeepsAll | src/context/providers/git.rs:40 | the empty field after the final NUL terminator is the only one dropped from git's output |
| GitStatus.DropBytes | src/context/providers/git.rs:47 | slicing at a byte offset yields a suffix of the field, or nothing where the offset is not a character boundary |
| GitStatus.DropThreeAscii | src/context/providers/git.rs:47 | after three ASCII characters, byte 3 is character 3 |
| GitStatus.ReadField | src/context/providers/git.rs:41-47 | a field shorter than three bytes is skipped; otherwise the first two characters are the index and work-tree columns and the path is the rest of the field from byte 3 |
| GitStatus.ReadFields | src/context/providers/git.rs:40-47 | every non-empty field yields at most one entry |
| GitStatus.ReadFieldsSnoc | src/context/providers/git.rs:40-47 | the loop as written reads each field on its own, in order |
| GitStatus.ReadFieldsPair | src/context/providers/git.rs:40-47 | two fields are read as two independent entries |
| GitStatus.EntriesRead | src/context/providers/git.rs:41-47 | a field contributes at most one entry |
| GitStatus.WorkTreeColumn | src/context/providers/git.rs:73-88 | an entry is never both untracked and unstaged, and it is neither iff its work-tree column is blank |
| GitStatus.FileStats | src/context/providers/git.rs:104-136 | a failed `git diff --numstat` gives no counts; otherwise the first two words of the first line are parsed as `u32`s, each absent when it does not parse |
| GitStatus.OneLine | src/context/providers/git.rs:126 | a single newline-terminated row is one line |
| GitStatus.TwoTokens | src/context/providers/git.rs:127 | two tab-separated words are the first two whitespace-separated parts |
| GitStatus.RowHasNoBreak | src/context/providers/git.rs:126 | a numstat row built from break-free parts has no line break |
| GitStatus.NumstatRoundTrip | src/context/providers/git.rs:126-131 | the counts git prints for a file, within `u32`, are read back exactly |
| GitStatus.NumstatBinary | src/context/providers/git.rs:129-130 | a binary file's "-" counts read as unknown |
| GitStatus.TallyOf | src/context/providers/git.rs:58-88 | each list has at most one item per entry |
| GitStatus.TallyStaged | src/context/providers/git.rs:59-70 | the staged list holds exactly the entries whose index column is neither blank nor "?", with the index status and the staged counts |
| GitStatus.TallyUnstaged | src/context/providers/git.rs:73-87 | the unstaged list holds exactly the entries whose work-tree column is neither blank nor "?", with the work-tree status and the unstaged counts |
| GitStatus.TallyUntracked | src/context/providers/git.rs:73-76 | the untracked list holds exactly the paths of entries whose work-tree column is "?" |
| GitStatus.TallyConflicts | src/context/providers/git.rs:50-56 | conflicts are reported iff some entry has a "U" column or is "AA" or "DD" |
| GitStatus.CleanIff | src/context/providers/git.rs:91-92 | the repository is clean iff every entry has a blank work-tree column and a blank or "?" index column |
| GitStatus.ReadRecords | src/context/providers/git.rs:40-47 | a rename or copy entry consumes the next field as its original path; each field yields at most one entry |
| GitStatus.RecordFieldsClean | src/context/providers/git.rs:40 | the fields of well-formed records are non-empty and NUL-free |
| GitStatus.EntriesOf | src/context/providers/git.rs:40-47 | one entry per record, in order |
| GitStatus.ReadRecordsOfRendered | src/context/providers/git.rs:40-47 | reading git's `-z` output of well-formed records gives back exactly one entry per record |
| GitStatus.StatusOfRendered | src/context/providers/git.rs:19-101 | the status of git's output is the classification of its records, one entry per record |
| GitStatus.ReadAsciiField | src/context/providers/git.rs:45-47 | a field with three ASCII characters before the path reads as those columns and that path |
| GitStatus.RenameLiterals | src/context/providers/git.rs:40-47 | two literal fields of a rename record spelled out character by character |
| GitStatus.RenameFields | src/context/providers/git.rs:40 | a rename of "old.txt" to "new.txt" is printed as the two fields "R  new.txt" and "old.txt" |
| GitStatus.ReadAsciiPair | src/context/providers/git.rs:40-47 | the loop as written reads two ASCII-headed fields as two entries |
| GitStatus.ReadRenamePair | src/context/providers/git.rs:40-47 | a rename field followed by its original path reads as one entry |
| GitStatus.RenameOriginalMisread | src/context/providers/git.rs:40-47 | as written, the original path "old.txt" is read as a second entry with columns "o" and "l" and path ".txt" |
| GitStatus.RenameOriginalSkipped | src/context/providers/git.rs:40-47 | with the original path skipped, the rename is one entry |
| GitStatus.RenameTallies | src/context/providers/git.rs:58-88 | the misread pair tallies two staged files and one unstaged file; the single rename entry tallies one staged file |
| GitStatus.RenameMisclassified | src/context/providers/git.rs:19-101 | as written, one staged rename is reported as two staged files and one unstaged file |
| GitStatus.RenameClassified | src/context/providers/git.rs:19-101 | read record by record, one staged rename is one staged file and nothing else |
| GitProvider.Run | src/context/providers/git.rs:157-174 | a git command's output is used iff the command ran and succeeded, and is then its standard output |
| GitProvider.RunTrimmed | src/context/providers/git.rs:301-329 | the same, with the output trimmed |
| GitProvider.RepositoryStatusOf | src/context/providers/git.rs:19-33 | a failed `git status` is an error; otherwise the status is read from its `-z` output, record by record |
| GitProvider.BranchDiff | src/context/providers/git.rs:177-193 | with an upstream the diff is against it (and its failure is final); without one "main" is tried before "master", each only when the branch exists, and the first diff that succeeds is taken; otherwise there is no branch diff |
| GitProvider.Diffs | src/context/providers/git.rs:139-154 | each of the staged, unstaged and branch diffs is present iff its command succeeded, and then holds that command's output; a failure never fails the whole |
| GitProvider.ReadHeader | src/context/providers/git.rs:229-250 | a header line contains "|" and starts a commit with no files; as written it must split into exactly five fields |
| GitProvider.Flush | src/context/providers/git.rs:257-261 | flushing adds the pending commit, if any, to the finished ones |
| GitProvider.RecentCommits | src/context/providers/git.rs:205-264 | reading the log succeeds iff `git log` succeeds, and then the commits are what parsing its output yields |
| GitProvider.RunLogAppend | src/context/providers/git.rs:228-255 | the log is read line by line: reading two blocks of lines is reading one, then the other |
| GitProvider.CommitsOf | src/context/providers/git.rs:240-249 | one commit per log record |
| GitProvider.HeaderPieces | src/context/providers/git.rs:210 | the header of a commit splits at "|" into hash, short hash, the pieces of the subject, author and date |
| GitProvider.ReadHeaderLine | src/context/providers/git.rs:229-250 | a readable header line reads back as its commit, with no files yet |
| GitProvider.FileLineIsNoHeader | src/context/providers/git.rs:251-254 | a file name line is never taken for a header |
| GitProvider.RunFiles | src/context/providers/git.rs:251-254 | file name lines are appended to the current commit's files, in order |
| GitProvider.RunRecord | src/context/providers/git.rs:229-254 | one record's lines flush the previous commit and start this one with its files |
| GitProvider.RunRecordThen | src/context/providers/git.rs:229-254 | one record's lines, followed by more lines, read as the record and then the rest |
| GitProvider.RunRecords | src/context/providers/git.rs:228-261 | reading the lines of well-formed records yields one commit per record, in order, each with its files |
| GitProvider.LogLinesHaveNoBreak | src/context/providers/git.rs:228 | the lines of the rendered log contain no line breaks |
| GitProvider.NoBreakConcat | src/context/providers/git.rs:210 | a header line built from break-free fields has no line break |
| GitProvider.OneRecordLog | src/context/providers/git.rs:210-228 | a single commit's log is its header, its file names and a blank line |
| GitProvider.ParseRenderedLog | src/context/providers/git.rs:205-264 | parsing the `git log` output of readable commits gives back exactly those commits, in order, with their files |
| GitProvider.SixFieldHeader | src/context/providers/git.rs:229 | as written, a header whose subject holds one "|" is not recognised |
| GitProvider.RunUnrecognised | src/context/providers/git.rs:251-254 | an unrecognised header and the file names after it only pile up as files with no commit to attach them to |
| GitProvider.PipeInSubjectLosesCommit | src/context/providers/git.rs:229-261 | as written, a commit whose subject contains "|" is lost entirely; reading the subject as everything between the short hash and the author keeps it |
| GitProvider.AheadBehind | src/context/providers/git.rs:332-357 | a failed command or output that is not exactly two words gives (0, 0) |
| GitProvider.SplitTabbedPair | src/context/providers/git.rs:348 | git's "behind TAB ahead" output splits into those two words |
| GitProvider.AheadBehindRoundTrip | src/context/providers/git.rs:348-353 | the counts git prints, within `u32`, are read back with the first as "behind" and the second as "ahead" |
| GitProvider.TrackingStatusMeaning | src/context/providers/git.rs:283-289 | "No upstream" iff there is none; "Up to date" iff neither ahead nor behind; "Ahead by" iff ahead; "Behind by" iff only behind |
| GitProvider.TrackingStatusInjective | src/context/providers/git.rs:283-289 | with an upstream, the status text determines both counts |
| GitProvider.BehindTailInjective | src/context/providers/git.rs:288 | the ", behind by" tail determines the behind count |
| GitProvider.AheadStatus | src/context/providers/git.rs:286-288 | an "ahead" status is "Ahead by", the count, then the behind tail |
| GitProvider.AheadSuffix | src/context/providers/git.rs:286-288 | two equal "ahead" statuses have equal counts-and-tails |
| GitProvider.AheadInjective | src/context/providers/git.rs:286-288 | an "ahead" status text determines both counts |
| GitProvider.BranchInfoOf | src/context/providers/git.rs:267-298 | branch info fails iff the current branch cannot be read; the upstream is known iff its command succeeds; without it both counts are 0; the tracking status is computed from the upstream and the counts |
| GitProvider.ConfigValue | src/context/providers/git.rs:360-389 | a user setting is known iff `git config` succeeded, and is its trimmed output |
| GitProvider.RemoteUrls | src/context/providers/git.rs:431-443 | the remote URLs have no duplicates |
| GitProvider.MentionsSnoc | src/context/providers/git.rs:435-441 | a URL is mentioned by the lines plus one more iff it is mentioned before or is that line's second word |
| GitProvider.RemoteUrlsMembers | src/context/providers/git.rs:435-441 | a URL is listed iff it is the second word of some line of `git remote -v` |
| GitProvider.MetadataOf | src/context/providers/git.rs:393-451 | metadata fails only when a required command cannot be spawned or the working directory is unknown; the root is the trimmed top level or the working directory; the git directory falls back to ".git"; the repository is bare iff git prints "true"; the remotes are exactly the second words of `git remote -v`, none when it fails |
| GitProvider.Gather | src/context/providers/git.rs:456-474 | gathering succeeds iff status, log, branch info and metadata all succeed; then it is git data whose status, diffs, recent commits, branch info, user settings and metadata are each the value its reader produced; a status error is the result |
| GitProvider.ShouldRefresh | src/context/providers/git.rs:480-484 | git context always asks to be refreshed |
| Project.Relative | src/context/providers/project.rs:45-49 | a path under the root (with or without a trailing `/` on the root) is the root, a separator and the relative path; any other path is kept whole |
| Project.ToEntry | src/context/providers/project.rs:45-82 | an entry carries the path relative to the root, is a directory iff the walk says so, has a size iff its metadata says it is a file (and then the file's length), and the modification time when metadata has one |
| Project.Entries | src/context/providers/project.rs:35-86 | unreadable walk items and the root itself are skipped; every other item becomes exactly one entry |
| Project.BuildTree | src/context/providers/project.rs:19-92 | the tree fails iff the working directory is unknown; its entries are the walked entries, ordered by path and none lost or added |
| Project.ExtensionKeys | src/context/providers/project.rs:98-107 | one lower-cased extension key per file entry |
| Project.ExtensionKeysMembers | src/context/providers/project.rs:98-107 | a key is listed iff some file entry has it |
| Project.CountByExtension | src/context/providers/project.rs:95-111 | the counts hold exactly the keys of file entries, and each count is the number of files with that key |
| Project.CountsAddUp | src/context/providers/project.rs:95-172 | the per-extension counts add up to the number of files |
| Project.TotalFiles | src/context/providers/project.rs:167-172 | the file count is truncated to `u32`, and is exact when it fits |
| Project.TotalSizeAppend | src/context/providers/project.rs:159-164 | the total size of two lists of entries is the sum of their totals |
| Project.TotalSizeOfSized | src/context/providers/project.rs:159-164 | entries without a size contribute nothing to the total |
| Project.SizedOnly | src/context/providers/project.rs:162 | only entries that have a size are kept |
| Project.DirectoriesHaveNoSize | src/context/providers/project.rs:58-74 | a directory entry has no size |
| Project.ChangedNames | src/context/providers/project.rs:141-146 | the names are exactly the trimmed non-empty lines: each name is a trimmed non-empty line, every non-empty line yields its trimmed text, and there are never more names than lines |
| Project.Normalise | src/context/providers/project.rs:141-155 | strictly sorted (sorted, no duplicates), each name from the output, and exactly as many names as there are distinct names, capped at 50 |
| Project.NormaliseKeepsAll | src/context/providers/project.rs:148-153 | when there are at most 50 distinct names, none is lost |
| Project.NormaliseKeepsLeast | src/context/providers/project.rs:148-153 | a name is dropped only in favour of smaller ones |
| Project.RecentlyChangedAsWritten | src/context/providers/project.rs:114-156 | as written: a diff that cannot start is an error; a successful diff's names are used; after a failed diff the log is run, but even when it succeeds the failed diff's output is what gets read |
| Project.RecentlyChanged | src/context/providers/project.rs:114-156 | as intended: after a failed diff, a successful log's names are used, and a failed log gives no names |
| Project.FallbackLogDiscarded | src/context/providers/project.rs:124-141 | with the diff failing and the log printing "a.rs", the code as written reports nothing while the intended reading reports "a.rs" |
| Project.SortDedupSingle | src/context/providers/project.rs:149-150 | sorting and deduplicating one name leaves it alone |
| Project.Gather | src/context/providers/project.rs:177-193 | gathering fails iff the tree cannot be built; then the project data holds the tree, the per-extension counts, the recent names (none on error), the file count and the total size |
| Project.ShouldRefresh | src/context/providers/project.rs:199-208 | cached data asks for a refresh iff it is not project data |
| Agent.FormatOfExtension | src/context/providers/agent.rs:99-106 | an extension decides the format exactly when, lower-cased, it is json, yaml, yml or toml, and it never decides plain text |
| Agent.SniffFormat | src/context/providers/agent.rs:108-118 | on the trimmed content: JSON iff it is wrapped in braces; YAML iff not braced and it has a colon plus a newline or more than 100 bytes; TOML iff neither of those and it has `[`, `]` and `=`; text otherwise |
| Agent.DetectFormat | src/context/providers/agent.rs:97-119 | a recognised extension wins; without one the content is sniffed |
| Agent.SniffIgnoresPadding | src/context/providers/agent.rs:109 | sniffing trimmed content gives the same format as sniffing the raw content |
| Agent.ExtensionDecides | src/context/providers/agent.rs:99-106 | a file named `dir/stem.ext` with a recognised extension gets that extension's format whatever its content |
| Agent.RulesOfLines | src/context/providers/agent.rs:143-148 | at most one rule per line, and each rule is what the rule test gives for some line |
| Agent.RulesOfLinesAppend | src/context/providers/agent.rs:143-148 | the rules of two runs of lines are the rules of each, in order |
| Agent.TextRule | src/context/providers/agent.rs:144-147 | a line gives a rule iff its trimmed form is non-empty and not a `#` comment, and the rule is the trimmed line |
| Agent.TextRules | src/context/providers/agent.rs:141-149 | every rule of a text file is non-empty, trimmed and not a comment |
| Agent.TextRulesRoundTrip | src/context/providers/agent.rs:141-149 | writing valid single-line rules one per line and reading the file back gives exactly those rules |
| Agent.RulesOfTrimmedLines | src/context/providers/agent.rs:144-147 | lines that are already valid rules are kept unchanged, one for one |
| Agent.TomlRule | src/context/providers/agent.rs:153-161 | a rule comes only from a trimmed line starting with `rule` that contains `=`; it is non-empty, holds no `=`, and does not start or end with a single quote |
| Agent.UnquoteKeepsAbsent | src/context/providers/agent.rs:156-157 | stripping quotes and blanks never introduces a character that was not there |
| Agent.TomlRules | src/context/providers/agent.rs:150-164 | every TOML rule is non-empty and holds no `=` |
| Agent.TomlRuleOfAssignment | src/context/providers/agent.rs:153-161 | the line `rule… = "value"` yields exactly `value` for a trimmed, unquoted, `=`-free value |
| Agent.AssignmentTrimmed | src/context/providers/agent.rs:154 | an assignment line built from a `rule` key needs no trimming |
| Agent.AssignmentPieces | src/context/providers/agent.rs:155 | splitting such a line at `=` gives the key part and the quoted value part, and nothing else |
| Agent.UnquoteQuoted | src/context/providers/agent.rs:156-157 | stripping the blank and the double quotes around a clean value gives back the value |
| Agent.ArrayRules | src/context/providers/agent.rs:189-197 | the rules of an array are the rules of its items in order, a string item contributing itself |
| Agent.ItemsFrom | src/context/providers/agent.rs:190-196 | walking the items from position i gives the rules of the remaining items |
| Agent.RulesOfAllAppend | src/context/providers/agent.rs:190-196 | the rules of two runs of items are the rules of each, in order |
| Agent.ArrayRulesAppend | src/context/providers/agent.rs:189-197 | concatenating arrays concatenates their rules |
| Agent.ObjectRulesOnlyFromRuleKeys | src/context/providers/agent.rs:175-188 | two objects that agree on the five rule keys give the same rules, whatever else they hold |
| Agent.FromKeysAgree | src/context/providers/agent.rs:177-187 | visiting a list of keys gives the same rules for objects that agree on those keys |
| Agent.ScalarRules | src/context/providers/agent.rs:201 | null, boolean and number values give no rules |
| Agent.SingleRuleKey | src/context/providers/agent.rs:175-188 | an object whose only rule key is `rules` gives exactly the rules of that field's value |
| Agent.FileRules | src/context/providers/agent.rs:125-165 | a JSON or YAML file that fails to parse gives no rules, one that parses gives the rules of its value; text and TOML files give their line rules |
| Agent.ExtractRulesAppend | src/context/providers/agent.rs:122-169 | the rules of two lists of files are the rules of each, in order |
| Agent.PromptsOfFields | src/context/providers/agent.rs:274-282 | a key is a prompt iff some field has that key, a name containing `prompt` or `template`, and a string value; the stored value is one of those fields' values |
| Agent.PromptsOf | src/context/providers/agent.rs:274 | a value that is not an object gives no prompts |
| Agent.PromptsOfUnique | src/context/providers/agent.rs:274-282 | for an object with distinct keys, a key is a prompt iff its name qualifies and its value is a string, and the prompt is that string |
| Agent.FilePrompts | src/context/providers/agent.rs:245-262 | text and TOML files give no prompts; a JSON or YAML file gives the prompts of its parsed value, or none when it fails to parse |
| Agent.ExtractPrompts | src/context/providers/agent.rs:239-266 | a key is in the merged prompts iff some file gives it |
| Agent.LaterFileWins | src/context/providers/agent.rs:245-263 | the merged prompt under a key is that of the last file giving the key |
| Agent.PlainFilesAddNoPrompts | src/context/providers/agent.rs:261 | appending a text or TOML file leaves the prompts unchanged |
| Agent.Load | src/context/providers/agent.rs:40-68 | the loaded files are exactly the found files whose content could be read, each with its path, content and detected format |
| Agent.SortDedupByPath | src/context/providers/agent.rs:77-79 | the result is strictly ordered by path, draws only from the input, and keeps one file for every input path |
| Agent.Gather | src/context/providers/agent.rs:307-319 | fails iff the search fails; otherwise Agent data whose files are the loaded files sorted and deduplicated by path, with the rules and prompts of those files |
| Agent.ShouldRefresh | src/context/providers/agent.rs:325-329 | agent data never asks for a refresh |
| Repository.Visible | src/context/providers/repository.rs:98-104 | the visible entries are exactly the readable walk items outside `./.git`, never more than the walk |
| Repository.Shallow | src/context/providers/repository.rs:39-41 | keeps exactly the entries at most three levels deep |
| Repository.TreeEntries | src/context/providers/repository.rs:45-54 | the tree lists the visible shallow entries, ordered by path, as a permutation: none lost, none added |
| Repository.Indent | src/context/providers/repository.rs:59-60 | the indent is two blanks per level and nothing else |
| Repository.TreeLines | src/context/providers/repository.rs:56-82 | the tree is `.`, then one line per entry for at most 50 entries in order, then a trailer counting the rest when there are more than 50 |
| Repository.TreeLimitRespected | src/context/providers/repository.rs:57-82 | with at most 50 entries every entry is listed and there is no trailer; with more, the tree has exactly 52 lines |
| Repository.IndentIsPlain | src/context/providers/repository.rs:60 | an indent never holds a line break |
| Repository.RenderedIsPlain | src/context/providers/repository.rs:78-81 | a rendered count never holds a line break |
| Repository.EntryLineIsPlain | src/context/providers/repository.rs:62-74 | an entry's line holds no line break when its file name holds none |
| Repository.TrailerIsPlain | src/context/providers/repository.rs:78-81 | the trailer holds no line break |
| Repository.TreeEntriesFromWalk | src/context/providers/repository.rs:45-52 | every listed entry was a readable walk item |
| Repository.ManualTreeLines | src/context/providers/repository.rs:37-85 | splitting the rendered tree at line breaks gives back exactly the intended lines, when no file name holds a line break |
| Repository.DirectoryTree | src/context/providers/repository.rs:20-34 | the output of a successful `tree` run is used verbatim; a missing or failing `tree` falls back to the manual tree |
| Repository.OneWildcardRule | src/context/providers/repository.rs:114-119 | a pattern with exactly one `*` matches iff the path starts with the text before it and ends with the text after it |
| Repository.OtherPatternRule | src/context/providers/repository.rs:114-125 | any other pattern matches iff it equals the file name or ends the path |
| Repository.WildcardPrefixNeverMatchesAsWritten | src/context/providers/repository.rs:109-118 | as written, a wildcard pattern whose text before `*` does not start with `.` never matches a walked path, because every such path starts with `./` |
| Repository.TopLevelWildcardFile | src/context/providers/repository.rs:109-118 | a top-level file such as `pre…post` is missed by the matcher as written and found by the corrected one |
| Repository.RequirementsPatternExample | src/context/providers/repository.rs:109-118 | `requirements*.txt` misses `./requirements-dev.txt` as written and matches it once the `./` is dropped |
| Repository.DependencyFiles | src/context/providers/repository.rs:128-134 | every collected dependency file's content is at most 50 000 bytes |
| Repository.DependencyFilesMembers | src/context/providers/repository.rs:88-140 | a path is collected iff some visible file matches a pattern, reads, and is small enough; its content is that file's text |
| Repository.FileKeys | src/context/providers/repository.rs:185-193 | one extension key per visible file |
| Repository.FileKeysMembers | src/context/providers/repository.rs:185-193 | a key is listed iff some file has that extension, or `no_extension` when it has none |
| Repository.CountByExtension | src/context/providers/repository.rs:169-197 | an extension is counted iff some file has it, and its count is the number of files with it |
| Repository.CountsAddUp | src/context/providers/repository.rs:169-254 | the per-extension counts add up to the number of files |
| Repository.TotalSizeAppend | src/context/providers/repository.rs:245-250 | the total size of two runs of entries is the sum of their sizes |
| Repository.DirectoriesHaveNoSize | src/context/providers/repository.rs:245-250 | an entry that is not a regular file (a directory, a broken link, a special file), or a file without metadata, adds nothing to the total size |
| Repository.Stats | src/context/providers/repository.rs:228-254 | the file count is the number of visible files and the size is the sum of their known lengths |
| Repository.NonEmpty | src/context/providers/repository.rs:214 | keeps exactly the non-empty lines |
| Repository.RecentlyChanged | src/context/providers/repository.rs:200-225 | at most 20 distinct non-empty names, each a line of a successful log; a failing log gives none |
| Repository.RecentlyChangedComplete | src/context/providers/repository.rs:212-219 | when the log names at most 20 distinct files, every one of them is listed |
| Repository.Gather | src/context/providers/repository.rs:259-279 | the context holds the tree, the dependency files, the counts, the recent files and the stats of the same visible walk, and its file total equals the sum of its per-extension counts |
| Repository.ShouldRefresh | src/context/providers/repository.rs:285-289 | repository data never asks for a refresh |
| Documentation.RootHits | src/context/providers/documentation.rs:40-71 | a root path is hit by a pattern iff it is a readable file whose name the pattern selects |
| Documentation.AllRootHitsMembers | src/context/providers/documentation.rs:40-72 | a root path is collected iff it is a readable file selected by at least one pattern |
| Documentation.DocsHits | src/context/providers/documentation.rs:75-92 | a path under `docs` is collected iff it is a readable file ending in `.md`, `.txt` or `.rst` |
| Documentation.DocumentationFiles | src/context/providers/documentation.rs:21-97 | the list is strictly ordered with no duplicates, and holds exactly the selected root files plus, when `docs` exists, its documentation files |
| Documentation.TrimOneStar | src/context/providers/documentation.rs:41 | trimming trailing stars from `pre*` gives `pre` |
| Documentation.TrailingStarRule | src/context/providers/documentation.rs:55-58 | a pattern ending in `*` selects exactly the names starting with the text before it |
| Documentation.MiddleStarIgnoresSuffix | src/context/providers/documentation.rs:59-67 | a pattern with one inner `*` selects by its prefix alone, whatever follows the star |
| Documentation.DocPatternsArePrefixes | src/context/providers/documentation.rs:25-37 | each of the eleven patterns is a non-empty prefix followed by one `*` |
| Documentation.RootSelectionByPrefix | src/context/providers/documentation.rs:40-71 | a root name is selected iff it starts with one of the eleven prefixes |
| Documentation.ReadmeNeedsADot | src/context/providers/documentation.rs:26-56 | a bare `README` is not selected, while `LICENSE-MIT` is |
| Documentation.CombineAppend | src/context/providers/documentation.rs:100-115 | combining two lists of files gives the two combinations in order |
| Documentation.CombineSkipsUnreadable | src/context/providers/documentation.rs:104 | files that cannot be read contribute nothing |
| Documentation.CombineOne | src/context/providers/documentation.rs:106-110 | one readable file contributes its header block followed by its text |
| Documentation.AnalysisPrompt | src/context/providers/documentation.rs:118-173 | the prompt starts with the instructions, ends with `---`, and holds the documentation text verbatim right after the instructions |
| Documentation.Scalar | src/context/providers/documentation.rs:186-188 | a field is read iff it is present and a string, and the result is that string |
| Documentation.List | src/context/providers/documentation.rs:189-192 | a missing or non-array field reads as empty; an array reads as exactly its string items |
| Documentation.ParseAiResponse | src/context/providers/documentation.rs:176-282 | fails iff the answer is not JSON; on success the document list is the documentation files' paths, one for one |
| Documentation.EmptyIsEmptyAnswer | src/context/providers/documentation.rs:182-266 | an empty JSON object with no files reads as the empty context |
| Documentation.ProjectKeysDistinct | src/context/providers/documentation.rs:129-158 | the keys of the project object are pairwise distinct |
| Documentation.KeysDistinct | src/context/providers/documentation.rs:134-158 | the keys of each nested section are pairwise distinct |
| Documentation.ProjectValues | src/context/providers/documentation.rs:129-158 | there is one value per project key |
| Documentation.GetAt | src/context/providers/documentation.rs:182 | looking up a key of an object with distinct keys gives the value stored under it |
| Documentation.StringsOfEncoded | src/context/providers/documentation.rs:191 | reading the strings of an encoded list gives the list back |
| Documentation.ScalarAt | src/context/providers/documentation.rs:186-188 | an encoded optional string reads back as itself |
| Documentation.ListAt | src/context/providers/documentation.rs:189-192 | an encoded list of strings reads back as itself |
| Documentation.ReadUsageOfEncoded | src/context/providers/documentation.rs:196-210 | the usage section reads back to the usage it encodes |
| Documentation.ReadDevelopmentOfEncoded | src/context/providers/documentation.rs:213-227 | the development section reads back to what it encodes |
| Documentation.ReadBreakingChangesOfEncoded | src/context/providers/documentation.rs:230-240 | the breaking-changes section reads back to what it encodes |
| Documentation.ReadConventionsOfEncoded | src/context/providers/documentation.rs:243-249 | the conventions section reads back to what it encodes |
| Documentation.ReadMiscOfEncoded | src/context/providers/documentation.rs:252-266 | the misc section reads back to what it encodes |
| Documentation.ReadProjectOfValues | src/context/providers/documentation.rs:185-193 | a project object built from encoded fields reads back to the project info |
| Documentation.ReadProjectOfEncoded | src/context/providers/documentation.rs:185-193 | the encoded project reads back to the project info |
| Documentation.SectionsOfEncoded | src/context/providers/documentation.rs:196-252 | each nested section of the encoded project is the encoding of that section |
| Documentation.GroupsOfEncoded | src/context/providers/documentation.rs:182-266 | every group of an encoded context reads back to the group it encodes |
| Documentation.ParseOfEncoded | src/context/providers/documentation.rs:176-282 | an answer that is the JSON encoding of a context reads back to that context (round trip) |
| Documentation.Gather | src/context/providers/documentation.rs:287-343 | no documentation files gives the empty context; otherwise the agent gets the prompt over the combined files, its failure fails the gathering, and its answer is parsed |
| Documentation.NoDocFiles | src/context/providers/documentation.rs:21-97 | with no selected root files and no `docs` directory there are no documentation files |
| Documentation.NoDocsIgnoresAgent | src/context/providers/documentation.rs:291-327 | without documentation files the result is the empty context whatever the reader, agent and parser do |
| Documentation.ShouldRefresh | src/context/providers/documentation.rs:349-357 | asks for a refresh iff the cached data is not documentation data |
| Text.Trim | src/context/providers/agent.rs:144 | trimming never lengthens the text, leaves no blank at either end, and keeps a contiguous piece of the original |
| Text.TrimTwice | src/context/providers/agent.rs:144 | trimming is idempotent |
| Text.Split | src/context/providers/repository.rs:116 | splitting at a character gives at least one piece and no piece holds the separator |
| Text.SplitJoin | src/context/providers/repository.rs:116 | joining the pieces with the separator gives back the text |
| Text.SplitCount | src/context/providers/repository.rs:116-117 | there is one more piece than there are separators |
| Text.SplitOfJoin | src/context/providers/git.rs:351-352 | splitting the join of separator-free pieces gives back the pieces |
| Text.Lines | src/context/providers/agent.rs:143 | no line holds a line break, and non-empty text has at least one line |
| Text.LinesOfJoined | src/context/providers/agent.rs:143 | reading the lines of newline-terminated lines gives them back |
| Text.ToLower | src/context/providers/agent.rs:100 | lower-casing keeps the length and maps each character on its own |
| Text.Utf8Len | src/context/providers/agent.rs:112 | the UTF-8 length of a text lies between one and four bytes per character |
| Text.ParseU32 | src/context/providers/git.rs:129-130 | a parsed number always fits in 32 bits |
| Text.NatToString | src/context/providers/repository.rs:78-81 | a rendered number is a non-empty run of digits |
| Text.ParseRendered | src/context/providers/git.rs:129-130 | parsing a rendered 32-bit number gives back the number |
| Paths.Extension | src/context/providers/repository.rs:186-190 | an extension has no dot, the name ends with a dot followed by it, and there is none exactly for `..`, names without a dot, or names whose only dot leads |
| Paths.ExtensionOfJoined | src/context/providers/repository.rs:186-190 | the extension of `stem.ext` is `ext` |
| Sorting.SortDedupBy | src/context/providers/documentation.rs:94-95 | sorting then removing duplicates gives a strictly ordered list with exactly the input's elements |
| Sorting.SortDedup | src/context/providers/repository.rs:162-163 | for strings: strictly ordered, with exactly the input's elements, one per distinct element |
| Sorting.SortDedupOfSameElements | src/context/providers/repository.rs:162-163 | two inputs with the same elements give the same sorted list |
| Ordering.StrLeqIsTotalOrder | src/context/providers/agent.rs:78 | the string order used for sorting is a total order |
| Ordering.PathLeqIsTotalOrder | src/context/providers/repository.rs:54 | the component-wise path order is a total order |
| Counting.Tally | src/context/providers/repository.rs:192 | a key is counted iff it occurs, and its count is its number of occurrences |
| Counting.TallyTotal | src/context/providers/repository.rs:192 | the counts add up to the number of keys |

## Left out

- Running `git`, `tree` and `cursor-agent`: each command's exit status and standard output is a `CommandOutput` parameter (`NotSpawned` when it could not be started); standard error is not modelled.
- Directory walks (`ignore::WalkBuilder`, `walkdir`), `exists`, `is_file`, `metadata` and file reads: the walk is a given list of entries, and reads are a function from path to text or error. The gitignore filtering the walker applies is not modelled; the walk is taken as already filtered.
- Writing files: the cache directory and the hash store are maps; whether a cache write succeeds is a parameter. A failing save of the hash store in `update_file_hashes` and `cleanup_missing_files` is not modelled.
- JSON, YAML and TOML parsing and serialisation: a parser is a function parameter from text to a `Values.Value` tree or an error, and serialisation of a cache entry or bundle is an opaque function.
- The md5 digest of file contents is an opaque function parameter.
- The clock is a parameter in whole seconds. RFC 3339 date parsing of commit dates is a `dateOf` parameter.
- Output printed to standard output or standard error (warnings about unknown context names, progress messages) is not modelled.
- Async execution and thread-safety markers carry no behaviour and are not modelled.
- Command-line parsing, dispatch, `src/main.rs`, `src/cli/`, `src/cursor_agent.rs` and `src/commands/config.rs` are not part of this model; the agent call is a function parameter.
- Interactive confirmation on standard input in `commit` is a parameter answer.
- The long literal prompt texts are opaque constants; only how they are combined is modelled.
- `create_sample_config` and the built-in default configuration are not part of this model; the default configuration is a parameter of `Configuration.Load`.
- `get_file_dependencies` of every provider is not modelled: nothing in the modelled core calls it.
- `get_stats` and the cache's file metadata are I/O only and are not modelled.
- The cache fingerprints (the output of `git rev-parse HEAD`, and the md5 digest of `git status --porcelain=v1`) are parameters.
- `ContextType::Repository` and `ContextType::Documentation` do not exist in `src/context/types.rs`; the repository and documentation providers are modelled as standalone producers of their records, and their `should_refresh` takes a local sum of cached data.
- Rust's `HashMap` and `HashSet` iteration order is unspecified; where it reaches the output (repository recently-changed files), the model picks sorted order.
- `get_dependency_patterns` in `src/context/providers/repository.rs:143-166` is the same computation as the one in `src/config.rs:202-217` and is modelled once, as `Configuration.DependencyPatterns`.
- File names that are not valid UTF-8 (`to_string_lossy`) are not modelled; paths are strings.
- Text.ToLower: lower-cases the ASCII letters `A`-`Z` only, while Rust's `str::to_lowercase` folds every Unicode letter, so an extension such as `ÄB` keeps its `Ä` and the Kelvin sign is not folded to `k`; `Agent.FormatOfExtension`, `Cache.CacheFileName` and `Commands.Confirms` lower-case with it as well.
- Project.ExtensionKeys: keys are lower-cased with `Text.ToLower`, so a non-ASCII extension is keyed with its capitals unchanged (`x.ÄB` under `Äb`, where `src/context/providers/project.rs:103` gives `äb`); the per-extension counts built from these keys inherit this.
- GitProvider.RepositoryStatusOf: reads `git status -z` record by record with the corrected reader `GitStatus.Status`, skipping the original path of a rename or copy; the loop in `src/context/providers/git.rs:40-47` reads every field as an entry, as `GitStatus.StatusAsWritten` does (see Findings).
- GitProvider.Gather: composes the corrected status reader and the `AnySubject` header rule; the source reads status as `GitStatus.StatusAsWritten` does and recognises headers as the `AsWritten` rule does (see Findings).
- Project.Gather: uses the corrected `Project.RecentlyChanged`, which returns the fallback log's names when `git diff` fails; the source, as `Project.RecentlyChangedAsWritten` does, keeps the failed diff's own output and discards the log's (see Findings).
- Repository.DependencyFiles: matches with the corrected `Repository.Matches`, which compares the text before a wildcard with the path relative to the root; the source compares it with the `./`-prefixed path, as `Repository.MatchesAsWritten` does, so a top-level file such as `requirements-dev.txt` is not collected through `requirements*.txt` (see Findings).
- Repository.DependencyFilesMembers: its if-and-only-if is stated for the corrected matcher, for the same reason as `Repository.DependencyFiles`.
- Repository.Gather: its dependency files come from `Repository.DependencyFiles` and carry the same correction.
- Project.Gather: `total_size` is the `u64` sum of `calculate_total_size` in `src/context/providers/project.rs:159-164`; its overflow is not modelled, the model's total is unbounded.
- Values.Get: takes the first field under a name. A parsed `serde_json::Value` object never holds a key twice (a later duplicate replaces the earlier one), while a `Values.Value` from the parser parameter may; the model reads such an object by its first field.
- Repository.Gather: `total_files` is a `u32` and `total_size` a `u64` in the source; their overflow is not modelled, the model's counts are unbounded.
- Repository.Stats: same overflow caveat as `Repository.Gather`.
- Repository.RecentlyChanged: which 20 names survive when more than 20 distinct names are logged depends on `HashSet` order in the source; the contract says only that at most 20 distinct logged names are kept, and that all are kept when there are at most 20.

## Findings

| source | as written | input that shows it | evidently intended | confidence | as-written member | corrected member |
|---|---|---|---|---|---|---|
| src/context/providers/git.rs:40-47 | every NUL-separated field of `git status --porcelain=v1 -z` is read as an entry, but for a rename or copy git writes the original path as a separate field after the entry | `R  new.txt\0old.txt\0`: `old.txt` is read as an entry with status columns `o`, `l` and path `.txt`, and is counted as staged and unstaged | the field after an `R` or `C` entry is the original path and is skipped | high; not executed | GitStatus.RenameMisclassified | GitStatus.RenameClassified |
| src/context/providers/git.rs:229 | a log line is a commit header only when it splits into exactly five `|`-separated fields, but the subject (`%s`) may itself hold a `|` | a one-commit log whose subject is `fix a|b`: the header has six fields, is taken for a file line with no commit before it, and the log yields no commits | every header is recognised whatever its subject holds | medium; not executed | GitProvider.PipeInSubjectLosesCommit | GitProvider.ParseRenderedLog |
| src/context/providers/project.rs:124-141 | when `git diff` fails, the fallback `git log` output is bound to a new `output` inside the `if`, and the later code reads the outer, failed `output` | `git diff` fails with empty output and `git log` succeeds with `a.rs`: the result is empty | the fallback log's file names are returned | high; not executed | Project.FallbackLogDiscarded | Project.RecentlyChanged |
| src/context/providers/repository.rs:109-118 | the text before a wildcard is compared with the start of the displayed path, which always starts with `./` | the pattern `requirements*.txt` and the top-level file `./requirements-dev.txt` do not match | the text before the wildcard is compared with the path relative to the repository root | high; not executed | Repository.WildcardPrefixNeverMatchesAsWritten | Repository.TopLevelWildcardFile |

=== FILE: agent.dfy ===
/** The agent-configuration provider: telling a config file's format,
    pulling rules and custom prompts out of it, and assembling the agent
    context. Finding the files (the walk up from the working directory and
    the reads) is not modelled: `Gather` receives what was found, each
    file as its path and the outcome of reading it. */
module Agent {
  import opened Wrappers
  import opened ContextTypes
  import opened Values
  import Text
  import Paths
  import Ordering
  import Sorting
  import Collect

  // ---------------------------------------------------------------------
  // Format detection

  /** The format an extension names, compared case-insensitively. */
  function FormatOfExtension(ext: string): (r: Option<ConfigFormat>)
    ensures r.Some? <==> Text.ToLower(ext) in ["json", "yaml", "yml", "toml"]
    ensures r.Some? ==> r.value != Text
  {
    var lower := Text.ToLower(ext);
    if lower == "json" then Some(Json)
    else if lower == "yaml" || lower == "yml" then Some(Yaml)
    else if lower == "toml" then Some(Toml)
    else None
  }

  /** The content tests, tried in order on the trimmed text: braces at both
      ends mean JSON; a colon together with a line break or more than 100
      bytes means YAML; square brackets and an equals sign mean TOML;
      anything else is plain text. */
  function SniffFormat(content: string): (f: ConfigFormat)
    ensures var t := Text.Trim(content);
      var braced := |t| > 0 && t[0] == '{' && t[|t| - 1] == '}';
      var yamlish := ':' in t && ('\n' in t || Text.Utf8Len(t) > 100);
      var tomlish := '[' in t && ']' in t && '=' in t;
      && (f == Json <==> braced)
      && (f == Yaml <==> !braced && yamlish)
      && (f == Toml <==> !braced && !yamlish && tomlish)
      && (f == Text <==> !braced && !yamlish && !tomlish)
  {
    var t := Text.Trim(content);
    if |t| > 0 && t[0] == '{' && t[|t| - 1] == '}' then Json
    else if ':' in t && ('\n' in t || Text.Utf8Len(t) > 100) then Yaml
    else if '[' in t && ']' in t && '=' in t then Toml
    else Text
  }

  /** The extension decides when it names a format; otherwise the content
      is sniffed. */
  function DetectFormat(path: string, content: string): (f: ConfigFormat)
    ensures var byExt := match Paths.PathExtension(path)
                        case None => None
                        case Some(ext) => FormatOfExtension(ext);
      f == (if byExt.Some? then byExt.value else SniffFormat(content))
  {
    match Paths.PathExtension(path)
    case Some(ext) =>
      (match FormatOfExtension(ext)
       case Some(fmt) => fmt
       case None => SniffFormat(content))
    case None => SniffFormat(content)
  }

  /** Sniffing looks only at the trimmed text, so whitespace around the
      content never changes the verdict. */
  lemma SniffIgnoresPadding(content: string)
    ensures SniffFormat(Text.Trim(content)) == SniffFormat(content)
  {
    var t := Text.Trim(content);
    Text.TrimTwice(content);
    assert Text.Trim(t) == t;
  }

  /** A file named `stem.ext` whose extension names a format (in any
      letter case) gets that format, whatever it contains. */
  lemma ExtensionDecides(dir: string, stem: string, ext: string, content: string)
    requires |stem| > 0 && '/' !in stem && '/' !in ext && '.' !in ext
    requires FormatOfExtension(ext).Some?
    ensures DetectFormat(dir + "/" + stem + "." + ext, content) == FormatOfExtension(ext).value
  {
    var name := stem + "." + ext;
    assert dir + "/" + stem + "." + ext == dir + "/" + name;
    assert '/' !in name;
    assert name != "." && name != ".." by {
      assert |ext| > 0;
    }
    Paths.FileNameOfJoined(dir, name);
    Paths.ExtensionOfJoined(stem, ext);
  }

  // ---------------------------------------------------------------------
  // Line-based rules

  /** The rules a line-by-line reading of `lines` finds, in order. */
  function RulesOfLines(lines: seq<string>, rule: string -> Option<string>): (r: seq<string>)
    ensures |r| <= |lines|
    ensures forall x :: x in r ==> exists k :: 0 <= k < |lines| && rule(lines[k]) == Some(x)
  {
    if |lines| == 0 then []
    else
      var rest := RulesOfLines(lines[1..], rule);
      assert forall x :: x in rest ==> exists k :: 1 <= k < |lines| && rule(lines[k]) == Some(x) by {
        forall x | x in rest ensures exists k :: 1 <= k < |lines| && rule(lines[k]) == Some(x) {
          var k :| 0 <= k < |lines[1..]| && rule(lines[1..][k]) == Some(x);
          assert rule(lines[k + 1]) == Some(x);
        }
      }
      match rule(lines[0])
      case Some(x) => [x] + rest
      case None => rest
  }

  /** Reading two blocks of lines is reading each in turn. */
  lemma {:induction false} RulesOfLinesAppend(a: seq<string>, b: seq<string>, rule: string -> Option<string>)
    ensures RulesOfLines(a + b, rule) == RulesOfLines(a, rule) + RulesOfLines(b, rule)
  {
    if |a| > 0 {
      assert (a + b)[1..] == a[1..] + b;
      RulesOfLinesAppend(a[1..], b, rule);
    } else {
      assert a + b == b;
    }
  }

  /** A line of a plain-text config, trimmed, is a rule unless it is empty
      or a `#` comment. */
  predicate IsTextRule(x: string) {
    |x| > 0 && x[0] != '#' && Text.IsTrimmed(x)
  }

  function TextRule(line: string): (r: Option<string>)
    ensures r.Some? <==> IsTextRule(Text.Trim(line))
    ensures r.Some? ==> r.value == Text.Trim(line)
  {
    var t := Text.Trim(line);
    if |t| > 0 && t[0] != '#' then Some(t) else None
  }

  function TextRules(content: string): (r: seq<string>)
    ensures forall x :: x in r ==> IsTextRule(x)
  {
    RulesOfLines(Text.Lines(content), TextRule)
  }

  /** Rules written one per line are read back exactly, in order. */
  lemma TextRulesRoundTrip(rules: seq<string>)
    requires forall k :: 0 <= k < |rules| ==> IsTextRule(rules[k]) && '\n' !in rules[k] && '\r' !in rules[k]
    ensures TextRules(Text.JoinTerminated(rules, "\n")) == rules
  {
    Text.LinesOfJoined(rules);
    RulesOfTrimmedLines(rules);
  }

  lemma {:induction false} RulesOfTrimmedLines(rules: seq<string>)
    requires forall k :: 0 <= k < |rules| ==> IsTextRule(rules[k])
    ensures RulesOfLines(rules, TextRule) == rules
  {
    if |rules| > 0 {
      Text.TrimOfTrimmed(rules[0]);
      RulesOfTrimmedLines(rules[1..]);
    }
  }

  /** `trim`, then `trim_matches('"')`, then `trim_matches('\'')`. */
  function Unquote(s: string): string {
    Text.TrimChar(Text.TrimChar(Text.Trim(s), '"'), '\'')
  }

  /** A TOML line gives a rule when, trimmed, it starts with `rule` and has
      an `=`: the text between the first and the second `=`, trimmed and
      stripped of quotes, if that is not empty. */
  function TomlRule(line: string): (r: Option<string>)
    ensures r.Some? ==> Text.StartsWith(Text.Trim(line), "rule") && '=' in Text.Trim(line)
    ensures r.Some? ==> |r.value| > 0 && '=' !in r.value
    ensures r.Some? ==> r.value[0] != '\'' && r.value[|r.value| - 1] != '\''
  {
    var t := Text.Trim(line);
    if Text.StartsWith(t, "rule") && '=' in t then
      var parts := Text.Split(t, '=');
      if |parts| < 2 then None
      else
        var cleaned := Unquote(parts[1]);
        assert '=' !in cleaned by {
          UnquoteKeepsAbsent(parts[1], '=');
        }
        if cleaned != "" then Some(cleaned) else None
    else None
  }

  /** Unquoting only removes characters, so it never introduces one. */
  lemma UnquoteKeepsAbsent(s: string, ch: char)
    requires ch !in s
    ensures ch !in Unquote(s)
  {
    Text.TrimKeepsAbsent(s, ch);
    Text.TrimCharKeepsAbsent(Text.Trim(s), '"', ch);
    Text.TrimCharKeepsAbsent(Text.TrimChar(Text.Trim(s), '"'), '\'', ch);
  }

  function TomlRules(content: string): (r: seq<string>)
    ensures forall x :: x in r ==> |x| > 0 && '=' !in x
  {
    RulesOfLines(Text.Lines(content), TomlRule)
  }

  /** A rule assignment `key = "value"` yields its value, for a `rule…` key
      and a value free of `=`, of surrounding whitespace and of quotes at
      its ends. */
  lemma TomlRuleOfAssignment(key: string, value: string)
    requires Text.StartsWith(key, "rule") && '=' !in key
    requires |value| > 0 && '=' !in value && Text.IsTrimmed(value)
    requires value[0] != '"' && value[|value| - 1] != '"'
    requires value[0] != '\'' && value[|value| - 1] != '\''
    ensures TomlRule(key + " = \"" + value + "\"") == Some(value)
  {
    AssignmentTrimmed(key, value);
    AssignmentPieces(key, value);
    UnquoteQuoted(value);
  }

  /** The assignment line is already trimmed. */
  lemma AssignmentTrimmed(key: string, value: string)
    requires Text.StartsWith(key, "rule")
    ensures Text.Trim(key + " = \"" + value + "\"") == key + " = \"" + value + "\""
  {
    var line := key + " = \"" + value + "\"";
    assert line[0] == key[0] == 'r' && line[|line| - 1] == '"';
    Text.TrimOfTrimmed(line);
  }

  /** The second `=`-piece of the assignment line is the quoted value with
      the space before it. */
  lemma AssignmentPieces(key: string, value: string)
    requires '=' !in key && '=' !in value
    ensures '=' in key + " = \"" + value + "\""
    ensures Text.Split(key + " = \"" + value + "\"", '=') == [key + " ", " \"" + value + "\""]
  {
    var line := key + " = \"" + value + "\"";
    var lhs, rhs := key + " ", " \"" + value + "\"";
    assert line == lhs + ['='] + rhs;
    assert line[|lhs|] == '=';
    assert '=' !in lhs && '=' !in rhs;
    Text.SplitCons(lhs, '=', rhs);
  }

  /** Unquoting a space and a double-quoted value gives the value. */
  lemma UnquoteQuoted(value: string)
    requires |value| > 0 && Text.IsTrimmed(value)
    requires value[0] != '"' && value[|value| - 1] != '"'
    requires value[0] != '\'' && value[|value| - 1] != '\''
    ensures Unquote(" \"" + value + "\"") == value
  {
    var quoted := ['"'] + value + ['"'];
    assert " \"" + value + "\"" == " " + quoted + "";
    Text.TrimPadded(" ", quoted, "");
    Text.TrimCharWrapped(value, '"');
    Text.TrimCharNone(value, '\'');
  }

  // ---------------------------------------------------------------------
  // Rules in a JSON or YAML document

  /** The mapping keys rules are looked up under, in this order. */
  const RuleKeys: seq<string> := ["rules", "instructions", "prompts", "guidelines", "constraints"]

  /** The rules of a document: an object contributes what sits under the
      rule keys, in key order; an array its string elements and the rules
      of its other elements, in order; a string itself. Nothing else
      contributes. The same walk serves JSON and YAML. */
  function Rules(v: Value): seq<string>
    decreases v, 2
  {
    match v
    case Object(_) => RulesFromKeys(v, RuleKeys)
    case Array(_) => RulesOfItems(v, 0)
    case Str(s) => [s]
    case _ => []
  }

  function RulesOfItems(v: Value, i: nat): seq<string>
    requires v.Array?
    decreases v, 1, |v.items| - i
  {
    if i >= |v.items| then []
    else
      var item := v.items[i];
      (if item.Str? then [item.s] else Rules(item)) + RulesOfItems(v, i + 1)
  }

  function RulesFromKeys(v: Value, names: seq<string>): seq<string>
    requires v.Object?
    decreases v, 1, |names|
  {
    if |names| == 0 then []
    else
      var here := match Find(v.fields, names[0])
        case None => []
        case Some(i) => assert v.fields[i] in v.fields; Rules(v.fields[i].value);
      here + RulesFromKeys(v, names[1..])
  }

  /** An independent reading of the array case: the rules of each element,
      concatenated. */
  function RulesOfAll(items: seq<Value>): seq<string> {
    if |items| == 0 then [] else Rules(items[0]) + RulesOfAll(items[1..])
  }

  /** Pushing a string element directly is what recursing into it would
      do, so an array's rules are its elements' rules end to end. */
  lemma ArrayRules(items: seq<Value>)
    ensures Rules(Array(items)) == RulesOfAll(items)
  {
    ItemsFrom(Array(items), 0);
  }

  lemma {:induction false} ItemsFrom(v: Value, i: nat)
    requires v.Array? && i <= |v.items|
    ensures RulesOfItems(v, i) == RulesOfAll(v.items[i..])
    decreases |v.items| - i
  {
    if i < |v.items| {
      ItemsFrom(v, i + 1);
      assert v.items[i..][1..] == v.items[i + 1..];
    }
  }

  lemma {:induction false} RulesOfAllAppend(a: seq<Value>, b: seq<Value>)
    ensures RulesOfAll(a + b) == RulesOfAll(a) + RulesOfAll(b)
  {
    if |a| > 0 {
      assert (a + b)[1..] == a[1..] + b;
      RulesOfAllAppend(a[1..], b);
    } else {
      assert a + b == b;
    }
  }

  /** Joining two arrays joins their rules. */
  lemma ArrayRulesAppend(a: seq<Value>, b: seq<Value>)
    ensures Rules(Array(a + b)) == Rules(Array(a)) + Rules(Array(b))
  {
    ArrayRules(a + b);
    ArrayRules(a);
    ArrayRules(b);
    RulesOfAllAppend(a, b);
  }

  /** Of an object only the values under the rule keys matter: two objects
      that agree there have the same rules, whatever else they hold. */
  lemma ObjectRulesOnlyFromRuleKeys(v: Value, w: Value)
    requires v.Object? && w.Object?
    requires forall k :: k in RuleKeys ==> Get(v, k) == Get(w, k)
    ensures Rules(v) == Rules(w)
  {
    FromKeysAgree(v, w, RuleKeys);
  }

  lemma {:induction false} FromKeysAgree(v: Value, w: Value, names: seq<string>)
    requires v.Object? && w.Object?
    requires forall k :: k in names ==> Get(v, k) == Get(w, k)
    ensures RulesFromKeys(v, names) == RulesFromKeys(w, names)
  {
    if |names| > 0 {
      assert Get(v, names[0]) == Get(w, names[0]);
      FromKeysAgree(v, w, names[1..]);
    }
  }

  /** Numbers, booleans and null contribute nothing. */
  lemma ScalarRules(v: Value)
    requires v.Null? || v.Bool? || v.Number?
    ensures Rules(v) == []
  {
  }

  /** The rules of an object whose only rule key is `rules` are the rules
      of that one value. */
  lemma SingleRuleKey(x: Value, others: seq<Field>)
    requires forall j :: 0 <= j < |others| ==> !(others[j].key.KeyStr? && others[j].key.name in RuleKeys)
    ensures Rules(Object([Field(KeyStr("rules"), x)] + others)) == Rules(x)
  {
    var v := Object([Field(KeyStr("rules"), x)] + others);
    assert Find(v.fields, "rules") == Some(0);
    forall k | k in RuleKeys[1..] ensures Find(v.fields, k).None? {
      forall j | 0 <= j < |v.fields| ensures v.fields[j].key != KeyStr(k) {
        if j > 0 {
          assert v.fields[j] == others[j - 1];
        }
      }
    }
    var rest := RuleKeys[1..];
    assert RulesFromKeys(v, rest[3..]) == [] by {
      assert Find(v.fields, rest[3]).None?;
    }
    assert RulesFromKeys(v, rest[2..]) == [] by {
      assert rest[2..][1..] == rest[3..];
      assert Find(v.fields, rest[2]).None?;
    }
    assert RulesFromKeys(v, rest[1..]) == [] by {
      assert rest[1..][1..] == rest[2..];
      assert Find(v.fields, rest[1]).None?;
    }
    assert RulesFromKeys(v, rest) == [] by {
      assert rest[1..] == rest[1..];
      assert Find(v.fields, rest[0]).None?;
    }
  }

  // ---------------------------------------------------------------------
  // Rules across config files

  /** The rules one file contributes: a document that does not parse
      contributes none. */
  function FileRules(f: AgentConfigFile, parseJson: Parser, parseYaml: Parser): (r: seq<string>)
    ensures f.format == Json && parseJson(f.content).Err? ==> r == []
    ensures f.format == Yaml && parseYaml(f.content).Err? ==> r == []
    ensures f.format == Json && parseJson(f.content).Ok? ==> r == Rules(parseJson(f.content).value)
    ensures f.format == Yaml && parseYaml(f.content).Ok? ==> r == Rules(parseYaml(f.content).value)
    ensures f.format == Text ==> r == TextRules(f.content)
    ensures f.format == Toml ==> r == TomlRules(f.content)
  {
    match f.format
    case Json => (match parseJson(f.content) case Ok(v) => Rules(v) case Err(_) => [])
    case Yaml => (match parseYaml(f.content) case Ok(v) => Rules(v) case Err(_) => [])
    case Text => TextRules(f.content)
    case Toml => TomlRules(f.content)
  }

  /** Every file's rules, file after file. */
  function ExtractRules(files: seq<AgentConfigFile>, parseJson: Parser, parseYaml: Parser): seq<string> {
    Collect.FlatMap(files, f => FileRules(f, parseJson, parseYaml))
  }

  /** Rules of two file lists are the rules of each, in order. */
  lemma ExtractRulesAppend(a: seq<AgentConfigFile>, b: seq<AgentConfigFile>, parseJson: Parser, parseYaml: Parser)
    ensures ExtractRules(a + b, parseJson, parseYaml) == ExtractRules(a, parseJson, parseYaml) + ExtractRules(b, parseJson, parseYaml)
  {
    Collect.FlatMapAppend(a, b, f => FileRules(f, parseJson, parseYaml));
  }

  // ---------------------------------------------------------------------
  // Custom prompts

  predicate IsPromptKey(k: string) {
    Text.Contains(k, "prompt") || Text.Contains(k, "template")
  }

  /** The field a prompt is taken from: a string key naming a prompt or a
      template, with a string value. */
  predicate IsPromptField(f: Field) {
    f.key.KeyStr? && IsPromptKey(f.key.name) && f.value.Str?
  }

  /** Fields are inserted in order, so a later field under the same key
      wins. */
  function PromptsOfFields(fields: seq<Field>): (r: map<string, string>)
    ensures forall k :: k in r <==> exists j :: 0 <= j < |fields| && IsPromptField(fields[j]) && fields[j].key.name == k
    ensures forall k :: k in r ==> Field(KeyStr(k), Str(r[k])) in fields
  {
    if |fields| == 0 then map[]
    else
      var init := fields[..|fields| - 1];
      var last := fields[|fields| - 1];
      var before := PromptsOfFields(init);
      assert forall j :: 0 <= j < |init| ==> init[j] == fields[j];
      if IsPromptField(last) then before[last.key.name := last.value.s] else before
  }

  /** Only the top level of an object is searched for prompts. */
  function PromptsOf(v: Value): (r: map<string, string>)
    ensures !v.Object? ==> r == map[]
  {
    if v.Object? then PromptsOfFields(v.fields) else map[]
  }

  /** With unique keys, a prompt is exactly the string under its key. */
  lemma PromptsOfUnique(v: Value, k: string)
    requires v.Object? && UniqueKeys(v.fields)
    ensures k in PromptsOf(v) <==> IsPromptKey(k) && Get(v, k).Some? && Get(v, k).value.Str?
    ensures k in PromptsOf(v) ==> PromptsOf(v)[k] == Get(v, k).value.s
  {
    var r := PromptsOf(v);
    if k in r {
      var j :| 0 <= j < |v.fields| && v.fields[j] == Field(KeyStr(k), Str(r[k]));
      GetUnique(v, j);
    }
    if IsPromptKey(k) && Get(v, k).Some? && Get(v, k).value.Str? {
      var j := Find(v.fields, k).value;
      assert IsPromptField(v.fields[j]);
    }
  }

  /** The prompts one file contributes: only parsed JSON and YAML
      documents have any. */
  function FilePrompts(f: AgentConfigFile, parseJson: Parser, parseYaml: Parser): (r: map<string, string>)
    ensures f.format == Text || f.format == Toml ==> r == map[]
    ensures f.format == Json ==> r == (if parseJson(f.content).Ok? then PromptsOf(parseJson(f.content).value) else map[])
    ensures f.format == Yaml ==> r == (if parseYaml(f.content).Ok? then PromptsOf(parseYaml(f.content).value) else map[])
  {
    match f.format
    case Json => (match parseJson(f.content) case Ok(v) => PromptsOf(v) case Err(_) => map[])
    case Yaml => (match parseYaml(f.content) case Ok(v) => PromptsOf(v) case Err(_) => map[])
    case _ => map[]
  }

  /** All files' prompts in one map; a later file overrides an earlier one
      on a shared key. */
  function ExtractPrompts(files: seq<AgentConfigFile>, parseJson: Parser, parseYaml: Parser): (r: map<string, string>)
    ensures forall k :: k in r <==> exists j :: 0 <= j < |files| && k in FilePrompts(files[j], parseJson, parseYaml)
  {
    if |files| == 0 then map[]
    else
      var init := files[..|files| - 1];
      assert forall j :: 0 <= j < |init| ==> init[j] == files[j];
      ExtractPrompts(init, parseJson, parseYaml) + FilePrompts(files[|files| - 1], parseJson, parseYaml)
  }

  /** On a key several files define, the last of them wins. */
  lemma {:induction false} LaterFileWins(files: seq<AgentConfigFile>, j: nat, k: string, parseJson: Parser, parseYaml: Parser)
    requires j < |files| && k in FilePrompts(files[j], parseJson, parseYaml)
    requires forall j' :: j < j' < |files| ==> k !in FilePrompts(files[j'], parseJson, parseYaml)
    ensures k in ExtractPrompts(files, parseJson, parseYaml)
    ensures ExtractPrompts(files, parseJson, parseYaml)[k] == FilePrompts(files[j], parseJson, parseYaml)[k]
  {
    var init := files[..|files| - 1];
    if j < |files| - 1 {
      assert init[j] == files[j];
      assert forall j' :: j < j' < |init| ==> init[j'] == files[j'];
      LaterFileWins(init, j, k, parseJson, parseYaml);
    }
  }

  /** A plain-text or TOML file added at the end changes no prompt. */
  lemma PlainFilesAddNoPrompts(files: seq<AgentConfigFile>, f: AgentConfigFile, parseJson: Parser, parseYaml: Parser)
    requires f.format == Text || f.format == Toml
    ensures ExtractPrompts(files + [f], parseJson, parseYaml) == ExtractPrompts(files, parseJson, parseYaml)
  {
    assert (files + [f])[..|files|] == files;
  }

  // ---------------------------------------------------------------------
  // Discovery and the gathered context

  /** A file found by the search, with the outcome of reading it. */
  datatype Found = Found(path: string, content: Result<string>)

  function ConfigPath(f: AgentConfigFile): string {
    f.path
  }

  /** A readable file with its detected format. */
  function Loaded(f: Found): AgentConfigFile
    requires f.content.Ok?
  {
    AgentConfigFile(f.path, f.content.value, DetectFormat(f.path, f.content.value))
  }

  /** The files that could be read, each with its detected format, in the
      order found. */
  function Load(found: seq<Found>): (r: seq<AgentConfigFile>)
    ensures forall f :: f in r <==> (exists j :: 0 <= j < |found| && found[j].content.Ok? && f == Loaded(found[j]))
  {
    if |found| == 0 then []
    else
      var rest := Load(found[1..]);
      assert forall j :: 0 <= j < |found[1..]| ==> found[1..][j] == found[j + 1];
      match found[0].content
      case Ok(c) => [Loaded(found[0])] + rest
      case Err(_) => rest
  }

  /** Sorted by path, one file per path (the first of equals after a
      stable sort). */
  function SortDedupByPath(files: seq<AgentConfigFile>): (r: seq<AgentConfigFile>)
    ensures Sorting.StrictlySortedBy(r, ConfigPath, Ordering.StrLeq)
    ensures forall f :: f in r ==> f in files
    ensures forall f :: f in files ==> Sorting.HasKey(r, ConfigPath, ConfigPath(f))
  {
    Ordering.StrLeqIsTotalOrder();
    var sorted := Sorting.SortBy(files, ConfigPath, Ordering.StrLeq);
    var r := Sorting.DedupBy(sorted, ConfigPath);
    Sorting.DedupSorted(sorted, ConfigPath, Ordering.StrLeq);
    assert forall f :: f in r ==> f in files by {
      Sorting.DedupSubset(sorted, ConfigPath);
      assert forall f :: f in sorted ==> f in multiset(sorted);
    }
    assert forall f :: f in files ==> Sorting.HasKey(r, ConfigPath, ConfigPath(f)) by {
      Sorting.DedupCovers(sorted, ConfigPath);
      assert forall f :: f in files ==> f in multiset(files);
    }
    r
  }

  /** The agent context: the readable files found, sorted and
      de-duplicated by path, with the rules and prompts drawn from them.
      A failed search fails the gathering. */
  function Gather(found: Result<seq<Found>>, parseJson: Parser, parseYaml: Parser): (r: Result<ContextData>)
    ensures r.Ok? <==> found.Ok?
    ensures found.Err? ==> r == Err(found.error)
    ensures r.Ok? ==> r.value.AgentData? && r.value.Kind() == Agent
    ensures r.Ok? ==> var ctx := r.value.agent;
      && Sorting.StrictlySortedBy(ctx.configFiles, ConfigPath, Ordering.StrLeq)
      && (forall f :: f in ctx.configFiles ==> f in Load(found.value))
      && (forall f :: f in Load(found.value) ==> Sorting.HasKey(ctx.configFiles, ConfigPath, ConfigPath(f)))
      && ctx.rules == ExtractRules(ctx.configFiles, parseJson, parseYaml)
      && ctx.customPrompts == ExtractPrompts(ctx.configFiles, parseJson, parseYaml)
  {
    match found
    case Err(e) => Err(e)
    case Ok(fs) =>
      var files := SortDedupByPath(Load(fs));
      Ok(AgentData(AgentContext(files, ExtractRules(files, parseJson, parseYaml), ExtractPrompts(files, parseJson, parseYaml))))
  }

  /** Agent configuration is left to time-based expiry. */
  function ShouldRefresh(cached: ContextData): (r: bool)
    ensures !r
  {
    false
  }
}

=== FILE: cache.dfy ===
/** The on-disk context cache: one JSON file per context type inside the
    cache directory. The directory is a map from file name to what the file
    holds; the clock, the repository fingerprints (`git rev-parse HEAD` and
    the digest of `git status --porcelain=v1`) and whether the disk accepts
    writes are explicit inputs. */
module Cache {
  import opened Wrappers
  import opened ContextTypes
  import Text

  /** The pair of fingerprints entries are checked against. The commit hash
      is absent outside a repository or before the first commit; the
      working-tree digest is absent when `git status` fails. */
  datatype Fingerprints = Fingerprints(commitHash: Option<string>, workingTreeHash: Option<string>)

  /** What the system observes of the outside world during one operation. */
  datatype Io = Io(now: int, fingerprints: Fingerprints, writable: bool)

  datatype CacheEntry = CacheEntry(
    data: ContextData,
    gitCommitHash: Option<string>,
    workingTreeHash: Option<string>,
    createdAt: int,
    expiresAt: Option<int>)

  /** A cache file either holds an entry or text that cannot be read back
      as one. */
  datatype CacheFile = Stored(entry: CacheEntry) | Corrupt

  /** The files of the cache directory, by name. */
  type Disk = map<string, CacheFile>

  /** The outcome of an operation together with the directory it leaves. */
  datatype Step<+T> = Step(result: Result<T>, disk: Disk)

  const Minute: nat := 60
  const Hour: nat := 60 * Minute

  /** The `Debug` spelling of a context type. */
  function DebugName(t: ContextType): string {
    match t
    case Git => "Git"
    case Project => "Project"
    case Agent => "Agent"
    case Interaction => "Interaction"
  }

  /** The name of the file that caches `t`: the variant name, lower-cased,
      with a `.json` extension. */
  function CacheFileName(t: ContextType): (r: string)
    ensures Text.EndsWith(r, ".json")
    ensures r == Text.ToLower(DebugName(t)) + ".json"
  {
    Text.ToLower(DebugName(t) + ".json")
  }

  lemma GitFileName()
    ensures CacheFileName(Git) == "git.json"
  {
    assert Text.ToLower("Git") == "git";
  }

  lemma ProjectFileName()
    ensures CacheFileName(Project) == "project.json"
  {
    assert Text.ToLower("Project") == "project";
  }

  lemma AgentFileName()
    ensures CacheFileName(Agent) == "agent.json"
  {
    assert Text.ToLower("Agent") == "agent";
  }

  lemma InteractionFileName()
    ensures CacheFileName(Interaction) == "interaction.json"
  {
    assert Text.ToLower("Interaction") == "interaction";
  }

  /** The four file names spelled out. */
  lemma CacheFileNameOf(t: ContextType)
    ensures t == Git ==> CacheFileName(t) == "git.json"
    ensures t == Project ==> CacheFileName(t) == "project.json"
    ensures t == Agent ==> CacheFileName(t) == "agent.json"
    ensures t == Interaction ==> CacheFileName(t) == "interaction.json"
  {
    match t
    case Git => GitFileName();
    case Project => ProjectFileName();
    case Agent => AgentFileName();
    case Interaction => InteractionFileName();
  }

  /** Distinct context types never share a cache file. */
  lemma CacheFileNameInjective(t: ContextType, u: ContextType)
    requires t != u
    ensures CacheFileName(t) != CacheFileName(u)
  {
    CacheFileNameOf(t);
    CacheFileNameOf(u);
  }

  /** How long an entry of type `t` stays fresh, if it ever goes stale. */
  function TimeToLive(t: ContextType): (r: Option<nat>)
    ensures r.None? <==> t == Interaction
    ensures t == Git ==> r == Some(5 * Minute)
    ensures t == Project ==> r == Some(Hour)
    ensures t == Agent ==> r == Some(24 * Hour)
  {
    match t
    case Git => Some(300)
    case Project => Some(3600)
    case Agent => Some(86400)
    case Interaction => None
  }

  /** The expiry stamped on an entry of type `t` stored at `now`. */
  function ExpiryTime(t: ContextType, now: int): (r: Option<int>)
    ensures r.None? <==> t == Interaction
    ensures r.Some? ==> r.value > now && r.value - now == TimeToLive(t).value
  {
    match TimeToLive(t)
    case None => None
    case Some(d) => Some(now + d)
  }

  /** Whether a stored entry may still be served at `now` under the live
      fingerprints. */
  function IsValid(e: CacheEntry, now: int, live: Fingerprints): (r: bool)
    ensures r <==>
      && (e.expiresAt.None? || now <= e.expiresAt.value)
      && e.gitCommitHash == live.commitHash
      && e.workingTreeHash == live.workingTreeHash
  {
    if e.expiresAt.Some? && now > e.expiresAt.value then false
    else if e.gitCommitHash != live.commitHash then false
    else if e.workingTreeHash != live.workingTreeHash then false
    else true
  }

  /** Reads the entry for `t`. A missing file is a miss; a file that does
      not hold an entry is an error and stays on disk; a stale entry is a
      miss and its file is removed (silently left in place when the removal
      fails). */
  function Get(disk: Disk, t: ContextType, io: Io): (out: Step<Option<ContextData>>)
    ensures CacheFileName(t) !in disk ==> out == Step(Ok(None), disk)
    ensures CacheFileName(t) in disk && disk[CacheFileName(t)].Corrupt? ==>
      out.result.Err? && out.disk == disk
    ensures out.result.Ok? && out.result.value.Some? ==>
      && CacheFileName(t) in disk
      && disk[CacheFileName(t)].Stored?
      && IsValid(disk[CacheFileName(t)].entry, io.now, io.fingerprints)
      && out.result.value.value == disk[CacheFileName(t)].entry.data
      && out.disk == disk
    ensures CacheFileName(t) in disk && disk[CacheFileName(t)].Stored? ==>
      out.result.Ok? &&
      (out.result.value.Some? <==> IsValid(disk[CacheFileName(t)].entry, io.now, io.fingerprints))
    ensures out.result.Ok? && out.result.value.None? && CacheFileName(t) in disk ==>
      out.disk == if io.writable then disk - {CacheFileName(t)} else disk
    ensures forall n :: n != CacheFileName(t) ==>
      (n in out.disk <==> n in disk) && (n in disk ==> out.disk[n] == disk[n])
  {
    var name := CacheFileName(t);
    if name !in disk then Step(Ok(None), disk)
    else
      match disk[name]
      case Corrupt => Step(Err("Failed to parse cache file: " + name), disk)
      case Stored(e) =>
        if IsValid(e, io.now, io.fingerprints) then Step(Ok(Some(e.data)), disk)
        else Step(Ok(None), if io.writable then disk - {name} else disk)
  }

  /** The entry `store` writes for `data` of type `t`. */
  function NewEntry(t: ContextType, data: ContextData, io: Io): (e: CacheEntry)
    ensures e.data == data && e.createdAt == io.now
    ensures e.gitCommitHash == io.fingerprints.commitHash
    ensures e.workingTreeHash == io.fingerprints.workingTreeHash
    ensures e.expiresAt == ExpiryTime(t, io.now)
  {
    CacheEntry(data, io.fingerprints.commitHash, io.fingerprints.workingTreeHash, io.now, ExpiryTime(t, io.now))
  }

  /** Writes (or overwrites) the entry for `t`. */
  function Store(disk: Disk, t: ContextType, data: ContextData, io: Io): (out: Step<()>)
    ensures out.result.Ok? <==> io.writable
    ensures out.result.Ok? ==> out.disk == disk[CacheFileName(t) := Stored(NewEntry(t, data, io))]
    ensures out.result.Err? ==> out.disk == disk
  {
    var name := CacheFileName(t);
    if io.writable then Step(Ok(()), disk[name := Stored(NewEntry(t, data, io))])
    else Step(Err("Failed to write cache file: " + name), disk)
  }

  /** Removes the entry for `t`, if there is one. */
  function ClearType(disk: Disk, t: ContextType, io: Io): (out: Step<()>)
    ensures out.result.Ok? ==> CacheFileName(t) !in out.disk
    ensures out.result.Err? <==> CacheFileName(t) in disk && !io.writable
    ensures out.result.Err? ==> out.disk == disk
    ensures forall n :: n != CacheFileName(t) ==>
      (n in out.disk <==> n in disk) && (n in disk ==> out.disk[n] == disk[n])
  {
    var name := CacheFileName(t);
    if name !in disk then Step(Ok(()), disk)
    else if io.writable then Step(Ok(()), disk - {name})
    else Step(Err("Failed to remove cache file: " + name), disk)
  }

  /** Removes every file of the cache directory. A read-only disk fails at
      the first file and leaves the directory as it was. */
  function ClearAll(disk: Disk, io: Io): (out: Step<()>)
    ensures out.result.Ok? ==> out.disk == map[]
    ensures out.result.Err? <==> |disk| > 0 && !io.writable
    ensures out.result.Err? ==> out.disk == disk
  {
    if |disk| == 0 then Step(Ok(()), map[])
    else if io.writable then Step(Ok(()), map[])
    else Step(Err("Failed to remove cache file"), disk)
  }

  // ---------------------------------------------------------------------
  // How the operations fit together

  /** Storing and then reading back, with the fingerprints unchanged and no
      later than the expiry, returns exactly what was stored. The entry is
      still valid at its expiry instant. */
  lemma {:induction false} StoreThenGet(disk: Disk, t: ContextType, data: ContextData, io: Io, later: Io)
    requires io.writable
    requires later.fingerprints == io.fingerprints
    requires TimeToLive(t).Some? ==> later.now <= io.now + TimeToLive(t).value
    ensures Get(Store(disk, t, data, io).disk, t, later) == Step(Ok(Some(data)), Store(disk, t, data, io).disk)
  {
    var stored := Store(disk, t, data, io).disk;
    assert stored[CacheFileName(t)] == Stored(NewEntry(t, data, io));
    assert IsValid(NewEntry(t, data, io), later.now, later.fingerprints);
  }

  /** Past its expiry a stored entry is a miss, and a writable disk loses
      its file. */
  lemma {:induction false} StoreThenGetExpired(disk: Disk, t: ContextType, data: ContextData, io: Io, later: Io)
    requires io.writable && later.writable
    requires TimeToLive(t).Some? && later.now > io.now + TimeToLive(t).value
    ensures Get(Store(disk, t, data, io).disk, t, later) ==
      Step(Ok(None), Store(disk, t, data, io).disk - {CacheFileName(t)})
  {
    var stored := Store(disk, t, data, io).disk;
    assert stored[CacheFileName(t)] == Stored(NewEntry(t, data, io));
    assert !IsValid(NewEntry(t, data, io), later.now, later.fingerprints);
  }

  /** A change of either fingerprint turns a stored entry into a miss. */
  lemma {:induction false} FingerprintChangeInvalidates(disk: Disk, t: ContextType, data: ContextData, io: Io, later: Io)
    requires io.writable
    requires later.fingerprints != io.fingerprints
    ensures Get(Store(disk, t, data, io).disk, t, later).result == Ok(None)
  {
    var stored := Store(disk, t, data, io).disk;
    assert stored[CacheFileName(t)] == Stored(NewEntry(t, data, io));
    assert !IsValid(NewEntry(t, data, io), later.now, later.fingerprints);
  }

  /** Interaction entries never go stale by time. */
  lemma {:induction false} InteractionNeverExpires(disk: Disk, data: ContextData, io: Io, later: Io)
    requires io.writable
    requires later.fingerprints == io.fingerprints
    ensures Get(Store(disk, Interaction, data, io).disk, Interaction, later).result == Ok(Some(data))
  {
    StoreThenGet(disk, Interaction, data, io, later);
  }

  /** `a` and `b` agree on the file `name`: both lack it, or both hold the
      same thing under it. */
  ghost predicate SameFile(a: Disk, b: Disk, name: string) {
    (name in a <==> name in b) && (name in a ==> a[name] == b[name])
  }

  /** Reading `t` looks at `t`'s own file only. */
  lemma GetReadsOwnFile(a: Disk, b: Disk, t: ContextType, io: Io)
    requires SameFile(a, b, CacheFileName(t))
    ensures Get(a, t, io).result == Get(b, t, io).result
  {
  }

  /** Storing one type leaves every other type's reads as they were. */
  lemma {:induction false} StoreIsolated(disk: Disk, t: ContextType, u: ContextType, data: ContextData, io: Io, later: Io)
    requires t != u
    ensures Get(Store(disk, t, data, io).disk, u, later).result == Get(disk, u, later).result
  {
    CacheFileNameInjective(t, u);
    var stored := Store(disk, t, data, io).disk;
    assert CacheFileName(u) in stored <==> CacheFileName(u) in disk;
    if CacheFileName(u) in disk {
      assert stored[CacheFileName(u)] == disk[CacheFileName(u)];
    }
  }

  /** A miss caused by staleness is not repeated as an error: the second
      read on a writable disk finds nothing. */
  lemma {:induction false} GetStaleThenAbsent(disk: Disk, t: ContextType, io: Io)
    requires io.writable
    requires Get(disk, t, io).result == Ok(None)
    ensures Get(Get(disk, t, io).disk, t, io) == Step(Ok(None), Get(disk, t, io).disk)
  {
  }

  /** After `clear_type`, reading that type is a miss. */
  lemma {:induction false} ClearTypeThenGet(disk: Disk, t: ContextType, io: Io)
    requires ClearType(disk, t, io).result.Ok?
    ensures Get(ClearType(disk, t, io).disk, t, io) == Step(Ok(None), ClearType(disk, t, io).disk)
  {
  }
}

=== FILE: collect.dfy ===
/** Two shapes the providers' walks take over and over: the key of every
    kept element, in order (`filter(..).map(..).collect()`), and a map from
    key to value over the kept elements, where a later element replaces an
    earlier one with the same key (`HashMap::insert` in a loop). */
module Collect {

  /** How many elements are kept. */
  function CountOf<T>(s: seq<T>, keep: T -> bool): nat {
    if |s| == 0 then 0 else CountOf(s[..|s| - 1], keep) + (if keep(s[|s| - 1]) then 1 else 0)
  }

  /** The key of each kept element, in order. */
  function KeysOf<T>(s: seq<T>, keep: T -> bool, key: T -> string): (r: seq<string>)
    ensures |r| == CountOf(s, keep)
  {
    if |s| == 0 then []
    else KeysOf(s[..|s| - 1], keep, key) + (if keep(s[|s| - 1]) then [key(s[|s| - 1])] else [])
  }

  /** A key is listed exactly when some kept element has it. */
  lemma {:induction false} KeysOfMembers<T>(s: seq<T>, keep: T -> bool, key: T -> string, k: string)
    ensures k in KeysOf(s, keep, key) <==> exists i :: 0 <= i < |s| && keep(s[i]) && key(s[i]) == k
  {
    if |s| > 0 {
      var init := s[..|s| - 1];
      KeysOfMembers(init, keep, key, k);
      if k in KeysOf(init, keep, key) {
        var i :| 0 <= i < |init| && keep(init[i]) && key(init[i]) == k;
        assert s[i] == init[i];
      }
      if exists i :: 0 <= i < |s| && keep(s[i]) && key(s[i]) == k {
        var i :| 0 <= i < |s| && keep(s[i]) && key(s[i]) == k;
        if i < |init| {
          assert init[i] == s[i];
        }
      }
    }
  }

  /** Key to value for every kept element; the last one wins. */
  function IndexBy<T>(s: seq<T>, keep: T -> bool, key: T -> string, val: T -> string): map<string, string> {
    if |s| == 0 then map[]
    else
      var m := IndexBy(s[..|s| - 1], keep, key, val);
      if keep(s[|s| - 1]) then m[key(s[|s| - 1]) := val(s[|s| - 1])] else m
  }

  /** A key is present exactly when some kept element has it, and its value
      is the value of such an element. */
  lemma {:induction false} IndexByMembers<T>(s: seq<T>, keep: T -> bool, key: T -> string, val: T -> string, k: string)
    ensures k in IndexBy(s, keep, key, val) <==> exists i :: 0 <= i < |s| && keep(s[i]) && key(s[i]) == k
    ensures k in IndexBy(s, keep, key, val) ==>
      exists i :: 0 <= i < |s| && keep(s[i]) && key(s[i]) == k && val(s[i]) == IndexBy(s, keep, key, val)[k]
  {
    if |s| > 0 {
      var init := s[..|s| - 1];
      var last := s[|s| - 1];
      IndexByMembers(init, keep, key, val, k);
      if k in IndexBy(init, keep, key, val) {
        var i :| 0 <= i < |init| && keep(init[i]) && key(init[i]) == k;
        assert s[i] == init[i];
      }
      if exists i :: 0 <= i < |s| && keep(s[i]) && key(s[i]) == k {
        var i :| 0 <= i < |s| && keep(s[i]) && key(s[i]) == k;
        if i < |init| {
          assert init[i] == s[i];
        }
      }
      if k in IndexBy(init, keep, key, val) && !(keep(last) && key(last) == k) {
        var i :| 0 <= i < |init| && keep(init[i]) && key(init[i]) == k && val(init[i]) == IndexBy(init, keep, key, val)[k];
        assert s[i] == init[i];
      }
    }
  }

  /** Every value in the index satisfies what every kept element's value
      satisfies. */
  lemma {:induction false} IndexByValues<T>(s: seq<T>, keep: T -> bool, key: T -> string, val: T -> string, ok: string -> bool)
    requires forall i :: 0 <= i < |s| && keep(s[i]) ==> ok(val(s[i]))
    ensures forall k :: k in IndexBy(s, keep, key, val) ==> ok(IndexBy(s, keep, key, val)[k])
  {
    if |s| > 0 {
      var init := s[..|s| - 1];
      assert forall i :: 0 <= i < |init| ==> init[i] == s[i];
      IndexByValues(init, keep, key, val, ok);
    }
  }

  /** Each element's contribution, concatenated in order. */
  function FlatMap<T, U>(s: seq<T>, f: T -> seq<U>): seq<U> {
    if |s| == 0 then [] else f(s[0]) + FlatMap(s[1..], f)
  }

  /** Contributions of two sequences are those of each, in order. */
  lemma {:induction false} FlatMapAppend<T, U>(a: seq<T>, b: seq<T>, f: T -> seq<U>)
    ensures FlatMap(a + b, f) == FlatMap(a, f) + FlatMap(b, f)
  {
    if |a| > 0 {
      assert (a + b)[0] == a[0] && (a + b)[1..] == a[1..] + b;
      FlatMapAppend(a[1..], b, f);
    } else {
      assert a + b == b;
    }
  }

  /** An element of the result comes from some element's contribution. */
  lemma {:induction false} FlatMapMembers<T, U>(s: seq<T>, f: T -> seq<U>, x: U)
    ensures x in FlatMap(s, f) <==> exists i :: 0 <= i < |s| && x in f(s[i])
  {
    if |s| > 0 {
      FlatMapMembers(s[1..], f, x);
      if exists i :: 0 <= i < |s[1..]| && x in f(s[1..][i]) {
        var i :| 0 <= i < |s[1..]| && x in f(s[1..][i]);
        assert s[1..][i] == s[i + 1];
      }
      if exists i :: 0 <= i < |s| && x in f(s[i]) {
        var i :| 0 <= i < |s| && x in f(s[i]);
        if i > 0 {
          assert s[1..][i - 1] == s[i];
        }
      }
    }
  }

  /** When each element contributes at most one value, the result is no
      longer than the input. */
  lemma {:induction false} FlatMapShort<T, U>(s: seq<T>, f: T -> seq<U>)
    requires forall i :: 0 <= i < |s| ==> |f(s[i])| <= 1
    ensures |FlatMap(s, f)| <= |s|
  {
    if |s| > 0 {
      assert forall i :: 0 <= i < |s[1..]| ==> s[1..][i] == s[i + 1];
      FlatMapShort(s[1..], f);
    }
  }
}

=== FILE: commands.dfy ===
/** The commands (the files under `src/commands`): how each picks its prompt template,
    merges configuration into its command-line arguments, assembles the
    prompt, and decides whether to stop early, print a dry run or hand the
    prompt to the agent. Context gathering, serialisation and the user's
    answer on standard input enter as results; the agent call itself is the
    `RunAgent` outcome. The built-in prompt texts are parameters. */
module Commands {
  import opened Wrappers
  import opened Text
  import opened ContextTypes
  import Configuration
  import ContextManager

  /** What a command invocation ends in. */
  datatype Outcome =
    | Failed(error: string)
    | Aborted
    | NothingToCommit
    | DryRun(prompt: string)
    | RunAgent(prompt: string, noConfirm: bool)

  /** The command-line arguments that shape the prompt and the run. */
  datatype CommonArgs = CommonArgs(dryRun: bool, message: Option<string>)

  // ---------------------------------------------------------------------
  // Shared by commit, ignore and init

  /** `prompt_template`: the configured prompt when set, else the built-in. */
  function PromptTemplate(cfg: Configuration.CommandConfig, builtin: string): (r: string)
    ensures cfg.prompt.Some? ==> r == cfg.prompt.value
    ensures cfg.prompt.None? ==> r == builtin
  {
    cfg.prompt.GetOr(builtin)
  }

  /** `resolve_args` of ignore and init: a configured `no_confirm` replaces
      the command-line flag, whatever the flag says. */
  function ConfigOverridesNoConfirm(cli: bool, cfg: Configuration.CommandConfig): (r: bool)
    ensures cfg.noConfirm.Some? ==> r == cfg.noConfirm.value
    ensures cfg.noConfirm.None? ==> r == cli
  {
    cfg.noConfirm.GetOr(cli)
  }

  /** `resolve_args` of commit: a configured `no_confirm` only applies when
      the flag was not given; a given flag is never overridden. */
  function CommitNoConfirm(cli: bool, cfg: Configuration.CommandConfig): (r: bool)
    ensures cli ==> r
    ensures !cli && cfg.noConfirm.Some? ==> r == cfg.noConfirm.value
    ensures cfg.noConfirm.None? ==> r == cli
  {
    if cfg.noConfirm.Some? && !cli then cfg.noConfirm.value else cli
  }

  /** Commit skips confirmation exactly when the flag or the configuration
      asks for it; ignore and init let a configured `false` win over the
      flag, commit does not. */
  lemma NoConfirmResolution(cli: bool, cfg: Configuration.CommandConfig)
    ensures CommitNoConfirm(cli, cfg) <==> cli || cfg.noConfirm == Some(true)
    ensures cli && cfg.noConfirm == Some(false) ==> CommitNoConfirm(cli, cfg) && !ConfigOverridesNoConfirm(cli, cfg)
  {
  }

  /** The blank line and title that introduce a section of a prompt. */
  function Heading(title: string): string {
    "\n\n" + title + ": "
  }

  /** A prompt followed by a titled section. */
  function Section(prompt: string, title: string, body: string): (r: string)
    ensures r == prompt + Heading(title) + body
  {
    prompt + "\n\n" + title + ": " + body
  }

  /** The titled section for a value that may be absent: nothing when it is. */
  function Part(title: string, body: Option<string>): string {
    if body.Some? then Heading(title) + body.value else ""
  }

  /** `prompt = format!("{}\n\n<title>: {}", prompt, value)` when the value
      is present. */
  function OptionalSection(prompt: string, title: string, body: Option<string>): (r: string)
    ensures r == prompt + Part(title, body)
  {
    match body
    case None =>
      assert prompt + "" == prompt;
      prompt
    case Some(b) => Section(prompt, title, b)
  }

  // ---------------------------------------------------------------------
  // commit

  /** `CommitCommand::required_context`: every kind of context. */
  function CommitRequiredContext(): (r: seq<ContextType>)
    ensures |r| == 4
    ensures Git in r && Project in r && Agent in r && Interaction in r
    ensures forall i, j :: 0 <= i < j < |r| ==> r[i] != r[j]
  {
    var r := [Git, Project, Agent, Interaction];
    assert r[0] == Git && r[1] == Project && r[2] == Agent && r[3] == Interaction;
    r
  }

  /** The commit prompt before context: the template, then the user's
      message under "User context" when there is one. */
  function CommitBasePrompt(template: string, message: Option<string>): (r: string)
    ensures message.None? ==> r == template
    ensures message.Some? ==> r == template + Heading("User context") + message.value
  {
    OptionalSection(template, "User context", message)
  }

  /** The first character of the lower-cased trimmed answer is `y`. */
  predicate Confirms(answer: string) {
    var t := ToLower(Trim(answer));
    |t| > 0 && t[0] == 'y'
  }

  /** The repository status in the gathered bundle, when Git context was
      gathered. */
  function GitStatus(bundle: ContextBundle): (r: Option<RepositoryStatus>)
    ensures r.Some? <==> Git in bundle.contexts && bundle.contexts[Git].GitData?
    ensures r.Some? ==> r.value == bundle.contexts[Git].git.repositoryStatus
  {
    match bundle.Get(Git)
    case Some(GitData(g)) => Some(g.repositoryStatus)
    case _ => None
  }

  /** Staged nothing but changed something: the user is asked to confirm. */
  predicate OnlyUnstaged(s: RepositoryStatus) {
    |s.stagedFiles| == 0 && |s.unstagedFiles| > 0
  }

  predicate NoChanges(s: RepositoryStatus) {
    |s.stagedFiles| == 0 && |s.unstagedFiles| == 0 && |s.untrackedFiles| == 0
  }

  /** With only unstaged changes and confirmation on, the user is asked. */
  predicate Asks(bundle: ContextBundle, noConfirm: bool) {
    GitStatus(bundle).Some? && OnlyUnstaged(GitStatus(bundle).value) && !noConfirm
  }

  /** The commit goes ahead to `apply_context`: the user was not asked or
      answered yes, and the repository has some change. */
  predicate Proceeds(bundle: ContextBundle, noConfirm: bool, answer: Result<string>) {
    (!Asks(bundle, noConfirm) || (answer.Ok? && Confirms(answer.value)))
    && !(GitStatus(bundle).Some? && NoChanges(GitStatus(bundle).value))
  }

  /** The decisions of `CommitCommand::execute` after context is gathered:
      a failure to gather or to serialise the bundle is an error; with only
      unstaged changes and confirmation on, an answer not starting with `y`
      aborts (a failed read of the answer is an error); with no changes at
      all nothing is committed; otherwise the prompt with context is
      printed for a dry run or given to the agent. */
  function CommitExecute(template: string, args: CommonArgs, noConfirm: bool,
                         gathered: Result<ContextBundle>, contextJson: Result<string>,
                         answer: Result<string>): (r: Outcome)
    ensures gathered.Err? ==> r == Failed(gathered.error)
    ensures r == NothingToCommit <==>
      gathered.Ok? && GitStatus(gathered.value).Some? && NoChanges(GitStatus(gathered.value).value)
    ensures r == Aborted <==>
      gathered.Ok? && GitStatus(gathered.value).Some? && OnlyUnstaged(GitStatus(gathered.value).value)
      && !noConfirm && answer.Ok? && !Confirms(answer.value)
    ensures r.DryRun? ==> (args.dryRun && contextJson.Ok?
      && r.prompt == ContextManager.ApplyContext(CommitBasePrompt(template, args.message), contextJson.value))
    ensures r.RunAgent? ==> (!args.dryRun && contextJson.Ok? && r.noConfirm == noConfirm
      && r.prompt == ContextManager.ApplyContext(CommitBasePrompt(template, args.message), contextJson.value))
    ensures r.Failed? <==> (gathered.Err?
      || (gathered.Ok? && Asks(gathered.value, noConfirm) && answer.Err?)
      || (gathered.Ok? && Proceeds(gathered.value, noConfirm, answer) && contextJson.Err?))
    ensures gathered.Ok? && Asks(gathered.value, noConfirm) && answer.Err? ==> r == Failed(answer.error)
    ensures gathered.Ok? && Proceeds(gathered.value, noConfirm, answer) && contextJson.Err? ==> r == Failed(contextJson.error)
    ensures r.DryRun? <==> gathered.Ok? && Proceeds(gathered.value, noConfirm, answer) && contextJson.Ok? && args.dryRun
    ensures r.RunAgent? <==> gathered.Ok? && Proceeds(gathered.value, noConfirm, answer) && contextJson.Ok? && !args.dryRun
  {
    match gathered
    case Err(e) => Failed(e)
    case Ok(bundle) =>
      var status := GitStatus(bundle);
      if status.Some? && OnlyUnstaged(status.value) && !noConfirm && answer.Err? then Failed(answer.error)
      else if status.Some? && OnlyUnstaged(status.value) && !noConfirm && !Confirms(answer.value) then Aborted
      else if status.Some? && NoChanges(status.value) then NothingToCommit
      else
        match contextJson
        case Err(e) => Failed(e)
        case Ok(json) =>
          var prompt := ContextManager.ApplyContext(CommitBasePrompt(template, args.message), json);
          if args.dryRun then DryRun(prompt) else RunAgent(prompt, noConfirm)
  }

  /** With confirmation off, the answer on standard input is never read:
      the outcome does not depend on it. */
  lemma CommitNoConfirmNeverAsks(template: string, args: CommonArgs, gathered: Result<ContextBundle>,
                                 contextJson: Result<string>, a1: Result<string>, a2: Result<string>)
    ensures CommitExecute(template, args, true, gathered, contextJson, a1) ==
            CommitExecute(template, args, true, gathered, contextJson, a2)
  {
  }

  /** A clean repository stops before the context is serialised. */
  lemma CommitCleanIgnoresSerialisation(template: string, args: CommonArgs, noConfirm: bool,
                                        bundle: ContextBundle, j1: Result<string>, j2: Result<string>, answer: Result<string>)
    requires GitStatus(bundle).Some? && NoChanges(GitStatus(bundle).value)
    ensures CommitExecute(template, args, noConfirm, Ok(bundle), j1, answer) == NothingToCommit
    ensures CommitExecute(template, args, noConfirm, Ok(bundle), j2, answer) == NothingToCommit
  {
  }

  // ---------------------------------------------------------------------
  // ignore

  /** `IgnoreCommand::required_context`: everything but Git. */
  function IgnoreRequiredContext(): (r: seq<ContextType>)
    ensures |r| == 3
    ensures Git !in r && Project in r && Agent in r && Interaction in r
    ensures forall i, j :: 0 <= i < j < |r| ==> r[i] != r[j]
  {
    var r := [Project, Agent, Interaction];
    assert r[0] == Project && r[1] == Agent && r[2] == Interaction;
    r
  }

  /** The languages section: present only when there is a language. */
  function LanguagesPart(languages: seq<string>): string {
    if |languages| == 0 then "" else Heading("Languages/Tools") + Join(languages, ", ")
  }

  /** The ignore prompt: the template, the action, then the languages
      joined by ", " when there are any. */
  function IgnorePrompt(template: string, action: string, languages: seq<string>): (r: string)
    ensures r == template + Heading("Action") + action + LanguagesPart(languages)
  {
    var withAction := Section(template, "Action", action);
    if |languages| == 0 then
      assert withAction + "" == withAction;
      withAction
    else Section(withAction, "Languages/Tools", Join(languages, ", "))
  }

  /** A single language is named as it is; further ones follow after ", ". */
  lemma {:induction false} LanguagesPartCons(first: string, rest: seq<string>)
    ensures LanguagesPart([first]) == Heading("Languages/Tools") + first
    ensures |rest| > 0 ==> LanguagesPart([first] + rest) == LanguagesPart([first]) + ", " + Join(rest, ", ")
  {
    assert ([first] + rest)[1..] == rest;
  }

  /** `IgnoreCommand::execute`: a gathering or serialisation failure is an
      error; otherwise the prompt with context is printed for a dry run or
      given to the agent. */
  function IgnoreExecute(template: string, action: string, languages: seq<string>, dryRun: bool, noConfirm: bool,
                         gathered: Result<ContextBundle>, contextJson: Result<string>): (r: Outcome)
    ensures r.Failed? <==> gathered.Err? || contextJson.Err?
    ensures r.DryRun? <==> dryRun && gathered.Ok? && contextJson.Ok?
    ensures r.DryRun? || r.RunAgent? ==>
      r.prompt == ContextManager.ApplyContext(IgnorePrompt(template, action, languages), contextJson.value)
    ensures r.RunAgent? ==> r.noConfirm == noConfirm
    ensures !r.Aborted? && !r.NothingToCommit?
  {
    if gathered.Err? then Failed(gathered.error)
    else if contextJson.Err? then Failed(contextJson.error)
    else
      var prompt := ContextManager.ApplyContext(IgnorePrompt(template, action, languages), contextJson.value);
      if dryRun then DryRun(prompt) else RunAgent(prompt, noConfirm)
  }

  // ---------------------------------------------------------------------
  // init

  /** The init prompt: the template, then the target language, the project
      name and the user's message, each under its title and only when
      given, in that order. */
  function InitPrompt(template: string, language: Option<string>, name: Option<string>, message: Option<string>): (r: string)
    ensures r == template + Part("Target Language", language) + Part("Project Name", name) + Part("User Context", message)
  {
    var withLanguage := OptionalSection(template, "Target Language", language);
    var withName := OptionalSection(withLanguage, "Project Name", name);
    OptionalSection(withName, "User Context", message)
  }

  /** With nothing given the template is used as it is; the user's message,
      when given, always comes last. */
  lemma InitPromptEnds(template: string, language: Option<string>, name: Option<string>, message: Option<string>)
    ensures language.None? && name.None? && message.None? ==> InitPrompt(template, language, name, message) == template
    ensures message.Some? ==> EndsWith(InitPrompt(template, language, name, message), Heading("User Context") + message.value)
  {
    var r := InitPrompt(template, language, name, message);
    if message.Some? {
      var tail := Heading("User Context") + message.value;
      assert r == template + Part("Target Language", language) + Part("Project Name", name) + tail;
      assert r[|r| - |tail|..] == tail;
    }
  }

  /** `InitCommand::execute`: no context is gathered; the prompt is printed
      for a dry run or given to the agent. */
  function InitExecute(template: string, language: Option<string>, name: Option<string>, args: CommonArgs, noConfirm: bool): (r: Outcome)
    ensures r.DryRun? || r.RunAgent?
    ensures r.DryRun? <==> args.dryRun
    ensures r.prompt == InitPrompt(template, language, name, args.message)
    ensures r.RunAgent? ==> r.noConfirm == noConfirm
  {
    var prompt := InitPrompt(template, language, name, args.message);
    if args.dryRun then DryRun(prompt) else RunAgent(prompt, noConfirm)
  }

  // ---------------------------------------------------------------------
  // merge and pr

  /** The shape merge and pr share: a base prompt, the message under a
      titled heading when there is one, a blank line, and the instruction. */
  function FramedPrompt(base: string, title: string, message: Option<string>, instruction: string): (r: string)
    ensures r == base + Part(title, message) + "\n\n" + instruction
  {
    match message
    case Some(m) => base + "\n\n" + title + ": " + m + "\n\n" + instruction
    case None => base + "\n\n" + instruction
  }

  /** A framed prompt begins with the base and ends with the instruction. */
  lemma FramedPromptFrame(base: string, title: string, message: Option<string>, instruction: string)
    ensures StartsWith(FramedPrompt(base, title, message, instruction), base)
    ensures EndsWith(FramedPrompt(base, title, message, instruction), instruction)
  {
    var r := FramedPrompt(base, title, message, instruction);
    var head := base + Part(title, message);
    var tail := "\n\n" + instruction;
    assert r == head + tail;
    assert head[..|base|] == base;
    assert r[..|base|] == head[..|base|];
    assert r[|r| - |instruction|..] == tail[|tail| - |instruction|..];
  }

  /** A message sits unchanged right after its heading, so it can be cut
      back out of the framed prompt. */
  lemma FramedPromptMessage(base: string, title: string, message: string, instruction: string)
    ensures var r := FramedPrompt(base, title, Some(message), instruction);
      var k := |base| + |Heading(title)|;
      k + |message| <= |r| && r[k..k + |message|] == message
  {
    var r := FramedPrompt(base, title, Some(message), instruction);
    var front := base + "\n\n" + title + ": ";
    assert |front| == |base| + |Heading(title)|;
    assert r == front + message + "\n\n" + instruction;
    assert r[|front|..|front| + |message|] == (front + message)[|front|..];
  }

  /** `MergeCommand::default_prompt_with_branch`: both templates with every
      `{}` replaced by the branch, joined by a blank line, with the
      message in between under "Specific context" when there is one. */
  function MergePrompt(baseTemplate: string, instructionTemplate: string, branch: string, message: Option<string>): (r: string)
    ensures message.None? ==>
      r == ReplaceAll(baseTemplate, "{}", branch) + "\n\n" + ReplaceAll(instructionTemplate, "{}", branch)
    ensures message.Some? ==>
      r == ReplaceAll(baseTemplate, "{}", branch) + "\n\n" + "Specific context" + ": " + message.value + "\n\n"
        + ReplaceAll(instructionTemplate, "{}", branch)
  {
    FramedPrompt(ReplaceAll(baseTemplate, "{}", branch), "Specific context", message, ReplaceAll(instructionTemplate, "{}", branch))
  }

  /** With a non-empty brace-free branch, neither template part of the
      merge prompt keeps a `{}`. */
  lemma MergePromptFilled(baseTemplate: string, instructionTemplate: string, branch: string)
    requires |branch| > 0 && NoBraces(branch)
    ensures !HasPlaceholder(ReplaceAll(baseTemplate, "{}", branch))
    ensures !HasPlaceholder(ReplaceAll(instructionTemplate, "{}", branch))
  {
    ReplacePlaceholderLeavesNone(baseTemplate, branch);
    ReplacePlaceholderLeavesNone(instructionTemplate, branch);
  }

  /** `PrCommand::default_prompt`: base prompt, the message under "Specific
      focus areas" when there is one, and the instruction, separated by
      blank lines. */
  function PrPrompt(basePrompt: string, instruction: string, message: Option<string>): (r: string)
    ensures message.None? ==> r == basePrompt + "\n\n" + instruction
    ensures message.Some? ==> r == basePrompt + "\n\n" + "Specific focus areas" + ": " + message.value + "\n\n" + instruction
  {
    FramedPrompt(basePrompt, "Specific focus areas", message, instruction)
  }

  /** The pull-request prompt always begins with the base prompt and ends
      with the instruction. */
  lemma PrPromptFrame(basePrompt: string, instruction: string, message: Option<string>)
    ensures StartsWith(PrPrompt(basePrompt, instruction, message), basePrompt)
    ensures EndsWith(PrPrompt(basePrompt, instruction, message), instruction)
  {
    FramedPromptFrame(basePrompt, "Specific focus areas", message, instruction);
  }
}

=== FILE: config.dfy ===
/** The user configuration (`src/config.rs`): its record shape, where it is
    loaded from and in which order, the merged list of dependency-file
    patterns, and the mapping from configured context names to context
    kinds. The filesystem is a map from path to the file's text (or a read
    error); YAML parsing is a parameter. */
module Configuration {
  import opened Wrappers
  import Collect
  import opened Text
  import Sorting
  import Ordering

  datatype DependencyFiles = DependencyFiles(
    packageManagers: Option<seq<string>>,
    buildFiles: Option<seq<string>>,
    configFiles: Option<seq<string>>,
    additionalPatterns: Option<seq<string>>)

  /** The settings every command section shares. */
  datatype CommandConfig = CommandConfig(
    prompt: Option<string>,
    noConfirm: Option<bool>,
    context: Option<seq<string>>)

  datatype CommandConfigs = CommandConfigs(
    commit: CommandConfig,
    pr: CommandConfig,
    merge: CommandConfig,
    init: CommandConfig,
    ignore: CommandConfig)

  datatype Config = Config(
    verbose: bool,
    commands: CommandConfigs,
    dependencyFiles: DependencyFiles)

  /** Path to file content: a path not in the map does not exist; an `Err`
      is a file that exists but cannot be read. */
  type Disk = map<string, Result<string>>

  /** A YAML parser for configuration documents. */
  type ConfigParser = string -> Result<Config>

  const LocalConfigPath: string := ".git-ai.yaml"

  /** `join("git-ai").join("config.yaml")` on a directory. */
  const UserConfigSuffix: string := "git-ai/config.yaml"

  // ---------------------------------------------------------------------
  // Loading

  /** `Config::load_from_path`: a missing file, an unreadable file and an
      unparsable file are three distinct errors, each naming the path. */
  function LoadFromPath(disk: Disk, parse: ConfigParser, path: string): (r: Result<Config>)
    ensures r.Ok? <==> path in disk && disk[path].Ok? && parse(disk[path].value).Ok?
    ensures r.Ok? ==> r == parse(disk[path].value)
    ensures path !in disk ==> r == Err("Config file does not exist: " + path)
    ensures path in disk && disk[path].Err? ==> r == Err("Failed to read config file: " + path)
    ensures path in disk && disk[path].Ok? && parse(disk[path].value).Err? ==>
      r == Err("Failed to parse config file: " + path)
  {
    if path !in disk then Err("Config file does not exist: " + path)
    else match disk[path]
      case Err(_) => Err("Failed to read config file: " + path)
      case Ok(content) =>
        match parse(content)
        case Err(_) => Err("Failed to parse config file: " + path)
        case Ok(c) => Ok(c)
  }

  /** `PathBuf::join` of a relative path: a separator is inserted unless the
      base is empty or already ends in one. */
  function JoinPath(base: string, rel: string): (r: string)
    ensures EndsWith(r, rel)
    ensures StartsWith(r, base)
    ensures |base| > 0 && base[|base| - 1] != '/' ==> r == base + "/" + rel
  {
    if |base| == 0 || base[|base| - 1] == '/' then base + rel else base + "/" + rel
  }

  /** `Config::user_config_path`: `<config dir>/git-ai/config.yaml`, or
      `<home>/.config/git-ai/config.yaml` when the platform has no config
      directory, or nothing when it has neither. */
  function UserConfigPath(configDir: Option<string>, homeDir: Option<string>): (r: Option<string>)
    ensures r.Some? <==> configDir.Some? || homeDir.Some?
    ensures r.Some? ==> EndsWith(r.value, UserConfigSuffix)
    ensures configDir.Some? ==> StartsWith(r.value, configDir.value)
    ensures configDir.None? && homeDir.Some? ==> StartsWith(r.value, homeDir.value)
  {
    match configDir
    case Some(dir) => Some(JoinPath(dir, UserConfigSuffix))
    case None =>
      match homeDir
      case Some(home) =>
        var r := JoinPath(home, ".config/" + UserConfigSuffix);
        assert EndsWith(r, UserConfigSuffix) by {
          assert r[|r| - |UserConfigSuffix|..] == (".config/" + UserConfigSuffix)[8..];
        }
        Some(r)
      case None => None
  }

  /** The configuration found in `path`, if it loads. */
  function Loaded(disk: Disk, parse: ConfigParser, path: string): Option<Config> {
    match LoadFromPath(disk, parse, path)
    case Ok(c) => Some(c)
    case Err(_) => None
  }

  /** `Config::load`: the repository's own `.git-ai.yaml` if it loads, else
      the user's configuration if there is a path for it and it loads, else
      the embedded default. Load never fails. */
  function Load(disk: Disk, parse: ConfigParser, configDir: Option<string>, homeDir: Option<string>, default: Config): (r: Result<Config>)
    ensures r.Ok?
    ensures LocalConfigPath in disk && disk[LocalConfigPath].Ok? && parse(disk[LocalConfigPath].value).Ok? ==>
      r == parse(disk[LocalConfigPath].value)
  {
    match Loaded(disk, parse, LocalConfigPath)
    case Some(c) => Ok(c)
    case None =>
      match UserConfigPath(configDir, homeDir)
      case None => Ok(default)
      case Some(user) =>
        match Loaded(disk, parse, user)
        case Some(c) => Ok(c)
        case None => Ok(default)
  }

  /** The user's file is used exactly when the local one does not load and
      the user's does. */
  lemma LoadUsesUserConfig(disk: Disk, parse: ConfigParser, configDir: Option<string>, homeDir: Option<string>, default: Config)
    requires !(LocalConfigPath in disk && disk[LocalConfigPath].Ok? && parse(disk[LocalConfigPath].value).Ok?)
    requires UserConfigPath(configDir, homeDir).Some?
    requires var p := UserConfigPath(configDir, homeDir).value; p in disk && disk[p].Ok? && parse(disk[p].value).Ok?
    ensures Load(disk, parse, configDir, homeDir, default) == parse(disk[UserConfigPath(configDir, homeDir).value].value)
  {
  }

  /** With neither file loading, the default is returned, whatever it is. */
  lemma LoadFallsBackToDefault(disk: Disk, parse: ConfigParser, configDir: Option<string>, homeDir: Option<string>, default: Config)
    requires !(LocalConfigPath in disk && disk[LocalConfigPath].Ok? && parse(disk[LocalConfigPath].value).Ok?)
    requires forall p :: UserConfigPath(configDir, homeDir) == Some(p) ==> !(p in disk && disk[p].Ok? && parse(disk[p].value).Ok?)
    ensures Load(disk, parse, configDir, homeDir, default) == Ok(default)
  {
  }

  /** A file that exists but does not parse is skipped just like a missing
      one: replacing a broken local file by nothing changes nothing. */
  lemma BrokenLocalConfigIgnored(disk: Disk, parse: ConfigParser, configDir: Option<string>, homeDir: Option<string>, default: Config)
    requires LocalConfigPath in disk && !(disk[LocalConfigPath].Ok? && parse(disk[LocalConfigPath].value).Ok?)
    requires UserConfigPath(configDir, homeDir) != Some(LocalConfigPath)
    ensures Load(disk, parse, configDir, homeDir, default) == Load(disk - {LocalConfigPath}, parse, configDir, homeDir, default)
  {
    var rest := disk - {LocalConfigPath};
    assert Loaded(disk, parse, LocalConfigPath).None?;
    assert Loaded(rest, parse, LocalConfigPath).None?;
    match UserConfigPath(configDir, homeDir)
    case None =>
    case Some(user) =>
      assert Loaded(disk, parse, user) == Loaded(rest, parse, user) by {
        assert user in disk <==> user in rest;
        assert user in rest ==> rest[user] == disk[user];
      }
  }

  // ---------------------------------------------------------------------
  // Dependency patterns

  function Present(list: Option<seq<string>>): seq<string> {
    list.GetOr([])
  }

  /** `Config::get_dependency_patterns` (and the repository provider's
      copy of it): the configured categories concatenated, then sorted and
      deduplicated. */
  function DependencyPatterns(d: DependencyFiles): (r: seq<string>)
    ensures Sorting.StrictlySortedBy(r, Sorting.Id, Ordering.StrLeq)
    ensures forall x :: x in r <==>
      x in Present(d.packageManagers) || x in Present(d.buildFiles)
      || x in Present(d.configFiles) || x in Present(d.additionalPatterns)
  {
    Sorting.SortDedup(Present(d.packageManagers) + Present(d.buildFiles) + Present(d.configFiles) + Present(d.additionalPatterns))
  }

  /** The merged list depends only on which patterns are configured, not on
      the category they are listed under: moving all of them into the
      additional patterns gives the same list. */
  lemma DependencyPatternsIgnoreCategories(d: DependencyFiles)
    ensures DependencyPatterns(d) == DependencyPatterns(DependencyFiles(None, None, None, Some(DependencyPatterns(d))))
  {
    Sorting.StrictlySortedUnique(DependencyPatterns(d), DependencyPatterns(DependencyFiles(None, None, None, Some(DependencyPatterns(d)))));
  }

  // ---------------------------------------------------------------------
  // Context names

  /** The context kinds a configuration may name. `Repository` is accepted
      here although the context system itself has no such kind. */
  datatype ContextName = GitName | RepositoryName | ProjectName | AgentName | InteractionName

  function NameOf(n: ContextName): string {
    match n
    case GitName => "Git"
    case RepositoryName => "Repository"
    case ProjectName => "Project"
    case AgentName => "Agent"
    case InteractionName => "Interaction"
  }

  /** One configured name; anything but the five exact, case-sensitive
      names is unknown. */
  function ParseName(s: string): (r: Option<ContextName>)
    ensures r.Some? ==> NameOf(r.value) == s
  {
    if s == "Git" then Some(GitName)
    else if s == "Repository" then Some(RepositoryName)
    else if s == "Project" then Some(ProjectName)
    else if s == "Agent" then Some(AgentName)
    else if s == "Interaction" then Some(InteractionName)
    else None
  }

  /** Every kind's name parses back to that kind. */
  lemma ParseNameOf(n: ContextName)
    ensures ParseName(NameOf(n)) == Some(n)
  {
  }

  /** What one configured name contributes: its kind, or nothing. */
  function KindOfName(s: string): seq<ContextName> {
    match ParseName(s)
    case Some(n) => [n]
    case None => []
  }

  /** A kind is produced exactly when its name is configured. */
  lemma KindsOfNames(names: seq<string>)
    ensures |Collect.FlatMap(names, KindOfName)| <= |names|
    ensures forall n :: n in Collect.FlatMap(names, KindOfName) <==> NameOf(n) in names
  {
    Collect.FlatMapShort(names, KindOfName);
    forall n ensures n in Collect.FlatMap(names, KindOfName) <==> NameOf(n) in names {
      Collect.FlatMapMembers(names, KindOfName, n);
      if NameOf(n) in names {
        var i :| 0 <= i < |names| && names[i] == NameOf(n);
        ParseNameOf(n);
        assert n in KindOfName(names[i]);
      }
    }
  }

  /** `Config::parse_context_types`: known names mapped in order, unknown
      names dropped (with a warning on standard error, not modelled). */
  function ParseContextTypes(names: seq<string>): (r: seq<ContextName>)
    ensures |r| <= |names|
    ensures forall n :: n in r <==> NameOf(n) in names
  {
    KindsOfNames(names);
    Collect.FlatMap(names, KindOfName)
  }

  lemma ParseContextTypesAppend(a: seq<string>, b: seq<string>)
    ensures ParseContextTypes(a + b) == ParseContextTypes(a) + ParseContextTypes(b)
  {
    Collect.FlatMapAppend(a, b, KindOfName);
  }

  function NamesOf(ns: seq<ContextName>): (r: seq<string>)
    ensures |r| == |ns|
  {
    if |ns| == 0 then [] else [NameOf(ns[0])] + NamesOf(ns[1..])
  }

  /** Writing kinds out by name and parsing them back gives the same kinds
      in the same order. */
  lemma {:induction false} ParseContextTypesOfNames(ns: seq<ContextName>)
    ensures ParseContextTypes(NamesOf(ns)) == ns
  {
    if |ns| > 0 {
      ParseNameOf(ns[0]);
      ParseContextTypesOfNames(ns[1..]);
      assert NamesOf(ns)[1..] == NamesOf(ns[1..]);
      assert ns == [ns[0]] + ns[1..];
    }
  }

  /** An unknown name anywhere in the list is simply skipped. */
  lemma UnknownNameDropped(a: seq<string>, s: string, b: seq<string>)
    requires ParseName(s).None?
    ensures ParseContextTypes(a + [s] + b) == ParseContextTypes(a + b)
  {
    ParseContextTypesAppend(a + [s], b);
    ParseContextTypesAppend(a, [s]);
    ParseContextTypesAppend(a, b);
    assert ParseContextTypes([s]) == [] by {
      assert [s][0] == s && [s][1..] == [];
      assert KindOfName(s) == [];
      assert Collect.FlatMap([s], KindOfName) == KindOfName(s) + Collect.FlatMap([], KindOfName);
    }
  }
}

=== FILE: context_manager.dfy ===
/** The context manager: for each requested context type it serves the
    cache or asks the type's provider, storing gathered results; interaction
    context is always built anew and never touches the cache. Providers are
    given by what their `gather` yields in this run. */
module ContextManager {
  import opened Wrappers
  import opened ContextTypes
  import opened Cache
  import Interaction

  /** The registered providers and the result each one's `gather` yields. */
  type Providers = map<ContextType, Result<ContextData>>

  /** Every provider produces data of its own type. */
  ghost predicate ProvidersWellKeyed(providers: Providers) {
    forall t :: t in providers && providers[t].Ok? ==> providers[t].value.Kind() == t
  }

  /** Every stored entry sits in the file of its own type. */
  ghost predicate DiskWellKeyed(disk: Disk) {
    forall t :: CacheFileName(t) in disk && disk[CacheFileName(t)].Stored? ==>
      disk[CacheFileName(t)].entry.data.Kind() == t
  }

  function NoProvider(t: ContextType): string {
    "No provider registered for context type: " + DebugName(t)
  }

  /** Cache first; on a miss the provider's result is stored and returned. */
  function GetOrFetch(disk: Disk, t: ContextType, io: Io, providers: Providers): (out: Step<ContextData>)
    ensures Cache.Get(disk, t, io).result.Err? ==> out.result.Err?
    ensures Cache.Get(disk, t, io).result.Ok? && Cache.Get(disk, t, io).result.value.Some? ==>
      out == Step(Ok(Cache.Get(disk, t, io).result.value.value), disk)
    ensures Cache.Get(disk, t, io).result == Ok(None) && t !in providers ==>
      out.result == Err(NoProvider(t))
    ensures Cache.Get(disk, t, io).result == Ok(None) && t in providers && providers[t].Ok? ==>
      && (out.result.Ok? <==> io.writable)
      && (io.writable ==>
            out.result.value == providers[t].value &&
            out.disk == Cache.Get(disk, t, io).disk[CacheFileName(t) := Stored(NewEntry(t, providers[t].value, io))])
    ensures Cache.Get(disk, t, io).result == Ok(None) && t in providers && providers[t].Err? ==>
      out.result == Err(providers[t].error)
    ensures forall n :: n != CacheFileName(t) ==>
      (n in out.disk <==> n in disk) && (n in disk ==> out.disk[n] == disk[n])
  {
    var cached := Cache.Get(disk, t, io);
    match cached.result
    case Err(e) => Step(Err(e), cached.disk)
    case Ok(Some(d)) => Step(Ok(d), cached.disk)
    case Ok(None) =>
      if t !in providers then Step(Err(NoProvider(t)), cached.disk)
      else
        match providers[t]
        case Err(e) => Step(Err(e), cached.disk)
        case Ok(gathered) =>
          var stored := Cache.Store(cached.disk, t, gathered, io);
          match stored.result
          case Err(e) => Step(Err(e), stored.disk)
          case Ok(_) => Step(Ok(gathered), stored.disk)
  }

  /** A hit never depends on what the providers would yield. */
  lemma HitIgnoresProviders(disk: Disk, t: ContextType, io: Io, p: Providers, q: Providers)
    requires Cache.Get(disk, t, io).result.Ok? && Cache.Get(disk, t, io).result.value.Some?
    ensures GetOrFetch(disk, t, io, p) == GetOrFetch(disk, t, io, q)
  {
  }

  /** Once a miss has been fetched and stored, asking again (same moment,
      same fingerprints) is a hit with the same data, whatever the providers
      now yield. */
  lemma {:induction false} FetchThenHit(disk: Disk, t: ContextType, io: Io, p: Providers, q: Providers)
    requires GetOrFetch(disk, t, io, p).result.Ok?
    ensures GetOrFetch(GetOrFetch(disk, t, io, p).disk, t, io, q) == GetOrFetch(disk, t, io, p)
  {
    var first := GetOrFetch(disk, t, io, p);
    var cached := Cache.Get(disk, t, io);
    if cached.result != Ok(None) {
      assert first == Step(Ok(cached.result.value.value), disk);
    } else {
      StoreThenGet(cached.disk, t, p[t].value, io, io);
    }
  }

  /** The provider `gather_context_with_command` builds for interaction
      context. */
  function InteractionProviderFor(command: Option<string>): (p: Interaction.InteractionProvider)
    ensures p.command == command && p.userMessage.None? && |p.flags| == 0
  {
    match command
    case Some(c) => Interaction.WithCommand(c)
    case None => Interaction.New()
  }

  /** One requested type: interaction context is gathered directly, every
      other type goes through the cache. */
  function FetchOne(disk: Disk, t: ContextType, command: Option<string>, io: Io,
                    providers: Providers, env: Interaction.RunEnvironment): (out: Step<ContextData>)
    ensures t == Interaction ==> out == Step(Ok(Interaction.Gather(InteractionProviderFor(command), env)), disk)
    ensures t != Interaction ==> out == GetOrFetch(disk, t, io, providers)
  {
    if t == Interaction then Step(Ok(Interaction.Gather(InteractionProviderFor(command), env)), disk)
    else GetOrFetch(disk, t, io, providers)
  }

  /** The cache files the non-interaction types of `required` may touch. */
  ghost function TouchedFiles(required: seq<ContextType>): set<string> {
    set t | t in required && t != Interaction :: CacheFileName(t)
  }

  /** Gathers `required` in order, stopping at the first error. */
  function GatherAll(disk: Disk, required: seq<ContextType>, command: Option<string>, io: Io,
                     providers: Providers, env: Interaction.RunEnvironment): (out: Step<map<ContextType, ContextData>>)
    decreases |required|
    ensures out.result.Ok? ==> out.result.value.Keys == set t | t in required
    ensures out.result.Ok? && Interaction in required ==>
      out.result.value[Interaction] == Interaction.Gather(InteractionProviderFor(command), env)
  {
    if |required| == 0 then Step(Ok(map[]), disk)
    else
      var init := required[..|required| - 1];
      var t := required[|required| - 1];
      assert required == init + [t];
      var before := GatherAll(disk, init, command, io, providers, env);
      match before.result
      case Err(e) => Step(Err(e), before.disk)
      case Ok(m) =>
        var one := FetchOne(before.disk, t, command, io, providers, env);
        match one.result
        case Err(e) => Step(Err(e), one.disk)
        case Ok(d) => Step(Ok(m[t := d]), one.disk)
  }

  /** `after` holds the same files as `before` outside `names`. */
  ghost predicate SameOutside(after: Disk, before: Disk, names: set<string>) {
    forall n :: n !in names ==> (n in after <==> n in before) && (n in before ==> after[n] == before[n])
  }

  lemma SameOutsideChain(c: Disk, b: Disk, a: Disk, inner: set<string>, outer: set<string>)
    requires SameOutside(b, a, inner) && SameOutside(c, b, outer) && inner <= outer
    ensures SameOutside(c, a, outer)
  {
  }

  /** One requested type changes at most its own cache file. */
  lemma FetchOneFrame(disk: Disk, required: seq<ContextType>, t: ContextType, command: Option<string>, io: Io,
                      providers: Providers, env: Interaction.RunEnvironment)
    requires t in required
    ensures SameOutside(FetchOne(disk, t, command, io, providers, env).disk, disk, TouchedFiles(required))
  {
    if t != Interaction {
      assert CacheFileName(t) in TouchedFiles(required);
    }
  }

  /** Requesting more types can only touch more files. */
  lemma TouchedFilesGrow(init: seq<ContextType>, t: ContextType)
    ensures TouchedFiles(init) <= TouchedFiles(init + [t])
  {
    forall u | u in init ensures u in init + [t] {
    }
  }

  /** The last step of `GatherAll` changes at most the last type's file. */
  lemma LastStepFrame(disk: Disk, init: seq<ContextType>, t: ContextType, command: Option<string>, io: Io,
                      providers: Providers, env: Interaction.RunEnvironment)
    ensures var before := GatherAll(disk, init, command, io, providers, env);
      SameOutside(GatherAll(disk, init + [t], command, io, providers, env).disk, before.disk, TouchedFiles(init + [t]))
  {
    var required := init + [t];
    assert required[..|required| - 1] == init;
    var before := GatherAll(disk, init, command, io, providers, env);
    var out := GatherAll(disk, required, command, io, providers, env);
    if before.result.Ok? {
      assert out.disk == FetchOne(before.disk, t, command, io, providers, env).disk;
      FetchOneFrame(before.disk, required, t, command, io, providers, env);
    } else {
      assert out.disk == before.disk;
    }
  }

  /** Only the files of the requested non-interaction types can change. */
  lemma {:induction false} GatherAllFrame(disk: Disk, required: seq<ContextType>, command: Option<string>, io: Io,
                                          providers: Providers, env: Interaction.RunEnvironment)
    decreases |required|
    ensures SameOutside(GatherAll(disk, required, command, io, providers, env).disk, disk, TouchedFiles(required))
  {
    if |required| > 0 {
      var init := required[..|required| - 1];
      var t := required[|required| - 1];
      assert required == init + [t];
      var before := GatherAll(disk, init, command, io, providers, env);
      var out := GatherAll(disk, required, command, io, providers, env);
      GatherAllFrame(disk, init, command, io, providers, env);
      TouchedFilesGrow(init, t);
      LastStepFrame(disk, init, t, command, io, providers, env);
      SameOutsideChain(out.disk, before.disk, disk, TouchedFiles(init), TouchedFiles(required));
    }
  }

  /** With well-keyed providers and disk, every gathered value has the type
      it is filed under, and the disk stays well keyed. */
  lemma {:induction false} GatherAllWellKeyed(disk: Disk, required: seq<ContextType>, command: Option<string>, io: Io,
                                              providers: Providers, env: Interaction.RunEnvironment)
    requires ProvidersWellKeyed(providers) && DiskWellKeyed(disk)
    decreases |required|
    ensures var out := GatherAll(disk, required, command, io, providers, env);
      DiskWellKeyed(out.disk) &&
      (out.result.Ok? ==> forall t :: t in out.result.value ==> out.result.value[t].Kind() == t)
  {
    if |required| > 0 {
      var init := required[..|required| - 1];
      var t := required[|required| - 1];
      assert required == init + [t];
      GatherAllWellKeyed(disk, init, command, io, providers, env);
      var before := GatherAll(disk, init, command, io, providers, env);
      FetchOneWellKeyed(before.disk, t, command, io, providers, env);
    }
  }

  /** The file of `t` after a cache-first fetch holds either what it held
      before or a fresh entry of the provider's data. */
  lemma OwnFileAfterFetch(disk: Disk, t: ContextType, io: Io, providers: Providers)
    requires ProvidersWellKeyed(providers) && DiskWellKeyed(disk)
    ensures var out := GetOrFetch(disk, t, io, providers);
      var n := CacheFileName(t);
      n in out.disk && out.disk[n].Stored? ==> out.disk[n].entry.data.Kind() == t
  {
    var cached := Cache.Get(disk, t, io);
    var n := CacheFileName(t);
    assert n in cached.disk && cached.disk[n].Stored? ==> n in disk && cached.disk[n] == disk[n];
  }

  /** Fetching one type through the cache keeps every stored entry in its
      own file and yields data of the requested type. */
  lemma GetOrFetchWellKeyed(disk: Disk, t: ContextType, io: Io, providers: Providers)
    requires ProvidersWellKeyed(providers) && DiskWellKeyed(disk)
    ensures DiskWellKeyed(GetOrFetch(disk, t, io, providers).disk)
    ensures GetOrFetch(disk, t, io, providers).result.Ok? ==> GetOrFetch(disk, t, io, providers).result.value.Kind() == t
  {
    var out := GetOrFetch(disk, t, io, providers);
    OwnFileAfterFetch(disk, t, io, providers);
    forall u | CacheFileName(u) in out.disk && out.disk[CacheFileName(u)].Stored?
      ensures out.disk[CacheFileName(u)].entry.data.Kind() == u
    {
      if u != t {
        CacheFileNameInjective(t, u);
      }
    }
  }

  /** Fetching one type keeps every stored entry in its own file and yields
      data of the requested type. */
  lemma FetchOneWellKeyed(disk: Disk, t: ContextType, command: Option<string>, io: Io,
                          providers: Providers, env: Interaction.RunEnvironment)
    requires ProvidersWellKeyed(providers) && DiskWellKeyed(disk)
    ensures DiskWellKeyed(FetchOne(disk, t, command, io, providers, env).disk)
    ensures FetchOne(disk, t, command, io, providers, env).result.Ok? ==>
      FetchOne(disk, t, command, io, providers, env).result.value.Kind() == t
  {
    if t != Interaction {
      GetOrFetchWellKeyed(disk, t, io, providers);
    }
  }

  // ---------------------------------------------------------------------
  // What a successful gather serves

  /** A fetch through the cache reads only the type's own file: two
      directories that agree on it give the same result. */
  lemma GetOrFetchReadsOwnFile(a: Disk, b: Disk, t: ContextType, io: Io, providers: Providers)
    requires SameFile(a, b, CacheFileName(t))
    ensures GetOrFetch(a, t, io, providers).result == GetOrFetch(b, t, io, providers).result
  {
    GetReadsOwnFile(a, b, t, io);
  }

  /** After a successful fetch, reading the cache is a hit on the fetched
      data. */
  lemma {:induction false} GetOrFetchThenHit(disk: Disk, t: ContextType, io: Io, providers: Providers)
    requires GetOrFetch(disk, t, io, providers).result.Ok?
    ensures Cache.Get(GetOrFetch(disk, t, io, providers).disk, t, io).result ==
            Ok(Some(GetOrFetch(disk, t, io, providers).result.value))
  {
    var cached := Cache.Get(disk, t, io);
    if cached.result == Ok(None) {
      StoreThenGet(cached.disk, t, providers[t].value, io, io);
    }
  }

  /** Fetching a type whose data is already at hand (a hit, or interaction
      context built the same way) returns it and changes nothing. */
  lemma FetchOneRepeat(disk: Disk, t: ContextType, command: Option<string>, io: Io,
                       providers: Providers, env: Interaction.RunEnvironment, v: ContextData)
    requires t == Interaction ==> v == Interaction.Gather(InteractionProviderFor(command), env)
    requires t != Interaction ==> Cache.Get(disk, t, io).result == Ok(Some(v))
    ensures FetchOne(disk, t, command, io, providers, env) == Step(Ok(v), disk)
  {
  }

  /** A fetch leaves every other type's reads as they were. */
  lemma FetchOneKeepsOtherReads(disk: Disk, t: ContextType, u: ContextType, command: Option<string>, io: Io,
                                providers: Providers, env: Interaction.RunEnvironment)
    requires u != t
    ensures Cache.Get(FetchOne(disk, t, command, io, providers, env).disk, u, io).result == Cache.Get(disk, u, io).result
  {
    CacheFileNameInjective(t, u);
    GetReadsOwnFile(FetchOne(disk, t, command, io, providers, env).disk, disk, u, io);
  }

  /** A type not requested before finds its file as it was at the start,
      so it fetches as it would alone. */
  lemma FetchOneFresh(disk: Disk, init: seq<ContextType>, t: ContextType, command: Option<string>, io: Io,
                      providers: Providers, env: Interaction.RunEnvironment)
    requires t !in init
    ensures FetchOne(GatherAll(disk, init, command, io, providers, env).disk, t, command, io, providers, env).result ==
            FetchOne(disk, t, command, io, providers, env).result
  {
    if t != Interaction {
      var before := GatherAll(disk, init, command, io, providers, env);
      GatherAllFrame(disk, init, command, io, providers, env);
      forall u | u in init && u != Interaction ensures CacheFileName(u) != CacheFileName(t) {
        CacheFileNameInjective(u, t);
      }
      assert CacheFileName(t) !in TouchedFiles(init);
      GetOrFetchReadsOwnFile(before.disk, disk, t, io, providers);
    }
  }

  /** `required[i]` is the first requested type that fails when fetched
      alone from `disk`, and it fails with `e`. */
  ghost predicate FirstFailure(disk: Disk, required: seq<ContextType>, i: int, e: string, command: Option<string>, io: Io,
                               providers: Providers, env: Interaction.RunEnvironment) {
    && 0 <= i < |required|
    && FetchOne(disk, required[i], command, io, providers, env).result == Err(e)
    && forall j :: 0 <= j < i ==> FetchOne(disk, required[j], command, io, providers, env).result.Ok?
  }

  /** The promise of a gather of `required` from `disk` that ended in
      `out`: it succeeds exactly when every requested type, fetched alone
      from `disk`, succeeds; each value is then what that fetch gives, and
      every cached type reads back as a hit on it; a failure is the first
      failing type's. */
  ghost predicate Served(disk: Disk, required: seq<ContextType>, out: Step<map<ContextType, ContextData>>,
                         command: Option<string>, io: Io, providers: Providers, env: Interaction.RunEnvironment) {
    && (out.result.Ok? <==> forall t :: t in required ==> FetchOne(disk, t, command, io, providers, env).result.Ok?)
    && (out.result.Ok? ==> forall t :: t in required ==>
          && t in out.result.value
          && FetchOne(disk, t, command, io, providers, env).result == Ok(out.result.value[t])
          && (t != Interaction ==> Cache.Get(out.disk, t, io).result == Ok(Some(out.result.value[t]))))
    && (out.result.Err? ==> exists i :: FirstFailure(disk, required, i, out.result.error, command, io, providers, env))
  }

  /** The last step of `GatherAll`, spelled out. */
  lemma GatherAllLast(disk: Disk, init: seq<ContextType>, t: ContextType, command: Option<string>, io: Io,
                      providers: Providers, env: Interaction.RunEnvironment)
    ensures var before := GatherAll(disk, init, command, io, providers, env);
      var out := GatherAll(disk, init + [t], command, io, providers, env);
      var one := FetchOne(before.disk, t, command, io, providers, env);
      && (before.result.Err? ==> out == Step(Err(before.result.error), before.disk))
      && (before.result.Ok? && one.result.Err? ==> out == Step(Err(one.result.error), one.disk))
      && (before.result.Ok? && one.result.Ok? ==> out == Step(Ok(before.result.value[t := one.result.value]), one.disk))
  {
    assert (init + [t])[..|init + [t]| - 1] == init;
  }

  /** Once an earlier type has failed, the gather keeps that failure. */
  lemma ServedAfterFailure(disk: Disk, init: seq<ContextType>, t: ContextType, before: Step<map<ContextType, ContextData>>,
                           command: Option<string>, io: Io, providers: Providers, env: Interaction.RunEnvironment)
    requires before.result.Err? && Served(disk, init, before, command, io, providers, env)
    ensures Served(disk, init + [t], Step(Err(before.result.error), before.disk), command, io, providers, env)
  {
    var i :| FirstFailure(disk, init, i, before.result.error, command, io, providers, env);
    assert FirstFailure(disk, init + [t], i, before.result.error, command, io, providers, env);
  }

  /** A type requested again is a hit on what it gave the first time. */
  lemma ServedAfterRepeat(disk: Disk, init: seq<ContextType>, t: ContextType, m: map<ContextType, ContextData>, after: Disk,
                          command: Option<string>, io: Io, providers: Providers, env: Interaction.RunEnvironment)
    requires t in init && Served(disk, init, Step(Ok(m), after), command, io, providers, env)
    ensures FetchOne(after, t, command, io, providers, env) == Step(Ok(m[t]), after)
    ensures Served(disk, init + [t], Step(Ok(m[t := m[t]]), after), command, io, providers, env)
  {
    FetchOneRepeat(after, t, command, io, providers, env, m[t]);
    assert m[t := m[t]] == m;
  }

  /** Adding a type that succeeded alone, whose read is now a hit and
      whose fetch left the other types' reads alone, keeps the promise. */
  lemma ServedExtend(disk: Disk, init: seq<ContextType>, t: ContextType, m: map<ContextType, ContextData>, after: Disk,
                     d: ContextData, next: Disk,
                     command: Option<string>, io: Io, providers: Providers, env: Interaction.RunEnvironment)
    requires t !in init && Served(disk, init, Step(Ok(m), after), command, io, providers, env)
    requires FetchOne(disk, t, command, io, providers, env).result == Ok(d)
    requires forall u :: u in init && u != Interaction ==> Cache.Get(next, u, io).result == Cache.Get(after, u, io).result
    requires t != Interaction ==> Cache.Get(next, t, io).result == Ok(Some(d))
    ensures Served(disk, init + [t], Step(Ok(m[t := d]), next), command, io, providers, env)
  {
    var m' := m[t := d];
    forall u | u in init + [t]
      ensures u in m' && FetchOne(disk, u, command, io, providers, env).result == Ok(m'[u])
      ensures u != Interaction ==> Cache.Get(next, u, io).result == Ok(Some(m'[u]))
    {
      if u != t {
        assert u in init;
      }
    }
  }

  /** A type not requested before fetches as it would alone; its success
      keeps every earlier hit and adds its own. */
  lemma ServedAfterFresh(disk: Disk, init: seq<ContextType>, t: ContextType, m: map<ContextType, ContextData>, after: Disk,
                         command: Option<string>, io: Io, providers: Providers, env: Interaction.RunEnvironment)
    requires t !in init && Served(disk, init, Step(Ok(m), after), command, io, providers, env)
    requires FetchOne(after, t, command, io, providers, env).result == FetchOne(disk, t, command, io, providers, env).result
    ensures var one := FetchOne(after, t, command, io, providers, env);
      && (one.result.Err? ==> Served(disk, init + [t], Step(Err(one.result.error), one.disk), command, io, providers, env))
      && (one.result.Ok? ==> Served(disk, init + [t], Step(Ok(m[t := one.result.value]), one.disk), command, io, providers, env))
  {
    var one := FetchOne(after, t, command, io, providers, env);
    if one.result.Err? {
      assert FirstFailure(disk, init + [t], |init|, one.result.error, command, io, providers, env);
    } else {
      forall u | u in init && u != Interaction
        ensures Cache.Get(one.disk, u, io).result == Cache.Get(after, u, io).result
      {
        FetchOneKeepsOtherReads(after, t, u, command, io, providers, env);
      }
      if t != Interaction {
        GetOrFetchThenHit(after, t, io, providers);
      }
      ServedExtend(disk, init, t, m, after, one.result.value, one.disk, command, io, providers, env);
    }
  }

  lemma {:induction false} GatherAllServed(disk: Disk, required: seq<ContextType>, command: Option<string>, io: Io,
                                           providers: Providers, env: Interaction.RunEnvironment)
    decreases |required|
    ensures Served(disk, required, GatherAll(disk, required, command, io, providers, env), command, io, providers, env)
  {
    if |required| > 0 {
      var init := required[..|required| - 1];
      var t := required[|required| - 1];
      assert required == init + [t];
      GatherAllServed(disk, init, command, io, providers, env);
      GatherAllLast(disk, init, t, command, io, providers, env);
      var before := GatherAll(disk, init, command, io, providers, env);
      if before.result.Err? {
        ServedAfterFailure(disk, init, t, before, command, io, providers, env);
      } else if t in init {
        ServedAfterRepeat(disk, init, t, before.result.value, before.disk, command, io, providers, env);
      } else {
        FetchOneFresh(disk, init, t, command, io, providers, env);
        ServedAfterFresh(disk, init, t, before.result.value, before.disk, command, io, providers, env);
      }
    }
  }

  /** Gathering succeeds exactly when every requested type, fetched alone
      from the starting cache, succeeds; each value is then what that fetch
      gives (the cached entry or the provider's data), and every cached type
      reads back as a hit on it. A failure reports the error of the first
      requested type that fails. */
  lemma GatherAllServes(disk: Disk, required: seq<ContextType>, command: Option<string>, io: Io,
                        providers: Providers, env: Interaction.RunEnvironment)
    ensures var out := GatherAll(disk, required, command, io, providers, env);
      out.result.Ok? <==> forall t :: t in required ==> FetchOne(disk, t, command, io, providers, env).result.Ok?
    ensures var out := GatherAll(disk, required, command, io, providers, env);
      out.result.Ok? ==> forall t :: t in required ==> FetchOne(disk, t, command, io, providers, env).result == Ok(out.result.value[t])
    ensures var out := GatherAll(disk, required, command, io, providers, env);
      out.result.Ok? ==> forall t :: t in required && t != Interaction ==> Cache.Get(out.disk, t, io).result == Ok(Some(out.result.value[t]))
    ensures var out := GatherAll(disk, required, command, io, providers, env);
      out.result.Err? ==> exists i :: FirstFailure(disk, required, i, out.result.error, command, io, providers, env)
  {
    GatherAllServed(disk, required, command, io, providers, env);
  }

  /** `gather_context_with_command`: the bundle holds exactly the requested
      types, each with the data the cache or its provider gives it, and the
      current fingerprints; it fails exactly when some requested type does. */
  function GatherContextWithCommand(disk: Disk, required: seq<ContextType>, command: Option<string>, io: Io,
                                    providers: Providers, env: Interaction.RunEnvironment): (out: Step<ContextBundle>)
    ensures out.result.Ok? ==>
      && out.result.value.contexts.Keys == set t | t in required
      && out.result.value.generatedAt == io.now
      && out.result.value.gitHash == io.fingerprints.commitHash
      && out.result.value.workingTreeHash == io.fingerprints.workingTreeHash
    ensures out.result.Ok? <==> forall t :: t in required ==> FetchOne(disk, t, command, io, providers, env).result.Ok?
    ensures out.result.Ok? ==> forall t :: t in required ==>
      t in out.result.value.contexts && FetchOne(disk, t, command, io, providers, env).result == Ok(out.result.value.contexts[t])
    ensures out.result.Err? ==> exists i :: FirstFailure(disk, required, i, out.result.error, command, io, providers, env)
    ensures out.disk == GatherAll(disk, required, command, io, providers, env).disk
  {
    GatherAllServes(disk, required, command, io, providers, env);
    var all := GatherAll(disk, required, command, io, providers, env);
    match all.result
    case Err(e) => Step(Err(e), all.disk)
    case Ok(contexts) =>
      var bundle := NewBundle(contexts, io.now);
      Step(Ok(bundle.(gitHash := io.fingerprints.commitHash, workingTreeHash := io.fingerprints.workingTreeHash)), all.disk)
  }

  /** Interaction context never reads or writes the cache: its file is the
      same after gathering, and the data does not depend on the disk. */
  lemma {:induction false} InteractionBypassesCache(disk: Disk, other: Disk, required: seq<ContextType>,
                                                    command: Option<string>, io: Io,
                                                    providers: Providers, env: Interaction.RunEnvironment)
    requires Interaction in required
    requires GatherAll(disk, required, command, io, providers, env).result.Ok?
    requires GatherAll(other, required, command, io, providers, env).result.Ok?
    ensures var n := CacheFileName(Interaction);
      var out := GatherAll(disk, required, command, io, providers, env);
      (n in out.disk <==> n in disk) && (n in disk ==> out.disk[n] == disk[n])
    ensures GatherAll(disk, required, command, io, providers, env).result.value[Interaction] ==
            GatherAll(other, required, command, io, providers, env).result.value[Interaction]
  {
    var n := CacheFileName(Interaction);
    GatherAllFrame(disk, required, command, io, providers, env);
    forall t | t in required && t != Interaction ensures CacheFileName(t) != n {
      CacheFileNameInjective(t, Interaction);
    }
    assert n !in TouchedFiles(required);
  }

  /** `refresh_context`: always asks the provider and stores its result. */
  function RefreshContext(disk: Disk, t: ContextType, io: Io, providers: Providers): (out: Step<ContextData>)
    ensures t !in providers ==> out == Step(Err(NoProvider(t)), disk)
    ensures t in providers && providers[t].Err? ==> out == Step(Err(providers[t].error), disk)
    ensures t in providers && providers[t].Ok? ==>
      && (out.result.Ok? <==> io.writable)
      && out.disk == Cache.Store(disk, t, providers[t].value, io).disk
      && (out.result.Ok? ==> out.result.value == providers[t].value)
  {
    if t !in providers then Step(Err(NoProvider(t)), disk)
    else
      match providers[t]
      case Err(e) => Step(Err(e), disk)
      case Ok(gathered) =>
        var stored := Cache.Store(disk, t, gathered, io);
        match stored.result
        case Err(e) => Step(Err(e), stored.disk)
        case Ok(_) => Step(Ok(gathered), stored.disk)
  }

  /** Refreshing never reads the cache: its result is the same whatever the
      cache held. */
  lemma RefreshIgnoresCache(disk: Disk, other: Disk, t: ContextType, io: Io, providers: Providers)
    ensures RefreshContext(disk, t, io, providers).result == RefreshContext(other, t, io, providers).result
  {
  }

  /** After a successful refresh, reading the cache gives the gathered data. */
  lemma {:induction false} RefreshThenGet(disk: Disk, t: ContextType, io: Io, providers: Providers)
    requires RefreshContext(disk, t, io, providers).result.Ok?
    ensures Cache.Get(RefreshContext(disk, t, io, providers).disk, t, io).result ==
            Ok(Some(RefreshContext(disk, t, io, providers).result.value))
  {
    StoreThenGet(disk, t, providers[t].value, io, io);
  }

  /** `clear_cache`: one type, or everything. */
  function ClearCache(disk: Disk, t: Option<ContextType>, io: Io): (out: Step<()>)
    ensures t.Some? ==> out == Cache.ClearType(disk, t.value, io)
    ensures t.None? ==> out == Cache.ClearAll(disk, io)
  {
    match t
    case Some(ct) => Cache.ClearType(disk, ct, io)
    case None => Cache.ClearAll(disk, io)
  }

  const ContextOpen := "\n\n--- CONTEXT ---\n"
  const ContextClose := "\n--- END CONTEXT ---"

  /** Embeds the serialised bundle after the prompt between fixed
      delimiters. The prompt and the serialised bundle can be cut back out
      of the result. */
  function ApplyContext(prompt: string, contextJson: string): (r: string)
    ensures |r| == |prompt| + |ContextOpen| + |contextJson| + |ContextClose|
    ensures r[..|prompt|] == prompt
    ensures r[|prompt|..|prompt| + |ContextOpen|] == ContextOpen
    ensures r[|prompt| + |ContextOpen|..|r| - |ContextClose|] == contextJson
    ensures r[|r| - |ContextClose|..] == ContextClose
  {
    prompt + ContextOpen + contextJson + ContextClose
  }
}

=== FILE: counting.dfy ===
/** Tallies kept in a map from a key to a count, as the providers build
    them with `*counts.entry(key).or_insert(0) += 1`, and the sum of all
    counts in such a map. */
module Counting {

  /** One more under `k`; a missing key starts from zero. */
  function Bump(m: map<string, nat>, k: string): (r: map<string, nat>)
    ensures r.Keys == m.Keys + {k}
    ensures r[k] == (if k in m then m[k] else 0) + 1
    ensures forall j :: j in m && j != k ==> r[j] == m[j]
  {
    m[k := (if k in m then m[k] else 0) + 1]
  }

  /** The sum of the counts under `keys`. */
  ghost function SumOver(m: map<string, nat>, keys: set<string>): nat
    requires keys <= m.Keys
    decreases keys
  {
    if keys == {} then 0
    else
      var k :| k in keys;
      m[k] + SumOver(m, keys - {k})
  }

  ghost function Total(m: map<string, nat>): nat {
    SumOver(m, m.Keys)
  }

  /** The sum does not depend on the order keys are taken in: any key may
      be taken first. */
  lemma {:induction false} SumOverRemove(m: map<string, nat>, keys: set<string>, k: string)
    requires keys <= m.Keys && k in keys
    ensures SumOver(m, keys) == m[k] + SumOver(m, keys - {k})
    decreases keys
  {
    var j :| j in keys && SumOver(m, keys) == m[j] + SumOver(m, keys - {j});
    if j != k {
      SumOverRemove(m, keys - {j}, k);
      SumOverRemove(m, keys - {k}, j);
      assert keys - {j} - {k} == keys - {k} - {j};
    }
  }

  /** Two maps that agree on `keys` have the same sum there. */
  lemma {:induction false} SumOverAgree(m: map<string, nat>, n: map<string, nat>, keys: set<string>)
    requires keys <= m.Keys && keys <= n.Keys
    requires forall j :: j in keys ==> m[j] == n[j]
    ensures SumOver(m, keys) == SumOver(n, keys)
    decreases keys
  {
    if keys != {} {
      var j :| j in keys && SumOver(m, keys) == m[j] + SumOver(m, keys - {j});
      SumOverRemove(n, keys, j);
      SumOverAgree(m, n, keys - {j});
    }
  }

  /** Bumping one count raises the total by one. */
  lemma BumpTotal(m: map<string, nat>, k: string)
    ensures Total(Bump(m, k)) == Total(m) + 1
  {
    var r := Bump(m, k);
    SumOverRemove(r, r.Keys, k);
    assert r.Keys - {k} == m.Keys - {k};
    SumOverAgree(r, m, m.Keys - {k});
    if k in m {
      SumOverRemove(m, m.Keys, k);
    } else {
      assert m.Keys - {k} == m.Keys;
    }
  }

  /** Each key counted as often as it occurs, in one pass. */
  function Tally(keys: seq<string>): (r: map<string, nat>)
    ensures forall k :: k in r <==> k in keys
    ensures forall k :: k in r ==> r[k] == multiset(keys)[k]
  {
    if |keys| == 0 then map[]
    else
      var init := keys[..|keys| - 1];
      assert keys == init + [keys[|keys| - 1]];
      Bump(Tally(init), keys[|keys| - 1])
  }

  /** Every key is counted once: the counts add up to the number of keys. */
  lemma {:induction false} TallyTotal(keys: seq<string>)
    ensures Total(Tally(keys)) == |keys|
  {
    if |keys| > 0 {
      var init := keys[..|keys| - 1];
      TallyTotal(init);
      BumpTotal(Tally(init), keys[|keys| - 1]);
    }
  }
}

=== FILE: documentation.dfy ===
/** The documentation provider (`src/context/providers/documentation.rs`):
    picks the repository's documentation files (well-known names in the
    working directory, text files under `docs/`), hands their combined text
    to the AI agent, and reads the agent's JSON answer into a structured
    record. The walks, the file reads, the agent and the JSON parser are
    parameters. */
module Documentation {
  import opened Wrappers
  import opened Text
  import Paths
  import Ordering
  import Sorting
  import Values
  import ContextTypes
  import Repository

  type DocPath = Repository.RepoPath

  /** One walked entry: its path and whether it is a regular file. */
  datatype DocEntry = DocEntry(path: DocPath, isFile: bool)

  datatype ProjectInfo = ProjectInfo(name: Option<string>, description: Option<string>,
                                     primaryLanguage: Option<string>, keywords: seq<string>)

  datatype UsageInfo = UsageInfo(commands: seq<string>, examples: seq<string>, configuration: seq<string>)

  datatype DevelopmentInfo = DevelopmentInfo(setupSteps: seq<string>, dependencies: seq<string>, testing: seq<string>)

  datatype BreakingChangesInfo = BreakingChangesInfo(rules: seq<string>, indicators: seq<string>)

  datatype ConventionsInfo = ConventionsInfo(commitStyle: Option<string>, branching: Option<string>,
                                             releaseProcess: Option<string>, docsReference: Option<string>)

  datatype MiscInfo = MiscInfo(notableDesigns: seq<string>, importantFiles: seq<string>, securityNotes: seq<string>)

  /** The record the provider fills. */
  datatype DocumentationContext = DocumentationContext(
    project: ProjectInfo,
    usage: UsageInfo,
    development: DevelopmentInfo,
    breakingChanges: BreakingChangesInfo,
    conventions: ConventionsInfo,
    misc: MiscInfo,
    docFiles: seq<string>)

  // ---------------------------------------------------------------------
  // Choosing the documentation files

  /** The well-known names looked for in the working directory. */
  const DocPatterns: seq<string> := [
    "README.*", "LICENSE*", "COPYING*", "CHANGELOG.*", "CONTRIBUTING.*", "CODE_OF_CONDUCT.*",
    "SECURITY.*", "SUPPORT.*", "AUTHORS*", "MAINTAINERS*", "GOVERNANCE.*"]

  /** The same patterns without their trailing `*`. */
  const DocPrefixes: seq<string> := [
    "README.", "LICENSE", "COPYING", "CHANGELOG.", "CONTRIBUTING.", "CODE_OF_CONDUCT.",
    "SECURITY.", "SUPPORT.", "AUTHORS", "MAINTAINERS", "GOVERNANCE."]

  /** How one pattern is tried on a file name: a pattern ending in `*`
      wants its text before the trailing stars as a prefix; a pattern with
      a `*` elsewhere that splits into two pieces wants the first piece as
      a prefix (the second piece is not looked at); any other pattern
      selects nothing. */
  predicate RootMatches(pattern: string, name: string) {
    if EndsWith(pattern, "*") then StartsWith(name, TrimEndChar(pattern, '*'))
    else if '*' in pattern then
      var parts := Split(pattern, '*');
      |parts| == 2 && StartsWith(name, parts[0])
    else false
  }

  predicate AnyDocPattern(name: string) {
    exists k :: 0 <= k < |DocPatterns| && RootMatches(DocPatterns[k], name)
  }

  /** The files of the working directory's walk that one pattern picks. */
  function RootHits(pattern: string, walk: seq<Result<DocEntry>>): (r: seq<DocPath>)
    ensures forall p :: p in r <==> Ok(DocEntry(p, true)) in walk && RootMatches(pattern, Repository.FileName(p))
  {
    if |walk| == 0 then []
    else
      assert walk == [walk[0]] + walk[1..];
      var e := walk[0];
      (if e.Ok? && e.value.isFile && RootMatches(pattern, Repository.FileName(e.value.path)) then [e.value.path] else [])
        + RootHits(pattern, walk[1..])
  }

  /** The walk is repeated once per pattern, so a file picked by two
      patterns is listed twice. */
  function AllRootHits(patterns: seq<string>, walk: seq<Result<DocEntry>>): seq<DocPath> {
    if |patterns| == 0 then [] else RootHits(patterns[0], walk) + AllRootHits(patterns[1..], walk)
  }

  lemma {:induction false} AllRootHitsMembers(patterns: seq<string>, walk: seq<Result<DocEntry>>, p: DocPath)
    ensures p in AllRootHits(patterns, walk) <==>
      Ok(DocEntry(p, true)) in walk && exists k :: 0 <= k < |patterns| && RootMatches(patterns[k], Repository.FileName(p))
  {
    if |patterns| > 0 {
      AllRootHitsMembers(patterns[1..], walk, p);
      if exists k :: 0 <= k < |patterns| && RootMatches(patterns[k], Repository.FileName(p)) {
        var k :| 0 <= k < |patterns| && RootMatches(patterns[k], Repository.FileName(p));
        if k > 0 {
          assert patterns[1..][k - 1] == patterns[k];
        }
      }
      if exists k :: 0 <= k < |patterns[1..]| && RootMatches(patterns[1..][k], Repository.FileName(p)) {
        var k :| 0 <= k < |patterns[1..]| && RootMatches(patterns[1..][k], Repository.FileName(p));
        assert patterns[k + 1] == patterns[1..][k];
      }
    }
  }

  /** The extensions taken from `docs/`. */
  predicate DocExtension(p: DocPath) {
    Paths.Extension(Repository.FileName(p)) in {Some("md"), Some("txt"), Some("rst")}
  }

  /** The files of the `docs/` walk with a documentation extension. */
  function DocsHits(walk: seq<Result<DocEntry>>): (r: seq<DocPath>)
    ensures forall p :: p in r <==> Ok(DocEntry(p, true)) in walk && DocExtension(p)
  {
    if |walk| == 0 then []
    else
      assert walk == [walk[0]] + walk[1..];
      var e := walk[0];
      (if e.Ok? && e.value.isFile && DocExtension(e.value.path) then [e.value.path] else []) + DocsHits(walk[1..])
  }

  /** `get_documentation_files`: the root files some pattern picks and,
      when `docs` exists, the text files below it, sorted by path with
      duplicates dropped. */
  function DocumentationFiles(rootWalk: seq<Result<DocEntry>>, docsExists: bool, docsWalk: seq<Result<DocEntry>>): (r: seq<DocPath>)
    ensures Sorting.StrictlySortedBy(r, Sorting.Id, Ordering.PathLeq)
    ensures forall p :: p in r <==>
      (Ok(DocEntry(p, true)) in rootWalk && AnyDocPattern(Repository.FileName(p)))
      || (docsExists && Ok(DocEntry(p, true)) in docsWalk && DocExtension(p))
  {
    var found := AllRootHits(DocPatterns, rootWalk) + (if docsExists then DocsHits(docsWalk) else []);
    forall p ensures p in AllRootHits(DocPatterns, rootWalk) <==> Ok(DocEntry(p, true)) in rootWalk && AnyDocPattern(Repository.FileName(p)) {
      AllRootHitsMembers(DocPatterns, rootWalk, p);
    }
    Ordering.PathLeqIsTotalOrder();
    Sorting.SortDedupBy(found, Ordering.PathLeq)
  }

  /** Stripping the one trailing star of a pattern. */
  lemma TrimOneStar(pre: string)
    requires |pre| > 0 && pre[|pre| - 1] != '*'
    ensures TrimEndChar(pre + "*", '*') == pre
  {
    assert (pre + "*")[..|pre|] == pre;
  }

  /** A pattern ending in one `*` wants exactly its text before the star. */
  lemma TrailingStarRule(pre: string, name: string)
    requires |pre| > 0 && pre[|pre| - 1] != '*'
    ensures RootMatches(pre + "*", name) <==> StartsWith(name, pre)
  {
    TrimOneStar(pre);
  }

  /** A star inside a pattern: the text after it is never checked. */
  lemma MiddleStarIgnoresSuffix(pre: string, post: string, name: string)
    requires '*' !in pre && '*' !in post && |post| > 0
    ensures RootMatches(pre + "*" + post, name) <==> StartsWith(name, pre)
  {
    var pattern := pre + "*" + post;
    assert pattern[|pattern| - 1] == post[|post| - 1];
    assert pattern[|pre|] == '*';
    SplitCons(pre, '*', post);
  }

  /** Every built-in pattern is its prefix followed by one star. */
  lemma DocPatternsArePrefixes()
    ensures |DocPatterns| == |DocPrefixes|
    ensures forall k :: 0 <= k < |DocPrefixes| ==> |DocPrefixes[k]| > 0 && DocPrefixes[k][|DocPrefixes[k]| - 1] != '*'
    ensures forall k :: 0 <= k < |DocPatterns| ==> DocPatterns[k] == DocPrefixes[k] + "*"
  {
  }

  /** A root file is picked exactly when its name starts with one of the
      well-known prefixes. */
  lemma {:induction false} RootSelectionByPrefix(name: string)
    ensures AnyDocPattern(name) <==> exists k :: 0 <= k < |DocPrefixes| && StartsWith(name, DocPrefixes[k])
  {
    DocPatternsArePrefixes();
    forall k | 0 <= k < |DocPatterns|
      ensures RootMatches(DocPatterns[k], name) <==> StartsWith(name, DocPrefixes[k])
    {
      TrailingStarRule(DocPrefixes[k], name);
    }
  }

  /** `README` without a dot is not a documentation file, while
      `LICENSE-MIT` is. */
  lemma ReadmeNeedsADot()
    ensures !AnyDocPattern("README")
    ensures AnyDocPattern("LICENSE-MIT")
  {
    RootSelectionByPrefix("README");
    RootSelectionByPrefix("LICENSE-MIT");
    assert StartsWith("LICENSE-MIT", DocPrefixes[1]);
  }

  // ---------------------------------------------------------------------
  // Combining the files and building the prompt

  /** One file's block in the combined text. */
  function Block(p: DocPath, content: string): string {
    "\n=== " + Repository.PathString(p) + " ===\n" + content + "\n"
  }

  /** `combine_documentation_content`: the block of each readable file, in
      order; unreadable files are skipped. */
  function Combine(files: seq<DocPath>, read: DocPath -> Result<string>): string {
    if |files| == 0 then ""
    else
      var last := files[|files| - 1];
      Combine(files[..|files| - 1], read) + (if read(last).Ok? then Block(last, read(last).value) else "")
  }

  /** Combining is done file by file: the text for two lists is the text
      for the first followed by the text for the second. */
  lemma {:induction false} CombineAppend(a: seq<DocPath>, b: seq<DocPath>, read: DocPath -> Result<string>)
    ensures Combine(a + b, read) == Combine(a, read) + Combine(b, read)
  {
    if |b| > 0 {
      var init := b[..|b| - 1];
      assert (a + b)[..|a + b| - 1] == a + init;
      CombineAppend(a, init, read);
    } else {
      assert a + b == a;
    }
  }

  /** Files that cannot be read leave no trace. */
  lemma {:induction false} CombineSkipsUnreadable(files: seq<DocPath>, read: DocPath -> Result<string>)
    requires forall i :: 0 <= i < |files| ==> read(files[i]).Err?
    ensures Combine(files, read) == ""
  {
    if |files| > 0 {
      var init := files[..|files| - 1];
      assert forall i :: 0 <= i < |init| ==> init[i] == files[i];
      CombineSkipsUnreadable(init, read);
    }
  }

  /** A single readable file gives exactly its block. */
  lemma CombineOne(p: DocPath, read: DocPath -> Result<string>)
    requires read(p).Ok?
    ensures Combine([p], read) == Block(p, read(p).value)
  {
    assert [p][..0] == [];
  }

  /** `create_analysis_prompt`: the fixed instructions (ending with the
      opening `---` line), the documentation, and a closing `---` line. */
  function AnalysisPrompt(instructions: string, docs: string): (r: string)
    ensures StartsWith(r, instructions) && EndsWith(r, "\n---")
    ensures |r| == |instructions| + |docs| + 4 && r[|instructions|..|instructions| + |docs|] == docs
  {
    instructions + docs + "\n---"
  }

  // ---------------------------------------------------------------------
  // Reading the agent's answer

  /** The nested object under `name`, or `null` when there is none. */
  function Section(v: Values.Value, name: string): Values.Value {
    Values.Get(v, name).GetOr(Values.Null)
  }

  /** A text field: present only when the value is a string. */
  function Scalar(v: Values.Value, name: string): (r: Option<string>)
    ensures r.Some? <==> Values.Get(v, name).Some? && Values.Get(v, name).value.Str?
    ensures r.Some? ==> Values.Get(v, name) == Some(Values.Str(r.value))
  {
    match Values.Get(v, name)
    case Some(x) => Values.AsStr(x)
    case None => None
  }

  /** A list field: the string elements of an array, in order; anything
      else, or nothing, gives the empty list. */
  function List(v: Values.Value, name: string): (r: seq<string>)
    ensures !(Values.Get(v, name).Some? && Values.Get(v, name).value.Array?) ==> r == []
    ensures Values.Get(v, name).Some? && Values.Get(v, name).value.Array? ==>
      forall x :: x in r <==> Values.Str(x) in Values.Get(v, name).value.items
  {
    match Values.Get(v, name)
    case Some(Array(items)) => Values.Strings(items)
    case _ => []
  }

  function ReadProject(p: Values.Value): ProjectInfo {
    ProjectInfo(Scalar(p, "name"), Scalar(p, "description"), Scalar(p, "primary_language"), List(p, "keywords"))
  }

  function ReadUsage(u: Values.Value): UsageInfo {
    UsageInfo(List(u, "commands"), List(u, "examples"), List(u, "configuration"))
  }

  function ReadDevelopment(d: Values.Value): DevelopmentInfo {
    DevelopmentInfo(List(d, "setup_steps"), List(d, "dependencies"), List(d, "testing"))
  }

  function ReadBreakingChanges(b: Values.Value): BreakingChangesInfo {
    BreakingChangesInfo(List(b, "rules"), List(b, "indicators"))
  }

  function ReadConventions(c: Values.Value): ConventionsInfo {
    ConventionsInfo(Scalar(c, "commit_style"), Scalar(c, "branching"), Scalar(c, "release_process"), Scalar(c, "docs_reference"))
  }

  function ReadMisc(m: Values.Value): MiscInfo {
    MiscInfo(List(m, "notable_designs"), List(m, "important_files"), List(m, "security_notes"))
  }

  const ParseFailure := "Failed to parse AI response as JSON"

  /** `parse_ai_response`: every group is read from under the top-level
      `project` object; `docFiles` lists the given paths as displayed, in
      the same order. */
  function ParseAiResponse(response: string, files: seq<DocPath>, parse: Values.Parser): (r: Result<DocumentationContext>)
    ensures parse(response).Err? <==> r.Err?
    ensures r.Err? ==> r.error == ParseFailure
    ensures r.Ok? ==> |r.value.docFiles| == |files|
    ensures r.Ok? ==> forall i :: 0 <= i < |files| ==> r.value.docFiles[i] == Repository.PathString(files[i])
  {
    match parse(response)
    case Err(_) => Err(ParseFailure)
    case Ok(doc) =>
      var p := Section(doc, "project");
      Ok(DocumentationContext(
        ReadProject(p),
        ReadUsage(Section(p, "usage")),
        ReadDevelopment(Section(p, "development")),
        ReadBreakingChanges(Section(p, "breaking_changes")),
        ReadConventions(Section(p, "conventions")),
        ReadMisc(Section(p, "misc")),
        seq(|files|, i requires 0 <= i < |files| => Repository.PathString(files[i]))))
  }

  /** The record with every field empty and no files. */
  function Empty(): DocumentationContext {
    DocumentationContext(
      ProjectInfo(None, None, None, []),
      UsageInfo([], [], []),
      DevelopmentInfo([], [], []),
      BreakingChangesInfo([], []),
      ConventionsInfo(None, None, None, None),
      MiscInfo([], [], []),
      [])
  }

  /** The record returned when there is no documentation is exactly what
      an answer of `{}` reads as. */
  lemma EmptyIsEmptyAnswer(response: string, parse: Values.Parser)
    requires parse(response) == Ok(Values.Object([]))
    ensures ParseAiResponse(response, [], parse) == Ok(Empty())
  {
  }

  // ---------------------------------------------------------------------
  // The JSON shape the prompt asks for, and reading it back

  function EncodeScalar(o: Option<string>): Values.Value {
    match o
    case Some(s) => Values.Str(s)
    case None => Values.Null
  }

  function EncodeList(xs: seq<string>): Values.Value {
    Values.Array(seq(|xs|, i requires 0 <= i < |xs| => Values.Str(xs[i])))
  }

  /** An object with the given keys, in order, holding the given values. */
  function Obj(keys: seq<string>, vals: seq<Values.Value>): Values.Value
    requires |keys| == |vals|
  {
    Values.Object(seq(|keys|, i requires 0 <= i < |keys| => Values.Field(Values.KeyStr(keys[i]), vals[i])))
  }

  predicate Distinct(keys: seq<string>) {
    forall i, j :: 0 <= i < j < |keys| ==> keys[i] != keys[j]
  }

  const ProjectKeys: seq<string> := ["name", "description", "primary_language", "keywords",
                                     "usage", "development", "breaking_changes", "conventions", "misc"]
  const UsageKeys: seq<string> := ["commands", "examples", "configuration"]
  const DevelopmentKeys: seq<string> := ["setup_steps", "dependencies", "testing"]
  const BreakingChangesKeys: seq<string> := ["rules", "indicators"]
  const ConventionsKeys: seq<string> := ["commit_style", "branching", "release_process", "docs_reference"]
  const MiscKeys: seq<string> := ["notable_designs", "important_files", "security_notes"]

  lemma ProjectKeysDistinct()
    ensures Distinct(ProjectKeys)
  {
  }

  lemma KeysDistinct()
    ensures Distinct(UsageKeys) && Distinct(DevelopmentKeys)
    ensures Distinct(BreakingChangesKeys) && Distinct(ConventionsKeys) && Distinct(MiscKeys)
  {
  }

  function EncodeUsage(u: UsageInfo): Values.Value {
    Obj(UsageKeys, [EncodeList(u.commands), EncodeList(u.examples), EncodeList(u.configuration)])
  }

  function EncodeDevelopment(d: DevelopmentInfo): Values.Value {
    Obj(DevelopmentKeys, [EncodeList(d.setupSteps), EncodeList(d.dependencies), EncodeList(d.testing)])
  }

  function EncodeBreakingChanges(b: BreakingChangesInfo): Values.Value {
    Obj(BreakingChangesKeys, [EncodeList(b.rules), EncodeList(b.indicators)])
  }

  function EncodeConventions(c: ConventionsInfo): Values.Value {
    Obj(ConventionsKeys, [EncodeScalar(c.commitStyle), EncodeScalar(c.branching),
                          EncodeScalar(c.releaseProcess), EncodeScalar(c.docsReference)])
  }

  function EncodeMisc(m: MiscInfo): Values.Value {
    Obj(MiscKeys, [EncodeList(m.notableDesigns), EncodeList(m.importantFiles), EncodeList(m.securityNotes)])
  }

  function ProjectValues(c: DocumentationContext): (r: seq<Values.Value>)
    ensures |r| == |ProjectKeys|
  {
    [EncodeScalar(c.project.name), EncodeScalar(c.project.description),
     EncodeScalar(c.project.primaryLanguage), EncodeList(c.project.keywords),
     EncodeUsage(c.usage), EncodeDevelopment(c.development), EncodeBreakingChanges(c.breakingChanges),
     EncodeConventions(c.conventions), EncodeMisc(c.misc)]
  }

  /** The `project` object of the schema in the prompt. */
  function EncodeProject(c: DocumentationContext): Values.Value {
    Obj(ProjectKeys, ProjectValues(c))
  }

  /** The whole answer: one `project` object. */
  function Encode(c: DocumentationContext): Values.Value {
    Obj(["project"], [EncodeProject(c)])
  }

  /** In an object with distinct keys, each key finds its own value. */
  lemma GetAt(keys: seq<string>, vals: seq<Values.Value>, j: nat)
    requires |keys| == |vals| && Distinct(keys) && j < |keys|
    ensures Values.Get(Obj(keys, vals), keys[j]) == Some(vals[j])
  {
    var fields := Obj(keys, vals).fields;
    assert fields[j].key == Values.KeyStr(keys[j]);
    var i := Values.Find(fields, keys[j]).value;
    assert !(i < j) && !(j < i);
  }

  lemma StringsOfEncoded(xs: seq<string>)
    ensures Values.Strings(EncodeList(xs).items) == xs
  {
    if |xs| > 0 {
      var items := EncodeList(xs).items;
      assert items[1..] == EncodeList(xs[1..]).items;
      StringsOfEncoded(xs[1..]);
      assert xs == [xs[0]] + xs[1..];
    }
  }

  lemma ScalarAt(keys: seq<string>, vals: seq<Values.Value>, j: nat, name: string, o: Option<string>)
    requires |keys| == |vals| && Distinct(keys) && j < |keys| && keys[j] == name && vals[j] == EncodeScalar(o)
    ensures Scalar(Obj(keys, vals), name) == o
  {
    GetAt(keys, vals, j);
  }

  lemma ListAt(keys: seq<string>, vals: seq<Values.Value>, j: nat, name: string, xs: seq<string>)
    requires |keys| == |vals| && Distinct(keys) && j < |keys| && keys[j] == name && vals[j] == EncodeList(xs)
    ensures List(Obj(keys, vals), name) == xs
  {
    GetAt(keys, vals, j);
    StringsOfEncoded(xs);
  }

  lemma ReadUsageOfEncoded(u: UsageInfo)
    ensures ReadUsage(EncodeUsage(u)) == u
  {
    KeysDistinct();
    var vals := [EncodeList(u.commands), EncodeList(u.examples), EncodeList(u.configuration)];
    ListAt(UsageKeys, vals, 0, "commands", u.commands);
    ListAt(UsageKeys, vals, 1, "examples", u.examples);
    ListAt(UsageKeys, vals, 2, "configuration", u.configuration);
  }

  lemma ReadDevelopmentOfEncoded(d: DevelopmentInfo)
    ensures ReadDevelopment(EncodeDevelopment(d)) == d
  {
    KeysDistinct();
    var vals := [EncodeList(d.setupSteps), EncodeList(d.dependencies), EncodeList(d.testing)];
    ListAt(DevelopmentKeys, vals, 0, "setup_steps", d.setupSteps);
    ListAt(DevelopmentKeys, vals, 1, "dependencies", d.dependencies);
    ListAt(DevelopmentKeys, vals, 2, "testing", d.testing);
  }

  lemma ReadBreakingChangesOfEncoded(b: BreakingChangesInfo)
    ensures ReadBreakingChanges(EncodeBreakingChanges(b)) == b
  {
    KeysDistinct();
    var vals := [EncodeList(b.rules), EncodeList(b.indicators)];
    ListAt(BreakingChangesKeys, vals, 0, "rules", b.rules);
    ListAt(BreakingChangesKeys, vals, 1, "indicators", b.indicators);
  }

  lemma ReadConventionsOfEncoded(c: ConventionsInfo)
    ensures ReadConventions(EncodeConventions(c)) == c
  {
    KeysDistinct();
    var vals := [EncodeScalar(c.commitStyle), EncodeScalar(c.branching),
                 EncodeScalar(c.releaseProcess), EncodeScalar(c.docsReference)];
    ScalarAt(ConventionsKeys, vals, 0, "commit_style", c.commitStyle);
    ScalarAt(ConventionsKeys, vals, 1, "branching", c.branching);
    ScalarAt(ConventionsKeys, vals, 2, "release_process", c.releaseProcess);
    ScalarAt(ConventionsKeys, vals, 3, "docs_reference", c.docsReference);
  }

  lemma ReadMiscOfEncoded(m: MiscInfo)
    ensures ReadMisc(EncodeMisc(m)) == m
  {
    KeysDistinct();
    var vals := [EncodeList(m.notableDesigns), EncodeList(m.importantFiles), EncodeList(m.securityNotes)];
    ListAt(MiscKeys, vals, 0, "notable_designs", m.notableDesigns);
    ListAt(MiscKeys, vals, 1, "important_files", m.importantFiles);
    ListAt(MiscKeys, vals, 2, "security_notes", m.securityNotes);
  }

  lemma ReadProjectOfValues(vals: seq<Values.Value>, info: ProjectInfo)
    requires |vals| == |ProjectKeys|
    requires vals[0] == EncodeScalar(info.name) && vals[1] == EncodeScalar(info.description)
    requires vals[2] == EncodeScalar(info.primaryLanguage) && vals[3] == EncodeList(info.keywords)
    ensures ReadProject(Obj(ProjectKeys, vals)) == info
  {
    var p := Obj(ProjectKeys, vals);
    ProjectKeysDistinct();
    assert Scalar(p, "name") == info.name by {
      ScalarAt(ProjectKeys, vals, 0, "name", info.name);
    }
    assert Scalar(p, "description") == info.description by {
      ScalarAt(ProjectKeys, vals, 1, "description", info.description);
    }
    assert Scalar(p, "primary_language") == info.primaryLanguage by {
      ScalarAt(ProjectKeys, vals, 2, "primary_language", info.primaryLanguage);
    }
    assert List(p, "keywords") == info.keywords by {
      ListAt(ProjectKeys, vals, 3, "keywords", info.keywords);
    }
  }

  lemma ReadProjectOfEncoded(c: DocumentationContext)
    ensures ReadProject(EncodeProject(c)) == c.project
  {
    ReadProjectOfValues(ProjectValues(c), c.project);
  }

  /** The groups nested in `project` are found under their names. */
  lemma SectionsOfEncoded(c: DocumentationContext)
    ensures Section(EncodeProject(c), "usage") == EncodeUsage(c.usage)
    ensures Section(EncodeProject(c), "development") == EncodeDevelopment(c.development)
    ensures Section(EncodeProject(c), "breaking_changes") == EncodeBreakingChanges(c.breakingChanges)
    ensures Section(EncodeProject(c), "conventions") == EncodeConventions(c.conventions)
    ensures Section(EncodeProject(c), "misc") == EncodeMisc(c.misc)
  {
    ProjectKeysDistinct();
    var vals := ProjectValues(c);
    GetAt(ProjectKeys, vals, 4);
    GetAt(ProjectKeys, vals, 5);
    GetAt(ProjectKeys, vals, 6);
    GetAt(ProjectKeys, vals, 7);
    GetAt(ProjectKeys, vals, 8);
  }

  /** The groups of an answer in the requested shape read back to the
      groups of the record. */
  lemma {:induction false} GroupsOfEncoded(c: DocumentationContext)
    ensures var p := Section(Encode(c), "project");
      && ReadProject(p) == c.project
      && ReadUsage(Section(p, "usage")) == c.usage
      && ReadDevelopment(Section(p, "development")) == c.development
      && ReadBreakingChanges(Section(p, "breaking_changes")) == c.breakingChanges
      && ReadConventions(Section(p, "conventions")) == c.conventions
      && ReadMisc(Section(p, "misc")) == c.misc
  {
    assert Section(Encode(c), "project") == EncodeProject(c) by {
      GetAt(["project"], [EncodeProject(c)], 0);
    }
    ReadProjectOfEncoded(c);
    SectionsOfEncoded(c);
    ReadUsageOfEncoded(c.usage);
    ReadDevelopmentOfEncoded(c.development);
    ReadBreakingChangesOfEncoded(c.breakingChanges);
    ReadConventionsOfEncoded(c.conventions);
    ReadMiscOfEncoded(c.misc);
  }

  /** An answer in the requested shape is read back into the record it
      describes, with the given files listed. */
  lemma {:induction false} ParseOfEncoded(c: DocumentationContext, response: string, files: seq<DocPath>, parse: Values.Parser)
    requires parse(response) == Ok(Encode(c))
    requires |c.docFiles| == |files| && forall i :: 0 <= i < |files| ==> c.docFiles[i] == Repository.PathString(files[i])
    ensures ParseAiResponse(response, files, parse) == Ok(c)
  {
    GroupsOfEncoded(c);
    var r := ParseAiResponse(response, files, parse).value;
    assert r.docFiles == c.docFiles;
  }

  // ---------------------------------------------------------------------
  // The provider

  const AgentFailure := "Failed to process documentation with AI agent"

  /** `gather`: with no documentation files the empty record, and the agent
      is not asked; otherwise the agent's answer to the prompt built from
      the readable files, read back with the files listed. */
  function Gather(rootWalk: seq<Result<DocEntry>>, docsExists: bool, docsWalk: seq<Result<DocEntry>>,
                  read: DocPath -> Result<string>, instructions: string,
                  agent: string -> Result<string>, parse: Values.Parser): (r: Result<DocumentationContext>)
    ensures var files := DocumentationFiles(rootWalk, docsExists, docsWalk);
      && (|files| == 0 ==> r == Ok(Empty()))
      && (|files| > 0 ==>
            var answer := agent(AnalysisPrompt(instructions, Combine(files, read)));
            && (answer.Err? ==> r == Err(AgentFailure))
            && (answer.Ok? ==> r == ParseAiResponse(answer.value, files, parse)))
  {
    var files := DocumentationFiles(rootWalk, docsExists, docsWalk);
    if |files| == 0 then Ok(Empty())
    else
      match agent(AnalysisPrompt(instructions, Combine(files, read)))
      case Err(_) => Err(AgentFailure)
      case Ok(answer) => ParseAiResponse(answer, files, parse)
  }

  /** Without documentation files the result does not depend on the
      reader, the agent or the parser. */
  lemma NoDocFiles(rootWalk: seq<Result<DocEntry>>, docsExists: bool, docsWalk: seq<Result<DocEntry>>)
    requires forall p :: Ok(DocEntry(p, true)) in rootWalk ==> !AnyDocPattern(Repository.FileName(p))
    requires !docsExists
    ensures DocumentationFiles(rootWalk, docsExists, docsWalk) == []
  {
    var files := DocumentationFiles(rootWalk, docsExists, docsWalk);
    forall p ensures multiset(files)[p] == 0 {
      assert p !in files;
    }
    assert multiset(files) == multiset{};
  }

  lemma NoDocsIgnoresAgent(rootWalk: seq<Result<DocEntry>>, docsExists: bool, docsWalk: seq<Result<DocEntry>>,
                           read1: DocPath -> Result<string>, read2: DocPath -> Result<string>, instructions: string,
                           agent1: string -> Result<string>, agent2: string -> Result<string>,
                           parse1: Values.Parser, parse2: Values.Parser)
    requires forall p :: Ok(DocEntry(p, true)) in rootWalk ==> !AnyDocPattern(Repository.FileName(p))
    requires !docsExists
    ensures Gather(rootWalk, docsExists, docsWalk, read1, instructions, agent1, parse1) == Ok(Empty())
    ensures Gather(rootWalk, docsExists, docsWalk, read2, instructions, agent2, parse2) == Ok(Empty())
  {
    NoDocFiles(rootWalk, docsExists, docsWalk);
  }

  /** Data cached under the documentation provider's key. */
  datatype CachedData = DocumentationData(docs: DocumentationContext) | OtherData(other: ContextTypes.ContextData)

  /** `should_refresh`: documentation data is left to expire on its own;
      anything else found under its key is refreshed. */
  function ShouldRefresh(cached: CachedData): (r: bool)
    ensures r <==> !cached.DocumentationData?
  {
    match cached
    case DocumentationData(_) => false
    case OtherData(_) => true
  }
}

=== FILE: file_hash.dfy ===
/** The file-hash tracker (`src/context/file_hash.rs`): a stored map from
    displayed path to the MD5 digest of the file's bytes, used to tell
    whether any of a list of files changed since the hashes were last
    recorded. The file system is a map from path to the result of reading
    the file (a path is absent when it does not exist); the digest, the
    JSON codec and the clock are parameters. */
module FileHash {
  import opened Wrappers

  type Bytes = seq<bv8>

  /** The stored record: path to hex digest, and when it was written. */
  datatype FileHashMap = FileHashMap(hashes: map<string, string>, lastUpdated: int)

  /** The hash store on disk: missing, or present with the outcome of
      reading it. */
  datatype HashFile = Missing | Present(read: Result<string>)

  /** Serialising and parsing the record (`serde_json`). */
  datatype Codec = Codec(encode: FileHashMap -> string, decode: string -> Result<FileHashMap>)

  /** Every written record parses back to itself. */
  ghost predicate RoundTrips(codec: Codec) {
    forall m :: codec.decode(codec.encode(m)) == Ok(m)
  }

  /** The files: a path is present exactly when it exists, with the outcome
      of reading its bytes. */
  type FileSystem = map<string, Result<Bytes>>

  /** The hex digest of some bytes (`format!("{:x}", md5::compute(..))`). */
  type Digest = Bytes -> string

  const ReadFailure := "Failed to read file hashes"
  const ParseFailure := "Failed to parse file hashes JSON"
  const HashReadFailure := "Failed to read file for hashing"

  /** `load_hashes`: a missing store is an empty record stamped `now`; an
      unreadable or unparsable one is an error. */
  function LoadHashes(file: HashFile, codec: Codec, now: int): (r: Result<FileHashMap>)
    ensures file.Missing? ==> r == Ok(FileHashMap(map[], now))
    ensures file.Present? && file.read.Err? ==> r == Err(ReadFailure)
    ensures file.Present? && file.read.Ok? ==>
      (codec.decode(file.read.value).Ok? ==> r == codec.decode(file.read.value))
      && (codec.decode(file.read.value).Err? ==> r == Err(ParseFailure))
  {
    match file
    case Missing => Ok(FileHashMap(map[], now))
    case Present(Err(_)) => Err(ReadFailure)
    case Present(Ok(text)) =>
      match codec.decode(text)
      case Ok(m) => Ok(m)
      case Err(_) => Err(ParseFailure)
  }

  /** `save_hashes`: the store afterwards holds the written record. */
  function Save(m: FileHashMap, codec: Codec): HashFile {
    Present(Ok(codec.encode(m)))
  }

  /** What was saved loads back. */
  lemma LoadAfterSave(m: FileHashMap, codec: Codec, now: int)
    requires RoundTrips(codec)
    ensures LoadHashes(Save(m, codec), codec, now) == Ok(m)
  {
  }

  /** `calculate_file_hash`. */
  function FileHash(fs: FileSystem, path: string, digest: Digest): Result<string>
    requires path in fs
  {
    match fs[path]
    case Ok(bytes) => Ok(digest(bytes))
    case Err(_) => Err(HashReadFailure)
  }

  /** A path that exists and either has no recorded hash or a different
      one. */
  predicate Differs(hashes: map<string, string>, fs: FileSystem, path: string, digest: Digest) {
    path in fs && fs[path].Ok? && (path !in hashes || hashes[path] != digest(fs[path].value))
  }

  /** Every existing path in the list can be read. */
  predicate AllReadable(paths: seq<string>, fs: FileSystem) {
    forall i :: 0 <= i < |paths| && paths[i] in fs ==> fs[paths[i]].Ok?
  }

  /** The loop of `files_changed` over the loaded hashes: paths that do not
      exist are passed over; the first existing path that is new or has a
      new hash answers `true`; a file that cannot be read stops with an
      error. */
  function Changed(hashes: map<string, string>, paths: seq<string>, fs: FileSystem, digest: Digest): Result<bool> {
    if |paths| == 0 then Ok(false)
    else if paths[0] !in fs then Changed(hashes, paths[1..], fs, digest)
    else
      match FileHash(fs, paths[0], digest)
      case Err(e) => Err(e)
      case Ok(h) => if paths[0] !in hashes || hashes[paths[0]] != h then Ok(true) else Changed(hashes, paths[1..], fs, digest)
  }

  /** When every existing file can be read, the answer is whether some
      listed path differs from its record. */
  lemma {:induction false} ChangedIff(hashes: map<string, string>, paths: seq<string>, fs: FileSystem, digest: Digest)
    requires AllReadable(paths, fs)
    ensures Changed(hashes, paths, fs, digest) == Ok(exists i :: 0 <= i < |paths| && Differs(hashes, fs, paths[i], digest))
  {
    if |paths| > 0 {
      var rest := paths[1..];
      assert AllReadable(rest, fs) by {
        assert forall i :: 0 <= i < |rest| ==> rest[i] == paths[i + 1];
      }
      ChangedIff(hashes, rest, fs, digest);
      assert (exists i :: 0 <= i < |paths| && Differs(hashes, fs, paths[i], digest)) <==>
        Differs(hashes, fs, paths[0], digest) || exists i :: 0 <= i < |rest| && Differs(hashes, fs, rest[i], digest)
      by {
        if exists i :: 0 <= i < |paths| && Differs(hashes, fs, paths[i], digest) {
          var i :| 0 <= i < |paths| && Differs(hashes, fs, paths[i], digest);
          if i > 0 {
            assert rest[i - 1] == paths[i];
          }
        }
        if exists i :: 0 <= i < |rest| && Differs(hashes, fs, rest[i], digest) {
          var i :| 0 <= i < |rest| && Differs(hashes, fs, rest[i], digest);
          assert paths[i + 1] == rest[i];
        }
      }
    }
  }

  /** Paths that do not exist never count as changed. */
  lemma {:induction false} MissingPathsIgnored(hashes: map<string, string>, paths: seq<string>, fs: FileSystem, digest: Digest)
    requires forall i :: 0 <= i < |paths| ==> paths[i] !in fs
    ensures Changed(hashes, paths, fs, digest) == Ok(false)
  {
    if |paths| > 0 {
      assert forall i :: 0 <= i < |paths[1..]| ==> paths[1..][i] == paths[i + 1];
      MissingPathsIgnored(hashes, paths[1..], fs, digest);
    }
  }

  /** `files_changed`: the stored hashes are loaded and compared. */
  function FilesChanged(file: HashFile, codec: Codec, now: int, paths: seq<string>, fs: FileSystem, digest: Digest): (r: Result<bool>)
    ensures LoadHashes(file, codec, now).Err? ==> r == Err(LoadHashes(file, codec, now).error)
    ensures LoadHashes(file, codec, now).Ok? ==> r == Changed(LoadHashes(file, codec, now).value.hashes, paths, fs, digest)
  {
    match LoadHashes(file, codec, now)
    case Err(e) => Err(e)
    case Ok(m) => Changed(m.hashes, paths, fs, digest)
  }

  /** With no store yet, any existing readable file counts as new. */
  lemma NoStoreMeansChanged(codec: Codec, now: int, paths: seq<string>, fs: FileSystem, digest: Digest, i: nat)
    requires AllReadable(paths, fs)
    requires i < |paths| && paths[i] in fs
    ensures FilesChanged(Missing, codec, now, paths, fs, digest) == Ok(true)
  {
    ChangedIff(map[], paths, fs, digest);
    assert Differs(map[], fs, paths[i], digest);
  }

  /** The loop of `update_file_hashes`: each existing path gets the digest
      of its current bytes; a file that cannot be read stops with an
      error. */
  function Updated(hashes: map<string, string>, paths: seq<string>, fs: FileSystem, digest: Digest): Result<map<string, string>>
    decreases |paths|
  {
    if |paths| == 0 then Ok(hashes)
    else if paths[0] !in fs then Updated(hashes, paths[1..], fs, digest)
    else
      match FileHash(fs, paths[0], digest)
      case Err(e) => Err(e)
      case Ok(h) => Updated(hashes[paths[0] := h], paths[1..], fs, digest)
  }

  /** Some listed path exists. */
  predicate Listed(paths: seq<string>, fs: FileSystem, k: string) {
    k in fs && exists i :: 0 <= i < |paths| && paths[i] == k
  }

  /** With every existing file readable, the update succeeds; every listed
      existing path then holds the digest of its bytes and every other
      entry is kept as it was. */
  lemma {:induction false} UpdatedContents(hashes: map<string, string>, paths: seq<string>, fs: FileSystem, digest: Digest)
    requires AllReadable(paths, fs)
    ensures Updated(hashes, paths, fs, digest).Ok?
    ensures var r := Updated(hashes, paths, fs, digest).value;
      forall k :: (k in r <==> k in hashes || Listed(paths, fs, k))
        && (Listed(paths, fs, k) ==> r[k] == digest(fs[k].value))
        && (k in hashes && !Listed(paths, fs, k) ==> r[k] == hashes[k])
    decreases |paths|
  {
    if |paths| > 0 {
      var rest := paths[1..];
      assert forall i :: 0 <= i < |rest| ==> rest[i] == paths[i + 1];
      assert AllReadable(rest, fs);
      var next := if paths[0] in fs then hashes[paths[0] := digest(fs[paths[0]].value)] else hashes;
      UpdatedContents(next, rest, fs, digest);
      forall k ensures Listed(paths, fs, k) <==> (k == paths[0] && k in fs) || Listed(rest, fs, k) {
        if Listed(paths, fs, k) && k != paths[0] {
          var i :| 0 <= i < |paths| && paths[i] == k;
          assert rest[i - 1] == k;
        }
        if Listed(rest, fs, k) {
          var i :| 0 <= i < |rest| && rest[i] == k;
          assert paths[i + 1] == k;
        }
      }
    }
  }

  /** `update_file_hashes`: the store afterwards holds the loaded record
      with the listed files' digests, stamped `now`. */
  function UpdateFileHashes(file: HashFile, codec: Codec, now: int, paths: seq<string>, fs: FileSystem, digest: Digest): (r: Result<HashFile>)
    ensures LoadHashes(file, codec, now).Err? ==> r.Err?
    ensures LoadHashes(file, codec, now).Ok? && Updated(LoadHashes(file, codec, now).value.hashes, paths, fs, digest).Ok? ==> r.Ok?
    ensures r.Ok? ==> var loaded := LoadHashes(file, codec, now);
      loaded.Ok? && Updated(loaded.value.hashes, paths, fs, digest).Ok?
      && r.value == Save(FileHashMap(Updated(loaded.value.hashes, paths, fs, digest).value, now), codec)
  {
    match LoadHashes(file, codec, now)
    case Err(e) => Err(e)
    case Ok(m) =>
      match Updated(m.hashes, paths, fs, digest)
      case Err(e) => Err(e)
      case Ok(hashes) => Ok(Save(FileHashMap(hashes, now), codec))
  }

  /** After recording the hashes of some files, and with none of them
      changed since, those files are reported unchanged. */
  lemma UpdateThenUnchanged(file: HashFile, codec: Codec, now: int, later: int, paths: seq<string>, fs: FileSystem, digest: Digest)
    requires RoundTrips(codec)
    requires AllReadable(paths, fs)
    requires LoadHashes(file, codec, now).Ok?
    ensures UpdateFileHashes(file, codec, now, paths, fs, digest).Ok?
    ensures FilesChanged(UpdateFileHashes(file, codec, now, paths, fs, digest).value, codec, later, paths, fs, digest) == Ok(false)
  {
    var loaded := LoadHashes(file, codec, now).value;
    UpdatedContents(loaded.hashes, paths, fs, digest);
    var hashes := Updated(loaded.hashes, paths, fs, digest).value;
    LoadAfterSave(FileHashMap(hashes, now), codec, later);
    ChangedIff(hashes, paths, fs, digest);
    forall i | 0 <= i < |paths| ensures !Differs(hashes, fs, paths[i], digest) {
      if paths[i] in fs {
        assert Listed(paths, fs, paths[i]);
      }
    }
  }

  /** The loops of `cleanup_missing_files`: the entries whose path no
      longer exists are dropped. */
  function WithoutMissing(hashes: map<string, string>, fs: FileSystem): (r: map<string, string>)
    ensures forall k :: k in r <==> k in hashes && k in fs
    ensures forall k :: k in r ==> r[k] == hashes[k]
  {
    map k | k in hashes && k in fs :: hashes[k]
  }

  /** `cleanup_missing_files`: the cleaned record is saved, stamped `now`,
      only when it still has entries; when every entry was dropped the
      store is left as it was. */
  function CleanupMissingFiles(file: HashFile, codec: Codec, now: int, fs: FileSystem): (r: Result<HashFile>)
    ensures LoadHashes(file, codec, now).Err? ==> r.Err?
    ensures LoadHashes(file, codec, now).Ok? ==> r.Ok?
    ensures r.Ok? ==> var cleaned := WithoutMissing(LoadHashes(file, codec, now).value.hashes, fs);
      (|cleaned| > 0 ==> r.value == Save(FileHashMap(cleaned, now), codec))
      && (|cleaned| == 0 ==> r.value == file)
  {
    match LoadHashes(file, codec, now)
    case Err(e) => Err(e)
    case Ok(m) =>
      var cleaned := WithoutMissing(m.hashes, fs);
      if |cleaned| > 0 then Ok(Save(FileHashMap(cleaned, now), codec)) else Ok(file)
  }

  /** Cleaning up twice is cleaning up once: the second pass finds nothing
      left to drop and saves the same entries. */
  lemma CleanupIdempotent(file: HashFile, codec: Codec, now: int, fs: FileSystem)
    requires RoundTrips(codec)
    requires CleanupMissingFiles(file, codec, now, fs).Ok?
    ensures var once := CleanupMissingFiles(file, codec, now, fs).value;
      CleanupMissingFiles(once, codec, now, fs) == Ok(once)
  {
    var m := LoadHashes(file, codec, now).value;
    var cleaned := WithoutMissing(m.hashes, fs);
    if |cleaned| > 0 {
      LoadAfterSave(FileHashMap(cleaned, now), codec, now);
      assert WithoutMissing(cleaned, fs) == cleaned;
    }
  }

  /** When every recorded file is gone the store is not rewritten, so the
      entries of the deleted files stay recorded; a deleted file that comes
      back with the same bytes is then not reported as new. */
  lemma AllMissingKeepsStore(m: FileHashMap, codec: Codec, now: int, fs: FileSystem, path: string, bytes: Bytes, digest: Digest)
    requires RoundTrips(codec)
    requires forall k :: k in m.hashes ==> k !in fs
    requires path in m.hashes && m.hashes[path] == digest(bytes)
    ensures CleanupMissingFiles(Save(m, codec), codec, now, fs) == Ok(Save(m, codec))
    ensures FilesChanged(Save(m, codec), codec, now, [path], fs[path := Ok(bytes)], digest) == Ok(false)
  {
    LoadAfterSave(m, codec, now);
    assert WithoutMissing(m.hashes, fs) == map[];
    var fs2 := fs[path := Ok(bytes)];
    assert FileHash(fs2, path, digest) == Ok(digest(bytes));
    assert Changed(m.hashes, [path][1..], fs2, digest) == Ok(false) by {
      assert [path][1..] == [];
    }
  }
}

=== FILE: git.dfy ===
/** The git context provider: status, diffs, recent commits, branch
    tracking, user identity and repository metadata, each read from the
    output of one git command. The outputs are inputs of the model, and so
    is the reading of RFC 3339 commit dates (a date that does not parse is
    replaced by the current time). */
module GitProvider {
  import opened Wrappers
  import opened ContextTypes
  import opened Text
  import GitStatus

  /** What each git command prints in this run. `diff` is keyed by its
      extra argument (`--cached`, nothing, or `<base>..HEAD`) and
      `branchExists` by branch name. */
  datatype GitOutputs = GitOutputs(
    status: CommandOutput,
    numstat: GitStatus.Numstat,
    diff: string -> CommandOutput,
    branchExists: string -> bool,
    log: CommandOutput,
    currentBranch: CommandOutput,
    upstream: CommandOutput,
    revList: CommandOutput,
    userName: CommandOutput,
    userEmail: CommandOutput,
    topLevel: CommandOutput,
    currentDir: Option<string>,
    gitDir: CommandOutput,
    isBare: CommandOutput,
    remotes: CommandOutput,
    dateOf: string -> int)

  /** A command whose failure is an error: its output when it succeeded. */
  function Run(out: CommandOutput, what: string): (r: Result<string>)
    ensures r.Ok? <==> out.Succeeded()
    ensures r.Ok? ==> r.value == out.stdout
  {
    match out
    case NotSpawned => Err("Failed to execute " + what)
    case Finished(ok, stdout) => if ok then Ok(stdout) else Err(what + " failed")
  }

  /** A command whose output is a name: the trimmed output on success. */
  function RunTrimmed(out: CommandOutput, what: string): (r: Result<string>)
    ensures r.Ok? <==> out.Succeeded()
    ensures r.Ok? ==> r.value == Trim(out.stdout)
  {
    match Run(out, what)
    case Err(e) => Err(e)
    case Ok(s) => Ok(Trim(s))
  }

  // ---------------------------------------------------------------------
  // Status

  function RepositoryStatusOf(g: GitOutputs): (r: Result<RepositoryStatus>)
    ensures !g.status.Succeeded() ==> r.Err?
    ensures g.status.Succeeded() ==> r == GitStatus.Status(g.status.stdout, g.numstat)
  {
    match Run(g.status, "git status")
    case Err(e) => Err(e)
    case Ok(s) => GitStatus.Status(s, g.numstat)
  }

  // ---------------------------------------------------------------------
  // Diffs

  function Diff(g: GitOutputs, arg: string): Result<string> {
    Run(g.diff(arg), "git diff")
  }

  function Upstream(g: GitOutputs): Result<string> {
    RunTrimmed(g.upstream, "git rev-parse @{upstream}")
  }

  function Range(base: string): string {
    base + "..HEAD"
  }

  /** The diff against the upstream branch when there is one, else against
      `main`, else against `master`. A failing diff against an existing
      upstream is not retried against the fallbacks. */
  function BranchDiff(g: GitOutputs): (r: Result<string>)
    ensures Upstream(g).Ok? ==> r == Diff(g, Range(Upstream(g).value))
    ensures Upstream(g).Err? ==>
      (r.Ok? <==> (g.branchExists("main") && Diff(g, Range("main")).Ok?) ||
                  (g.branchExists("master") && Diff(g, Range("master")).Ok?))
    ensures Upstream(g).Err? && g.branchExists("main") && Diff(g, Range("main")).Ok? ==>
      r == Diff(g, Range("main"))
    ensures r.Ok? ==>
      r == Diff(g, Range("main")) || r == Diff(g, Range("master")) ||
      (Upstream(g).Ok? && r == Diff(g, Range(Upstream(g).value)))
  {
    match Upstream(g)
    case Ok(u) => Diff(g, Range(u))
    case Err(_) =>
      if g.branchExists("main") && Diff(g, Range("main")).Ok? then Diff(g, Range("main"))
      else if g.branchExists("master") && Diff(g, Range("master")).Ok? then Diff(g, Range("master"))
      else Err("Could not determine base branch for diff")
  }

  /** Each diff is kept when its command succeeded and dropped otherwise. */
  function Diffs(g: GitOutputs): (r: GitDiffs)
    ensures r.staged.Some? <==> g.diff("--cached").Succeeded()
    ensures r.unstaged.Some? <==> g.diff("").Succeeded()
    ensures r.branchDiff.Some? <==> BranchDiff(g).Ok?
    ensures r.staged.Some? ==> r.staged.value == g.diff("--cached").stdout
    ensures r.unstaged.Some? ==> r.unstaged.value == g.diff("").stdout
    ensures r.branchDiff.Some? ==> BranchDiff(g) == Ok(r.branchDiff.value)
  {
    GitDiffs(Diff(g, "--cached").ToOption(), Diff(g, "").ToOption(), BranchDiff(g).ToOption())
  }

  // ---------------------------------------------------------------------
  // Recent commits

  /** How a log line is recognised as a commit header. `AsWritten` asks for
      exactly five `|`-separated fields, as the source does; `AnySubject`
      takes the first two fields and the last two as hash, short hash,
      author and date and lets the subject in between contain `|`. */
  datatype HeaderRule = AsWritten | AnySubject

  /** The commit a header line starts, with no files yet. */
  function ReadHeader(rule: HeaderRule, line: string, dateOf: string -> int): (r: Option<CommitInfo>)
    ensures r.Some? ==> '|' in line && |r.value.filesChanged| == 0
  {
    var parts := Split(line, '|');
    match rule
    case AsWritten =>
      if '|' in line && |parts| == 5 then
        Some(CommitInfo(parts[0], parts[1], parts[2], parts[3], dateOf(parts[4]), []))
      else None
    case AnySubject =>
      if |parts| >= 5 then
        SplitCount(line, '|');
        assert CountChar(line, '|') > 0;
        assert '|' in line by {
          CountCharAbsentContra(line);
        }
        var n := |parts|;
        Some(CommitInfo(parts[0], parts[1], Join(parts[2..n - 2], "|"), parts[n - 2], dateOf(parts[n - 1]), []))
      else None
  }

  /** A text without `|` has no `|` to count. */
  lemma CountCharAbsentContra(s: string)
    ensures '|' !in s ==> CountChar(s, '|') == 0
  {
    if '|' !in s {
      CountCharAbsent(s, '|');
    }
  }

  /** The parser's state: the commits finished so far, the commit being
      read and the file lines collected since the last header. */
  datatype LogState = LogState(done: seq<CommitInfo>, current: Option<CommitInfo>, files: seq<string>)

  /** Every commit read so far, the current one completed with its files. */
  function Flush(st: LogState): (r: seq<CommitInfo>)
    ensures |r| == |st.done| + (if st.current.Some? then 1 else 0)
  {
    st.done + (if st.current.Some? then [st.current.value.(filesChanged := st.files)] else [])
  }

  /** One line of `git log --name-only`: a header completes the current
      commit and starts the next; any other non-empty line is a file of the
      current commit. The file list is reset only when a commit was
      completed, so file lines before the first header go to the first
      commit. */
  function LogStep(st: LogState, line: string, rule: HeaderRule, dateOf: string -> int): LogState {
    match ReadHeader(rule, line, dateOf)
    case Some(c) => LogState(Flush(st), Some(c), if st.current.Some? then [] else st.files)
    case None => if |line| > 0 then st.(files := st.files + [line]) else st
  }

  function RunLog(st: LogState, lines: seq<string>, rule: HeaderRule, dateOf: string -> int): LogState
    decreases |lines|
  {
    if |lines| == 0 then st else RunLog(LogStep(st, lines[0], rule, dateOf), lines[1..], rule, dateOf)
  }

  function ParseLog(output: string, rule: HeaderRule, dateOf: string -> int): (r: seq<CommitInfo>) {
    Flush(RunLog(LogState([], None, []), Lines(output), rule, dateOf))
  }

  /** `get_recent_commits`: the commits of the log output, in order. */
  function RecentCommits(g: GitOutputs, rule: HeaderRule): (r: Result<seq<CommitInfo>>)
    ensures r.Ok? <==> g.log.Succeeded()
    ensures r.Ok? ==> r.value == ParseLog(g.log.stdout, rule, g.dateOf)
  {
    match Run(g.log, "git log")
    case Err(e) => Err(e)
    case Ok(s) => Ok(ParseLog(s, rule, g.dateOf))
  }

  lemma {:induction false} RunLogAppend(st: LogState, a: seq<string>, b: seq<string>, rule: HeaderRule, dateOf: string -> int)
    ensures RunLog(st, a + b, rule, dateOf) == RunLog(RunLog(st, a, rule, dateOf), b, rule, dateOf)
    decreases |a|
  {
    if |a| == 0 {
      assert a + b == b;
    } else {
      assert (a + b)[0] == a[0];
      assert (a + b)[1..] == a[1..] + b;
      RunLogAppend(LogStep(st, a[0], rule, dateOf), a[1..], b, rule, dateOf);
    }
  }

  /** What `git log --format=%H|%h|%s|%an|%ai --name-only` prints for one
      commit: the header fields, the date as text, and the changed files. */
  datatype LogRecord = LogRecord(
    hash: string,
    shortHash: string,
    subject: string,
    author: string,
    dateText: string,
    files: seq<string>)

  predicate NoBreak(s: string) {
    '\n' !in s && '\r' !in s
  }

  /** A file line: non-empty and without `|` or line breaks. */
  predicate IsFileLine(f: string) {
    |f| > 0 && '|' !in f && NoBreak(f)
  }

  /** A record git can print and the rule can read back: the fields
      other than the subject hold no `|` (the subject may hold one unless
      the rule is `AsWritten`), nothing holds a line break. */
  predicate Readable(r: LogRecord, rule: HeaderRule) {
    && '|' !in r.hash && '|' !in r.shortHash && '|' !in r.author && '|' !in r.dateText
    && (rule == AsWritten ==> '|' !in r.subject)
    && NoBreak(r.hash) && NoBreak(r.shortHash) && NoBreak(r.subject) && NoBreak(r.author) && NoBreak(r.dateText)
    && forall k :: 0 <= k < |r.files| ==> IsFileLine(r.files[k])
  }

  function HeaderLine(r: LogRecord): string {
    r.hash + "|" + r.shortHash + "|" + r.subject + "|" + r.author + "|" + r.dateText
  }

  function RecordLines(r: LogRecord): seq<string> {
    [HeaderLine(r)] + r.files + [""]
  }

  function LogLines(rs: seq<LogRecord>): seq<string> {
    if |rs| == 0 then [] else RecordLines(rs[0]) + LogLines(rs[1..])
  }

  /** The log output for `rs`, one line per `\n`. */
  function RenderLog(rs: seq<LogRecord>): string {
    JoinTerminated(LogLines(rs), "\n")
  }

  function CommitOf(r: LogRecord, dateOf: string -> int): CommitInfo {
    CommitInfo(r.hash, r.shortHash, r.subject, r.author, dateOf(r.dateText), r.files)
  }

  function CommitsOf(rs: seq<LogRecord>, dateOf: string -> int): (r: seq<CommitInfo>)
    ensures |r| == |rs|
  {
    if |rs| == 0 then [] else [CommitOf(rs[0], dateOf)] + CommitsOf(rs[1..], dateOf)
  }

  /** The pieces of a header line. */
  lemma HeaderPieces(r: LogRecord)
    requires '|' !in r.hash && '|' !in r.shortHash && '|' !in r.author && '|' !in r.dateText
    ensures Split(HeaderLine(r), '|') == [r.hash, r.shortHash] + Split(r.subject, '|') + [r.author, r.dateText]
  {
    SplitFramed(r.hash, r.shortHash, r.subject, r.author, r.dateText, '|');
  }

  /** A header line reads back as its commit, without files. */
  lemma ReadHeaderLine(r: LogRecord, rule: HeaderRule, dateOf: string -> int)
    requires Readable(r, rule)
    ensures ReadHeader(rule, HeaderLine(r), dateOf) == Some(CommitOf(r, dateOf).(filesChanged := []))
  {
    var parts := Split(HeaderLine(r), '|');
    var sub := Split(r.subject, '|');
    HeaderPieces(r);
    assert '|' in HeaderLine(r) by {
      assert HeaderLine(r)[|r.hash|] == '|';
    }
    assert parts[2..|parts| - 2] == sub;
    SplitJoin(r.subject, '|');
    if rule == AsWritten {
      assert sub == [r.subject];
    }
  }

  /** A file line is never a header. */
  lemma FileLineIsNoHeader(f: string, rule: HeaderRule, dateOf: string -> int)
    requires IsFileLine(f)
    ensures ReadHeader(rule, f, dateOf).None?
  {
    assert Split(f, '|') == [f];
  }

  /** File lines are collected in order. */
  lemma {:induction false} RunFiles(st: LogState, files: seq<string>, rule: HeaderRule, dateOf: string -> int)
    requires forall k :: 0 <= k < |files| ==> IsFileLine(files[k])
    ensures RunLog(st, files, rule, dateOf) == st.(files := st.files + files)
    decreases |files|
  {
    if |files| == 0 {
      assert st.files + files == st.files;
    } else {
      FileLineIsNoHeader(files[0], rule, dateOf);
      var next := st.(files := st.files + [files[0]]);
      RunFiles(next, files[1..], rule, dateOf);
      assert st.files + [files[0]] + files[1..] == st.files + files;
    }
  }

  /** The lines of one record complete the commit in progress and leave
      the record's commit in progress with its files. */
  lemma RunRecord(st: LogState, r: LogRecord, rule: HeaderRule, dateOf: string -> int)
    requires Readable(r, rule)
    requires st.current.None? ==> st.files == []
    ensures RunLog(st, RecordLines(r), rule, dateOf) ==
      LogState(Flush(st), Some(CommitOf(r, dateOf).(filesChanged := [])), r.files)
  {
    var c := CommitOf(r, dateOf).(filesChanged := []);
    ReadHeaderLine(r, rule, dateOf);
    var afterHeader := LogState(Flush(st), Some(c), []);
    assert LogStep(st, HeaderLine(r), rule, dateOf) == afterHeader;
    RunLogAppend(st, [HeaderLine(r)], r.files + [""], rule, dateOf);
    assert RecordLines(r) == [HeaderLine(r)] + (r.files + [""]);
    RunLogAppend(afterHeader, r.files, [""], rule, dateOf);
    RunFiles(afterHeader, r.files, rule, dateOf);
    assert [] + r.files == r.files;
    assert ReadHeader(rule, "", dateOf).None? by {
      assert Split("", '|') == [""];
    }
  }

  /** The lines of one record followed by more lines: the record's commit
      is in progress when the rest is read. */
  lemma RunRecordThen(st: LogState, r: LogRecord, more: seq<string>, rule: HeaderRule, dateOf: string -> int)
    requires Readable(r, rule)
    requires st.current.None? ==> st.files == []
    ensures RunLog(st, RecordLines(r) + more, rule, dateOf) ==
      RunLog(LogState(Flush(st), Some(CommitOf(r, dateOf).(filesChanged := [])), r.files), more, rule, dateOf)
  {
    RunLogAppend(st, RecordLines(r), more, rule, dateOf);
    RunRecord(st, r, rule, dateOf);
  }

  /** Reading the lines of `rs` adds one commit per record to what was
      already read. */
  lemma {:induction false} RunRecords(st: LogState, rs: seq<LogRecord>, rule: HeaderRule, dateOf: string -> int)
    requires forall k :: 0 <= k < |rs| ==> Readable(rs[k], rule)
    requires st.current.None? ==> st.files == []
    ensures Flush(RunLog(st, LogLines(rs), rule, dateOf)) == Flush(st) + CommitsOf(rs, dateOf)
    decreases |rs|
  {
    if |rs| == 0 {
      assert Flush(st) + [] == Flush(st);
    } else {
      var r, tl := rs[0], rs[1..];
      var c := CommitOf(r, dateOf);
      var next := LogState(Flush(st), Some(c.(filesChanged := [])), r.files);
      assert LogLines(rs) == RecordLines(r) + LogLines(tl);
      assert CommitsOf(rs, dateOf) == [c] + CommitsOf(tl, dateOf);
      assert RunLog(st, LogLines(rs), rule, dateOf) == RunLog(next, LogLines(tl), rule, dateOf) by {
        RunRecordThen(st, r, LogLines(tl), rule, dateOf);
      }
      assert Flush(RunLog(next, LogLines(tl), rule, dateOf)) == Flush(st) + [c] + CommitsOf(tl, dateOf) by {
        assert forall k :: 0 <= k < |tl| ==> tl[k] == rs[k + 1];
        RunRecords(next, tl, rule, dateOf);
      }
    }
  }

  /** No line of the rendered log holds a line break. */
  lemma {:induction false} LogLinesHaveNoBreak(rs: seq<LogRecord>, rule: HeaderRule)
    requires forall k :: 0 <= k < |rs| ==> Readable(rs[k], rule)
    ensures forall k :: 0 <= k < |LogLines(rs)| ==> NoBreak(LogLines(rs)[k])
  {
    if |rs| > 0 {
      var r := rs[0];
      assert Readable(r, rule);
      LogLinesHaveNoBreak(rs[1..], rule);
      assert NoBreak(HeaderLine(r)) by {
        NoBreakConcat(r.hash, r.shortHash, r.subject, r.author, r.dateText);
      }
      var own := RecordLines(r);
      forall k | 0 <= k < |own| ensures NoBreak(own[k]) {
        if 0 < k <= |r.files| {
          assert own[k] == r.files[k - 1];
        }
      }
      var rest := LogLines(rs[1..]);
      forall k | 0 <= k < |own + rest| ensures NoBreak((own + rest)[k]) {
        if k >= |own| {
          assert (own + rest)[k] == rest[k - |own|];
        }
      }
    }
  }

  lemma NoBreakConcat(a: string, b: string, c: string, d: string, e: string)
    requires NoBreak(a) && NoBreak(b) && NoBreak(c) && NoBreak(d) && NoBreak(e)
    ensures NoBreak(a + "|" + b + "|" + c + "|" + d + "|" + e)
  {
  }

  /** The commits of a rendered log are read back record by record, each
      with its files, as long as the rule can read every header. */
  lemma ParseRenderedLog(rs: seq<LogRecord>, rule: HeaderRule, dateOf: string -> int)
    requires forall k :: 0 <= k < |rs| ==> Readable(rs[k], rule)
    ensures ParseLog(RenderLog(rs), rule, dateOf) == CommitsOf(rs, dateOf)
  {
    LogLinesHaveNoBreak(rs, rule);
    LinesOfJoined(LogLines(rs));
    RunRecords(LogState([], None, []), rs, rule, dateOf);
    assert [] + CommitsOf(rs, dateOf) == CommitsOf(rs, dateOf);
  }

  /** As written, a header whose subject holds one `|` is not a header. */
  lemma SixFieldHeader(r: LogRecord, before: string, after: string, dateOf: string -> int)
    requires r.subject == before + "|" + after && '|' !in before && '|' !in after
    requires '|' !in r.hash && '|' !in r.shortHash && '|' !in r.author && '|' !in r.dateText
    ensures ReadHeader(AsWritten, HeaderLine(r), dateOf).None?
  {
    assert Split(r.subject, '|') == [before, after] by {
      SplitCons(before, '|', after);
    }
    HeaderPieces(r);
  }

  /** A line that is no header, then file lines and the closing blank
      line: all of them are collected as files. */
  lemma {:induction false} RunUnrecognised(line: string, r: LogRecord, rule: HeaderRule, dateOf: string -> int)
    requires |line| > 0 && ReadHeader(rule, line, dateOf).None?
    requires forall k :: 0 <= k < |r.files| ==> IsFileLine(r.files[k])
    ensures RunLog(LogState([], None, []), [line] + (r.files + [""]), rule, dateOf) ==
      LogState([], None, [line] + r.files)
  {
    var st0, afterLine := LogState([], None, []), LogState([], None, [line]);
    assert LogStep(st0, line, rule, dateOf) == afterLine;
    RunLogAppend(st0, [line], r.files + [""], rule, dateOf);
    RunLogAppend(afterLine, r.files, [""], rule, dateOf);
    RunFiles(afterLine, r.files, rule, dateOf);
    assert ReadHeader(rule, "", dateOf).None? by {
      assert Split("", '|') == [""];
    }
  }

  /** The lines of the log of one record. */
  lemma OneRecordLog(r: LogRecord, rule: HeaderRule)
    requires Readable(r, rule)
    ensures Lines(RenderLog([r])) == [HeaderLine(r)] + (r.files + [""])
  {
    assert LogLines([r]) == RecordLines(r) by {
      assert LogLines([r][1..]) == [];
    }
    LogLinesHaveNoBreak([r], rule);
    LinesOfJoined(LogLines([r]));
  }

  /** As written, a commit whose subject holds a `|` is not recognised: its
      header has six fields, becomes a file line, and a log of that one
      commit yields no commits at all. Reading with `AnySubject` finds it. */
  lemma PipeInSubjectLosesCommit(r: LogRecord, before: string, after: string, dateOf: string -> int)
    requires r.subject == before + "|" + after && '|' !in before && '|' !in after
    requires Readable(r, AnySubject)
    ensures ParseLog(RenderLog([r]), AsWritten, dateOf) == []
    ensures ParseLog(RenderLog([r]), AnySubject, dateOf) == [CommitOf(r, dateOf)]
  {
    assert ParseLog(RenderLog([r]), AnySubject, dateOf) == [CommitOf(r, dateOf)] by {
      ParseRenderedLog([r], AnySubject, dateOf);
    }
    var header := HeaderLine(r);
    OneRecordLog(r, AnySubject);
    SixFieldHeader(r, before, after, dateOf);
    assert |header| > 0;
    RunUnrecognised(header, r, AsWritten, dateOf);
  }

  // ---------------------------------------------------------------------
  // Branch information

  /** `git rev-list --left-right --count upstream...local` prints the
      number of commits only upstream has, then the number only the local
      branch has. Anything else, or a failure, counts as level. */
  function AheadBehind(out: CommandOutput): (r: (nat, nat))
    ensures !out.Succeeded() ==> r == (0, 0)
    ensures out.Succeeded() && |SplitWhitespace(out.stdout)| != 2 ==> r == (0, 0)
  {
    if !out.Succeeded() then (0, 0)
    else
      var parts := SplitWhitespace(out.stdout);
      if |parts| == 2 then (ParseU32(parts[1]).GetOr(0), ParseU32(parts[0]).GetOr(0))
      else (0, 0)
  }

  /** Two tokens separated by a tab and ended by a newline split back into
      those two tokens. */
  lemma SplitTabbedPair(b: string, a: string)
    requires IsToken(b) && IsToken(a)
    ensures SplitWhitespace(b + "\t" + a + "\n") == [b, a]
  {
    assert SplitWhitespace(a + "\n") == [a] by {
      assert a + "\n" == a + ['\n'] + "";
      SplitWhitespaceCons(a, '\n', "");
      assert SplitWhitespace("") == [];
    }
    assert b + "\t" + a + "\n" == b + ['\t'] + (a + "\n");
    SplitWhitespaceCons(b, '\t', a + "\n");
  }

  /** The counts printed by `rev-list` read back as (ahead, behind). */
  lemma AheadBehindRoundTrip(ahead: nat, behind: nat)
    requires ahead < U32Limit && behind < U32Limit
    ensures AheadBehind(Finished(true, NatToString(behind) + "\t" + NatToString(ahead) + "\n")) == (ahead, behind)
  {
    var b, a := NatToString(behind), NatToString(ahead);
    RenderedIsToken(ahead);
    RenderedIsToken(behind);
    SplitTabbedPair(b, a);
    ParseRendered(ahead);
    ParseRendered(behind);
  }

  const NoUpstream := "No upstream"
  const UpToDate := "Up to date"

  /** How far the branch is from its upstream, in words. */
  function TrackingStatus(upstream: Option<string>, ahead: nat, behind: nat): string {
    if upstream.None? then NoUpstream
    else if ahead == 0 && behind == 0 then UpToDate
    else if behind == 0 then "Ahead by " + NatToString(ahead)
    else if ahead == 0 then "Behind by " + NatToString(behind)
    else "Ahead by " + NatToString(ahead) + ", behind by " + NatToString(behind)
  }

  /** The status names the situation: no upstream, level, or which way the
      branch has moved, each exactly when it holds. */
  lemma TrackingStatusMeaning(upstream: Option<string>, ahead: nat, behind: nat)
    ensures TrackingStatus(upstream, ahead, behind) == NoUpstream <==> upstream.None?
    ensures TrackingStatus(upstream, ahead, behind) == UpToDate <==> upstream.Some? && ahead == 0 && behind == 0
    ensures StartsWith(TrackingStatus(upstream, ahead, behind), "Ahead by ") <==> upstream.Some? && ahead > 0
    ensures StartsWith(TrackingStatus(upstream, ahead, behind), "Behind by ") <==> upstream.Some? && ahead == 0 && behind > 0
  {
    var s := TrackingStatus(upstream, ahead, behind);
    assert |s| > 0;
    assert upstream.Some? && ahead > 0 ==> s[0] == 'A';
    assert upstream.Some? && ahead == 0 && behind > 0 ==> s[0] == 'B';
    assert NoUpstream[0] == 'N' && UpToDate[0] == 'U';
  }

  /** The text after the ahead count: empty when level with upstream's
      side, else the behind count. */
  function BehindTail(behind: nat): string {
    if behind == 0 then "" else ", behind by " + NatToString(behind)
  }

  /** Two statuses for an existing upstream are equal only for equal
      counts. */
  lemma TrackingStatusInjective(u: string, a1: nat, b1: nat, a2: nat, b2: nat)
    requires TrackingStatus(Some(u), a1, b1) == TrackingStatus(Some(u), a2, b2)
    ensures a1 == a2 && b1 == b2
  {
    TrackingStatusMeaning(Some(u), a1, b1);
    TrackingStatusMeaning(Some(u), a2, b2);
    if a1 > 0 {
      AheadInjective(a1, b1, a2, b2);
    } else if b1 > 0 {
      var p := "Behind by ";
      var s := TrackingStatus(Some(u), a1, b1);
      assert NatToString(b1) == s[|p|..] == NatToString(b2);
      RenderedInjective(b1, b2);
    }
  }

  /** Distinct behind counts give distinct tails. */
  lemma BehindTailInjective(b1: nat, b2: nat)
    requires BehindTail(b1) == BehindTail(b2)
    ensures b1 == b2
  {
    if b1 > 0 && b2 > 0 {
      var p := ", behind by ";
      assert NatToString(b1) == BehindTail(b1)[|p|..] == BehindTail(b2)[|p|..] == NatToString(b2);
      RenderedInjective(b1, b2);
    }
  }

  /** An ahead status is the fixed prefix, the ahead count and the behind
      tail. */
  lemma AheadStatus(a: nat, b: nat)
    requires a > 0
    ensures TrackingStatus(Some(""), a, b) == "Ahead by " + (NatToString(a) + BehindTail(b))
  {
  }

  /** Past its fixed prefix, an ahead status is the ahead count followed
      by the behind tail. */
  lemma AheadSuffix(a1: nat, b1: nat, a2: nat, b2: nat)
    requires a1 > 0 && a2 > 0
    requires TrackingStatus(Some(""), a1, b1) == TrackingStatus(Some(""), a2, b2)
    ensures NatToString(a1) + BehindTail(b1) == NatToString(a2) + BehindTail(b2)
  {
    var p := "Ahead by ";
    var q1, q2 := NatToString(a1) + BehindTail(b1), NatToString(a2) + BehindTail(b2);
    AheadStatus(a1, b1);
    AheadStatus(a2, b2);
    assert (p + q1)[|p|..] == q1 && (p + q2)[|p|..] == q2;
  }

  lemma AheadInjective(a1: nat, b1: nat, a2: nat, b2: nat)
    requires a1 > 0 && a2 > 0
    requires TrackingStatus(Some(""), a1, b1) == TrackingStatus(Some(""), a2, b2)
    ensures a1 == a2 && b1 == b2
  {
    AheadSuffix(a1, b1, a2, b2);
    assert |BehindTail(b1)| > 0 ==> BehindTail(b1)[0] == ',';
    assert |BehindTail(b2)| > 0 ==> BehindTail(b2)[0] == ',';
    DigitsOfRendered(a1);
    DigitsOfRendered(a2);
    DigitRunUnique(NatToString(a1), BehindTail(b1), NatToString(a2), BehindTail(b2));
    RenderedInjective(a1, a2);
    BehindTailInjective(b1, b2);
  }

  /** `get_branch_info`: fails only when the current branch is unknown;
      counts are read only when there is an upstream. */
  function BranchInfoOf(g: GitOutputs): (r: Result<BranchInfo>)
    ensures r.Ok? <==> g.currentBranch.Succeeded()
    ensures r.Ok? ==> r.value.currentBranch == Trim(g.currentBranch.stdout)
    ensures r.Ok? ==> (r.value.upstreamBranch.Some? <==> g.upstream.Succeeded())
    ensures r.Ok? && !g.upstream.Succeeded() ==> r.value.ahead == 0 && r.value.behind == 0
    ensures r.Ok? ==> r.value.trackingStatus == TrackingStatus(r.value.upstreamBranch, r.value.ahead, r.value.behind)
  {
    match RunTrimmed(g.currentBranch, "git branch --show-current")
    case Err(e) => Err(e)
    case Ok(current) =>
      var upstream := Upstream(g).ToOption();
      var counts := if upstream.Some? then AheadBehind(g.revList) else (0, 0);
      Ok(BranchInfo(current, upstream, counts.0, counts.1, TrackingStatus(upstream, counts.0, counts.1)))
  }

  // ---------------------------------------------------------------------
  // User and repository metadata

  /** A `git config` value: the trimmed output on success, else absent. */
  function ConfigValue(out: CommandOutput): (r: Option<string>)
    ensures r.Some? <==> out.Succeeded()
    ensures r.Some? ==> r.value == Trim(out.stdout)
  {
    RunTrimmed(out, "git config").ToOption()
  }

  function UserContextOf(g: GitOutputs): UserContext {
    UserContext(ConfigValue(g.userName), ConfigValue(g.userEmail))
  }

  /** The second word of a line, if it has one. */
  function SecondWord(line: string): Option<string> {
    var words := SplitWhitespace(line);
    if |words| >= 2 then Some(words[1]) else None
  }

  /** Some line has `url` as its second word. */
  ghost predicate Mentions(lines: seq<string>, url: string) {
    exists k :: 0 <= k < |lines| && SecondWord(lines[k]) == Some(url)
  }

  /** The URLs of `git remote -v`, each kept once. */
  function RemoteUrls(lines: seq<string>): (r: seq<string>)
    ensures forall i, j :: 0 <= i < j < |r| ==> r[i] != r[j]
  {
    if |lines| == 0 then []
    else
      var seen := RemoteUrls(lines[..|lines| - 1]);
      var word := SecondWord(lines[|lines| - 1]);
      if word.Some? && word.value !in seen then seen + [word.value] else seen
  }

  /** The lines mentioning a URL, one more line at a time. */
  lemma MentionsSnoc(init: seq<string>, line: string, url: string)
    ensures Mentions(init + [line], url) <==> Mentions(init, url) || SecondWord(line) == Some(url)
  {
    var lines := init + [line];
    assert lines[|init|] == line;
    if Mentions(init, url) {
      var k :| 0 <= k < |init| && SecondWord(init[k]) == Some(url);
      assert lines[k] == init[k];
    }
    if Mentions(lines, url) && SecondWord(line) != Some(url) {
      var k :| 0 <= k < |lines| && SecondWord(lines[k]) == Some(url);
      assert lines[k] == init[k];
    }
  }

  /** A URL is listed exactly when some line names it. */
  lemma {:induction false} RemoteUrlsMembers(lines: seq<string>, url: string)
    ensures url in RemoteUrls(lines) <==> Mentions(lines, url)
  {
    if |lines| > 0 {
      var init, last := lines[..|lines| - 1], lines[|lines| - 1];
      assert url in RemoteUrls(init) <==> Mentions(init, url) by {
        RemoteUrlsMembers(init, url);
      }
      assert Mentions(lines, url) <==> Mentions(init, url) || SecondWord(last) == Some(url) by {
        assert lines == init + [last];
        MentionsSnoc(init, last, url);
      }
    }
  }

  /** `get_repository_metadata`: fails when `rev-parse --show-toplevel`
      cannot be started, or fails and the working directory is unknown,
      or `rev-parse --git-dir` cannot be started. */
  function MetadataOf(g: GitOutputs): (r: Result<RepositoryMetadata>)
    ensures r.Ok? <==>
      && g.topLevel.Finished? && (g.topLevel.success || g.currentDir.Some?)
      && g.gitDir.Finished?
    ensures r.Ok? ==> r.value.rootPath == (if g.topLevel.success then Trim(g.topLevel.stdout) else g.currentDir.value)
    ensures r.Ok? ==> r.value.gitDir == (if g.gitDir.success then Trim(g.gitDir.stdout) else ".git")
    ensures r.Ok? ==> (r.value.isBare <==> g.isBare.Succeeded() && Trim(g.isBare.stdout) == "true")
    ensures r.Ok? && !g.remotes.Succeeded() ==> r.value.remoteUrls == []
    ensures r.Ok? && g.remotes.Succeeded() ==>
      forall url :: url in r.value.remoteUrls <==> Mentions(Lines(g.remotes.stdout), url)
  {
    var root: Result<string> :=
      match g.topLevel
      case NotSpawned => Err("Failed to get repository root")
      case Finished(ok, out) =>
        if ok then Ok(Trim(out))
        else if g.currentDir.Some? then Ok(g.currentDir.value)
        else Err("current directory unavailable");
    if root.Err? then Err(root.error)
    else if g.gitDir.NotSpawned? then Err("Failed to get git directory")
    else
      var gitDir := if g.gitDir.success then Trim(g.gitDir.stdout) else ".git";
      var isBare := g.isBare.Succeeded() && Trim(g.isBare.stdout) == "true";
      var urls := if g.remotes.Succeeded() then RemoteUrls(Lines(g.remotes.stdout)) else [];
      assert g.remotes.Succeeded() ==> forall url :: url in urls <==> Mentions(Lines(g.remotes.stdout), url) by {
        if g.remotes.Succeeded() {
          forall url ensures url in urls <==> Mentions(Lines(g.remotes.stdout), url) {
            RemoteUrlsMembers(Lines(g.remotes.stdout), url);
          }
        }
      }
      Ok(RepositoryMetadata(root.value, gitDir, isBare, urls))
  }

  // ---------------------------------------------------------------------
  // The provider

  /** `gather`: the six parts in order; the first that fails decides the
      error. Diffs and the user never fail. */
  function Gather(g: GitOutputs): (r: Result<ContextData>)
    ensures r.Ok? <==>
      RepositoryStatusOf(g).Ok? && RecentCommits(g, AnySubject).Ok? && BranchInfoOf(g).Ok? && MetadataOf(g).Ok?
    ensures r.Ok? ==> r.value.GitData?
    ensures r.Ok? ==> r.value.git.diffs == Diffs(g) && r.value.git.userContext == UserContextOf(g)
    ensures r.Ok? ==> (r.value.git.repositoryStatus == RepositoryStatusOf(g).value
      && r.value.git.recentCommits == RecentCommits(g, AnySubject).value
      && r.value.git.branchInfo == BranchInfoOf(g).value
      && r.value.git.repositoryMetadata == MetadataOf(g).value)
    ensures RepositoryStatusOf(g).Err? ==> r == Err(RepositoryStatusOf(g).error)
  {
    var status, commits := RepositoryStatusOf(g), RecentCommits(g, AnySubject);
    var branch, meta := BranchInfoOf(g), MetadataOf(g);
    if status.Err? then Err(status.error)
    else if commits.Err? then Err(commits.error)
    else if branch.Err? then Err(branch.error)
    else if meta.Err? then Err(meta.error)
    else Ok(GitData(GitContext(status.value, Diffs(g), commits.value, branch.value, UserContextOf(g), meta.value)))
  }

  /** Git context is always gathered again; the cache's fingerprints decide
      staleness. */
  function ShouldRefresh(cached: ContextData): (r: bool)
    ensures r
  {
    true
  }
}

=== FILE: git_status.dfy ===
/** Reading `git status --porcelain=v1 -z` and `git diff --numstat`.
    With `-z` every path is ended by a NUL byte; a renamed or copied entry
    `XY to` is followed by the original path as a field of its own. The
    per-file `--numstat` output is supplied by a function of the path and
    of whether the staged diff is meant. */
module GitStatus {
  import opened Wrappers
  import opened ContextTypes
  import opened Text

  const Nul: char := '\0'

  /** The fields of the output with empty ones dropped. */
  function NonEmptyFields(xs: seq<string>): (r: seq<string>)
    ensures forall k :: 0 <= k < |r| ==> |r[k]| > 0
    ensures |r| <= |xs|
  {
    if |xs| == 0 then [] else (if |xs[0]| > 0 then [xs[0]] else []) + NonEmptyFields(xs[1..])
  }

  lemma {:induction false} NonEmptyFieldsKeepsAll(xs: seq<string>)
    requires forall k :: 0 <= k < |xs| ==> |xs[k]| > 0
    ensures NonEmptyFields(xs + [""]) == xs
  {
    if |xs| > 0 {
      assert (xs + [""])[1..] == xs[1..] + [""];
      NonEmptyFieldsKeepsAll(xs[1..]);
      assert xs == [xs[0]] + xs[1..];
    }
  }

  function StatusFields(output: string): seq<string> {
    NonEmptyFields(Split(output, Nul))
  }

  /** `&s[n..]` for a byte offset `n`: the rest of the text when `n` falls on
      a character boundary, `None` where Rust would panic. */
  function DropBytes(s: string, n: nat): (r: Option<string>)
    ensures r.Some? ==> EndsWith(s, r.value)
  {
    if n == 0 then Some(s)
    else if |s| == 0 || CharUtf8Len(s[0]) > n then None
    else
      var r := DropBytes(s[1..], n - CharUtf8Len(s[0]));
      assert r.Some? ==> s[|s| - |r.value|..] == s[1..][|s| - 1 - |r.value|..];
      r
  }

  predicate IsAscii(c: char) {
    c as int < 0x80
  }

  lemma DropThreeAscii(s: string)
    requires |s| >= 3 && IsAscii(s[0]) && IsAscii(s[1]) && IsAscii(s[2])
    ensures DropBytes(s, 3) == Some(s[3..])
  {
    assert DropBytes(s, 3) == DropBytes(s[1..], 2);
    assert DropBytes(s[1..], 2) == DropBytes(s[1..][1..], 1);
    assert DropBytes(s[1..][1..], 1) == DropBytes(s[1..][1..][1..], 0);
    assert s[1..][1..][1..] == s[3..];
  }

  /** One status entry: the index column, the work-tree column and the path. */
  datatype StatusLine = StatusLine(x: char, y: char, path: string)

  /** Reads one field as an entry: fields shorter than three bytes are
      skipped (`None`); the path is the text from byte 3 on. */
  function ReadField(field: string): (r: Result<Option<StatusLine>>)
    ensures Utf8Len(field) < 3 ==> r == Ok(None)
    ensures |field| >= 3 && IsAscii(field[0]) && IsAscii(field[1]) && IsAscii(field[2]) ==>
      r == Ok(Some(StatusLine(field[0], field[1], field[3..])))
    ensures r.Ok? && r.value.Some? ==> EndsWith(field, r.value.value.path)
  {
    if Utf8Len(field) < 3 then Ok(None)
    else
      if |field| >= 3 && IsAscii(field[0]) && IsAscii(field[1]) && IsAscii(field[2]) then
        DropThreeAscii(field);
        Ok(Some(StatusLine(field[0], field[1], field[3..])))
      else
        match DropBytes(field, 3)
        case None => Err("byte index 3 is not a char boundary")
        case Some(path) => Ok(Some(StatusLine(CharAt(field, 0), CharAt(field, 1), path)))
  }

  /** The loop as written: every non-empty field is read as an entry. */
  function ReadFields(fields: seq<string>): (r: Result<seq<StatusLine>>)
    ensures r.Ok? ==> |r.value| <= |fields|
  {
    if |fields| == 0 then Ok([])
    else
      match ReadFields(fields[..|fields| - 1])
      case Err(e) => Err(e)
      case Ok(ls) =>
        match ReadField(fields[|fields| - 1])
        case Err(e) => Err(e)
        case Ok(None) => Ok(ls)
        case Ok(Some(l)) => Ok(ls + [l])
  }

  // ---------------------------------------------------------------------
  // Classification of one entry

  predicate IsConflict(l: StatusLine) {
    l.x == 'U' || l.y == 'U' || (l.x == 'A' && l.y == 'A') || (l.x == 'D' && l.y == 'D')
  }

  predicate IsStaged(l: StatusLine) {
    l.x != ' ' && l.x != '?'
  }

  predicate IsUntracked(l: StatusLine) {
    l.y == '?'
  }

  predicate IsUnstaged(l: StatusLine) {
    l.y != ' ' && l.y != '?'
  }

  /** A blank work-tree column puts an entry in neither work-tree list;
      otherwise it is in exactly one of them. */
  lemma WorkTreeColumn(l: StatusLine)
    ensures !(IsUntracked(l) && IsUnstaged(l))
    ensures l.y == ' ' <==> !IsUntracked(l) && !IsUnstaged(l)
  {
  }

  /** The `--numstat` output for a path, staged or not. */
  type Numstat = (string, bool) -> CommandOutput

  /** `get_file_stats`: insertions and deletions from the first line of
      `--numstat`, each `None` when it is not a `u32` (binary files print
      `-`); both `None` when the command failed or the line is short. */
  function FileStats(out: CommandOutput): (r: (Option<nat>, Option<nat>))
    ensures !out.Succeeded() ==> r == (None, None)
    ensures out.Succeeded() && |Lines(out.stdout)| > 0 && |SplitWhitespace(Lines(out.stdout)[0])| >= 2 ==>
      var parts := SplitWhitespace(Lines(out.stdout)[0]);
      r == (ParseU32(parts[0]), ParseU32(parts[1]))
  {
    if !out.Succeeded() then (None, None)
    else
      var ls := Lines(out.stdout);
      if |ls| == 0 then (None, None)
      else
        var parts := SplitWhitespace(ls[0]);
        if |parts| >= 2 then (ParseU32(parts[0]), ParseU32(parts[1])) else (None, None)
  }

  /** A single `\n`-ended row is one line. */
  lemma OneLine(line: string)
    requires '\n' !in line && '\r' !in line
    ensures Lines(line + "\n") == [line]
  {
    assert line + "\n" == line + "\n" + "";
    LinesCons(line, "");
    if |line| > 0 {
      assert line[|line| - 1] in line;
    }
  }

  /** Two tokens each followed by a tab are the first two words. */
  lemma TwoTokens(a: string, b: string, rest: string)
    requires IsToken(a) && IsToken(b)
    ensures SplitWhitespace(a + "\t" + b + "\t" + rest) == [a, b] + SplitWhitespace(rest)
  {
    assert a + "\t" + b + "\t" + rest == a + ['\t'] + (b + ['\t'] + rest);
    SplitWhitespaceCons(a, '\t', b + ['\t'] + rest);
    SplitWhitespaceCons(b, '\t', rest);
  }

  /** The row `a<TAB>b<TAB>path` holds no line break when `path` holds none. */
  lemma RowHasNoBreak(a: string, b: string, path: string)
    requires '\n' !in a && '\r' !in a && '\n' !in b && '\r' !in b
    requires '\n' !in path && '\r' !in path
    ensures '\n' !in a + "\t" + b + "\t" + path && '\r' !in a + "\t" + b + "\t" + path
  {
    var line := a + "\t" + b + "\t" + path;
    forall k | 0 <= k < |line| ensures line[k] != '\n' && line[k] != '\r' {
      if k < |a| {
        assert line[k] == a[k];
      } else if k == |a| || k == |a| + |b| + 1 {
        assert line[k] == '\t';
      } else if k <= |a| + |b| {
        assert line[k] == b[k - |a| - 1];
      } else {
        assert line[k] == path[k - |a| - |b| - 2];
      }
    }
  }

  /** A numstat row `a<TAB>b<TAB>path` reads back as `(a, b)`. */
  lemma NumstatRoundTrip(a: nat, b: nat, path: string)
    requires a < U32Limit && b < U32Limit
    requires '\n' !in path && '\r' !in path
    ensures FileStats(Finished(true, NatToString(a) + "\t" + NatToString(b) + "\t" + path + "\n")) == (Some(a), Some(b))
  {
    var sa, sb := NatToString(a), NatToString(b);
    RenderedIsToken(a);
    RenderedIsToken(b);
    assert '\n' !in sa && '\r' !in sa by {
      assert IsWhitespace('\n') && IsWhitespace('\r');
    }
    assert '\n' !in sb && '\r' !in sb by {
      assert IsWhitespace('\n') && IsWhitespace('\r');
    }
    RowHasNoBreak(sa, sb, path);
    OneLine(sa + "\t" + sb + "\t" + path);
    TwoTokens(sa, sb, path);
    ParseRendered(a);
    ParseRendered(b);
  }

  /** A binary file (`-<TAB>-<TAB>path`) has no counts. */
  lemma NumstatBinary(path: string)
    requires '\n' !in path && '\r' !in path
    ensures FileStats(Finished(true, "-\t-\t" + path + "\n")) == (None, None)
  {
    var line := "-\t-\t" + path;
    assert line == "-" + "\t" + "-" + "\t" + path;
    assert Lines(line + "\n") == [line] by {
      RowHasNoBreak("-", "-", path);
      OneLine(line);
    }
    assert SplitWhitespace(line) == ["-", "-"] + SplitWhitespace(path) by {
      assert IsToken("-");
      TwoTokens("-", "-", path);
    }
    assert ParseU32("-") == None;
  }

  function StagedEntry(l: StatusLine, numstat: Numstat): FileStatus {
    var stats := FileStats(numstat(l.path, true));
    FileStatus(l.path, [l.x], stats.0, stats.1)
  }

  function UnstagedEntry(l: StatusLine, numstat: Numstat): FileStatus {
    var stats := FileStats(numstat(l.path, false));
    FileStatus(l.path, [l.y], stats.0, stats.1)
  }

  // ---------------------------------------------------------------------
  // The three lists, entry order kept

  /** What the loop has collected: the staged, unstaged and untracked
      files and whether a conflict was seen. */
  datatype Tally = Tally(staged: seq<FileStatus>, unstaged: seq<FileStatus>, untracked: seq<string>, conflicts: bool)

  /** One entry added to the tally, branch for branch as the loop does. */
  function Count(t: Tally, l: StatusLine, numstat: Numstat): Tally {
    var conflicts := t.conflicts || IsConflict(l);
    var staged := if IsStaged(l) then t.staged + [StagedEntry(l, numstat)] else t.staged;
    if l.y != ' ' then
      if l.y == '?' then Tally(staged, t.unstaged, t.untracked + [l.path], conflicts)
      else Tally(staged, t.unstaged + [UnstagedEntry(l, numstat)], t.untracked, conflicts)
    else Tally(staged, t.unstaged, t.untracked, conflicts)
  }

  function TallyOf(ls: seq<StatusLine>, numstat: Numstat): (t: Tally)
    ensures |t.staged| <= |ls| && |t.unstaged| <= |ls| && |t.untracked| <= |ls|
  {
    if |ls| == 0 then Tally([], [], [], false)
    else Count(TallyOf(ls[..|ls| - 1], numstat), ls[|ls| - 1], numstat)
  }

  predicate AnyConflict(ls: seq<StatusLine>) {
    exists k :: 0 <= k < |ls| && IsConflict(ls[k])
  }

  function Classify(ls: seq<StatusLine>, numstat: Numstat): RepositoryStatus {
    var t := TallyOf(ls, numstat);
    RepositoryStatus(t.staged, t.unstaged, t.untracked, |t.staged| == 0 && |t.unstaged| == 0 && |t.untracked| == 0, t.conflicts)
  }

  /** Exactly the staged entries make it to the staged list. */
  lemma {:induction false} TallyStaged(ls: seq<StatusLine>, numstat: Numstat)
    ensures forall l :: l in ls && IsStaged(l) ==> StagedEntry(l, numstat) in TallyOf(ls, numstat).staged
    ensures forall f :: f in TallyOf(ls, numstat).staged ==> exists l :: l in ls && IsStaged(l) && f == StagedEntry(l, numstat)
  {
    if |ls| > 0 {
      var init := ls[..|ls| - 1];
      TallyStaged(init, numstat);
      assert ls == init + [ls[|ls| - 1]];
    }
  }

  /** Exactly the entries changed in the work tree make it to the unstaged
      list. */
  lemma {:induction false} TallyUnstaged(ls: seq<StatusLine>, numstat: Numstat)
    ensures forall l :: l in ls && IsUnstaged(l) ==> UnstagedEntry(l, numstat) in TallyOf(ls, numstat).unstaged
    ensures forall f :: f in TallyOf(ls, numstat).unstaged ==> exists l :: l in ls && IsUnstaged(l) && f == UnstagedEntry(l, numstat)
  {
    if |ls| > 0 {
      var init := ls[..|ls| - 1];
      TallyUnstaged(init, numstat);
      assert ls == init + [ls[|ls| - 1]];
    }
  }

  /** Exactly the paths of untracked entries make it to the untracked list. */
  lemma {:induction false} TallyUntracked(ls: seq<StatusLine>, numstat: Numstat)
    ensures forall l :: l in ls && IsUntracked(l) ==> l.path in TallyOf(ls, numstat).untracked
    ensures forall p :: p in TallyOf(ls, numstat).untracked ==> exists l :: l in ls && IsUntracked(l) && p == l.path
  {
    if |ls| > 0 {
      var init := ls[..|ls| - 1];
      TallyUntracked(init, numstat);
      assert ls == init + [ls[|ls| - 1]];
    }
  }

  /** A conflict is reported exactly when some entry is one. */
  lemma {:induction false} TallyConflicts(ls: seq<StatusLine>, numstat: Numstat)
    ensures TallyOf(ls, numstat).conflicts <==> AnyConflict(ls)
  {
    if |ls| > 0 {
      var init := ls[..|ls| - 1];
      TallyConflicts(init, numstat);
      assert forall k :: 0 <= k < |init| ==> init[k] == ls[k];
      assert AnyConflict(init) ==> AnyConflict(ls);
    }
  }

  /** The working tree is clean exactly when every entry has a blank or `?`
      index column and a blank work-tree column. */
  lemma CleanIff(ls: seq<StatusLine>, numstat: Numstat)
    ensures Classify(ls, numstat).isClean <==>
      forall l :: l in ls ==> (l.x == ' ' || l.x == '?') && l.y == ' '
  {
    TallyStaged(ls, numstat);
    TallyUnstaged(ls, numstat);
    TallyUntracked(ls, numstat);
    var r := Classify(ls, numstat);
    if !r.isClean {
      if |r.stagedFiles| > 0 {
        assert r.stagedFiles[0] in r.stagedFiles;
      } else if |r.unstagedFiles| > 0 {
        assert r.unstagedFiles[0] in r.unstagedFiles;
      } else {
        assert r.untrackedFiles[0] in r.untrackedFiles;
      }
    }
  }

  /** The status as the source computes it. */
  function StatusAsWritten(output: string, numstat: Numstat): Result<RepositoryStatus> {
    StatusOfFields(StatusFields(output), numstat)
  }

  function StatusOfFields(fields: seq<string>, numstat: Numstat): Result<RepositoryStatus> {
    match ReadFields(fields)
    case Err(e) => Err(e)
    case Ok(ls) => Ok(Classify(ls, numstat))
  }

  /** The entries a field contributes: none when it is skipped. */
  function EntriesRead(read: Option<StatusLine>): (r: seq<StatusLine>)
    ensures |r| <= 1
  {
    if read.Some? then [read.value] else []
  }

  /** Reading one more field appends what it reads. */
  lemma ReadFieldsSnoc(fields: seq<string>, f: string)
    requires ReadFields(fields).Ok? && ReadField(f).Ok?
    ensures ReadFields(fields + [f]) == Ok(ReadFields(fields).value + EntriesRead(ReadField(f).value))
  {
    var g := fields + [f];
    assert g[..|g| - 1] == fields;
    assert g[|g| - 1] == f;
    var read := ReadField(f);
    if read.value.Some? {
      assert ReadFields(g) == Ok(ReadFields(fields).value + [read.value.value]);
    } else {
      assert ReadFields(g) == Ok(ReadFields(fields).value);
      assert ReadFields(fields).value + [] == ReadFields(fields).value;
    }
  }

  /** Two fields read one after the other. */
  lemma ReadFieldsPair(a: string, b: string)
    requires ReadField(a).Ok? && ReadField(b).Ok?
    ensures ReadFields([a, b]) == Ok(EntriesRead(ReadField(a).value) + EntriesRead(ReadField(b).value))
  {
    var ea := EntriesRead(ReadField(a).value);
    assert ReadFields([]) == Ok([]);
    ReadFieldsSnoc([], a);
    assert [] + [a] == [a];
    assert [] + ea == ea;
    ReadFieldsSnoc([a], b);
    assert [a] + [b] == [a, b];
  }

  // ---------------------------------------------------------------------
  // Renames and copies

  /** An entry whose original path follows as its own field. */
  predicate HasOriginalPath(x: char, y: char) {
    x == 'R' || x == 'C' || y == 'R' || y == 'C'
  }

  /** Reads the fields as entries, skipping the original-path field that
      follows a rename or copy. */
  function ReadRecords(fields: seq<string>): (r: Result<seq<StatusLine>>)
    ensures r.Ok? ==> |r.value| <= |fields|
    decreases |fields|
  {
    if |fields| == 0 then Ok([])
    else
      match ReadField(fields[0])
      case Err(e) => Err(e)
      case Ok(None) => ReadRecords(fields[1..])
      case Ok(Some(l)) =>
        var skip := if HasOriginalPath(l.x, l.y) && |fields| > 1 then 2 else 1;
        match ReadRecords(fields[skip..])
        case Err(e) => Err(e)
        case Ok(ls) => Ok([l] + ls)
  }

  /** What git reports for one path. */
  datatype StatusRecord = StatusRecord(x: char, y: char, path: string, original: Option<string>)

  /** The letters git uses in the two status columns. */
  predicate IsStatusCode(c: char) {
    c in " MTADRCU?!"
  }

  /** A record git can print: known status letters, non-empty
      NUL-free paths, and an original path exactly for renames and copies. */
  predicate WellFormedRecord(rec: StatusRecord) {
    && IsStatusCode(rec.x) && IsStatusCode(rec.y)
    && |rec.path| > 0 && Nul !in rec.path
    && (rec.original.Some? <==> HasOriginalPath(rec.x, rec.y))
    && (rec.original.Some? ==> |rec.original.value| > 0 && Nul !in rec.original.value)
  }

  /** The fields git prints for `recs`. */
  function RecordFields(recs: seq<StatusRecord>): seq<string> {
    if |recs| == 0 then []
    else
      var rec := recs[0];
      [[rec.x, rec.y, ' '] + rec.path] + (if rec.original.Some? then [rec.original.value] else [])
        + RecordFields(recs[1..])
  }

  /** Every printed field is non-empty and free of NUL. */
  lemma {:induction false} RecordFieldsClean(recs: seq<StatusRecord>)
    requires forall k :: 0 <= k < |recs| ==> WellFormedRecord(recs[k])
    ensures forall f :: f in RecordFields(recs) ==> |f| > 0 && Nul !in f
  {
    if |recs| > 0 {
      var rec := recs[0];
      var head := [rec.x, rec.y, ' '] + rec.path;
      var orig := if rec.original.Some? then [rec.original.value] else [];
      RecordFieldsClean(recs[1..]);
      assert WellFormedRecord(rec);
      assert Nul !in head by {
        assert head[0] == rec.x && head[1] == rec.y;
        forall k | 3 <= k < |head| ensures head[k] != Nul {
          assert head[k] == rec.path[k - 3];
        }
      }
      assert RecordFields(recs) == [head] + orig + RecordFields(recs[1..]);
    }
  }

  /** The `-z` output for `recs`. */
  function RenderStatus(recs: seq<StatusRecord>): string {
    JoinTerminated(RecordFields(recs), [Nul])
  }

  function EntryOf(rec: StatusRecord): StatusLine {
    StatusLine(rec.x, rec.y, rec.path)
  }

  function EntriesOf(recs: seq<StatusRecord>): (r: seq<StatusLine>)
    ensures |r| == |recs|
    ensures forall k :: 0 <= k < |recs| ==> r[k] == EntryOf(recs[k])
  {
    if |recs| == 0 then [] else [EntryOf(recs[0])] + EntriesOf(recs[1..])
  }

  /** Reading the fields of printed records gives back one entry per
      record: original paths are never taken for entries. */
  lemma {:induction false} ReadRecordsOfRendered(recs: seq<StatusRecord>)
    requires forall k :: 0 <= k < |recs| ==> WellFormedRecord(recs[k])
    ensures ReadRecords(RecordFields(recs)) == Ok(EntriesOf(recs))
  {
    if |recs| > 0 {
      var rec := recs[0];
      var head := [rec.x, rec.y, ' '] + rec.path;
      var fields := RecordFields(recs);
      assert WellFormedRecord(rec);
      assert fields[0] == head;
      assert head[3..] == rec.path;
      assert ReadField(head) == Ok(Some(EntryOf(rec)));
      var skip := if HasOriginalPath(rec.x, rec.y) && |fields| > 1 then 2 else 1;
      assert fields[skip..] == RecordFields(recs[1..]);
      ReadRecordsOfRendered(recs[1..]);
      assert EntriesOf(recs) == [EntryOf(rec)] + EntriesOf(recs[1..]);
    }
  }

  /** The status as intended: renames and copies count once, under their
      new path. */
  function Status(output: string, numstat: Numstat): Result<RepositoryStatus> {
    match ReadRecords(StatusFields(output))
    case Err(e) => Err(e)
    case Ok(ls) => Ok(Classify(ls, numstat))
  }

  /** Git's output for well-formed records is classified entry by entry,
      one entry per record. */
  lemma StatusOfRendered(recs: seq<StatusRecord>, numstat: Numstat)
    requires forall k :: 0 <= k < |recs| ==> WellFormedRecord(recs[k])
    ensures Status(RenderStatus(recs), numstat) == Ok(Classify(EntriesOf(recs), numstat))
  {
    var fields := RecordFields(recs);
    RecordFieldsClean(recs);
    forall k | 0 <= k < |fields| ensures |fields[k]| > 0 && Nul !in fields[k] {
      assert fields[k] in fields;
    }
    SplitTerminated(fields, Nul);
    NonEmptyFieldsKeepsAll(fields);
    ReadRecordsOfRendered(recs);
  }

  /** A field of three single-byte characters and a path reads as that entry. */
  lemma ReadAsciiField(x: char, y: char, z: char, path: string)
    requires IsAscii(x) && IsAscii(y) && IsAscii(z)
    ensures ReadField([x, y, z] + path) == Ok(Some(StatusLine(x, y, path)))
  {
    assert ([x, y, z] + path)[3..] == path;
  }

  lemma RenameLiterals()
    ensures ['R', ' ', ' '] + "new.txt" == "R  new.txt"
    ensures ['o', 'l', 'd'] + ".txt" == "old.txt"
  {
  }

  /** The fields git prints for a rename of `old.txt` to `new.txt`. */
  lemma RenameFields()
    ensures StatusFields(RenderStatus([StatusRecord('R', ' ', "new.txt", Some("old.txt"))])) == ["R  new.txt", "old.txt"]
  {
    var rec := StatusRecord('R', ' ', "new.txt", Some("old.txt"));
    var fields := ["R  new.txt", "old.txt"];
    RenameLiterals();
    assert RecordFields([rec]) == fields by {
      assert [rec][1..] == [];
    }
    SplitTerminated(fields, Nul);
    NonEmptyFieldsKeepsAll(fields);
  }

  /** Two fields that each start with three ASCII characters are read, as
      written, as two entries. */
  lemma ReadAsciiPair(a: string, b: string)
    requires |a| >= 3 && IsAscii(a[0]) && IsAscii(a[1]) && IsAscii(a[2])
    requires |b| >= 3 && IsAscii(b[0]) && IsAscii(b[1]) && IsAscii(b[2])
    ensures ReadFields([a, b]) == Ok([StatusLine(a[0], a[1], a[3..]), StatusLine(b[0], b[1], b[3..])])
  {
    var la, lb := StatusLine(a[0], a[1], a[3..]), StatusLine(b[0], b[1], b[3..]);
    assert ReadField(a) == Ok(Some(la));
    assert ReadField(b) == Ok(Some(lb));
    ReadFieldsPair(a, b);
    assert [la] + [lb] == [la, lb];
  }

  /** Read as intended, a rename entry followed by its original path gives
      the one entry. */
  lemma ReadRenamePair(a: string, b: string)
    requires |a| >= 3 && IsAscii(a[0]) && IsAscii(a[1]) && IsAscii(a[2]) && HasOriginalPath(a[0], a[1])
    ensures ReadRecords([a, b]) == Ok([StatusLine(a[0], a[1], a[3..])])
  {
    var l := StatusLine(a[0], a[1], a[3..]);
    assert ReadField([a, b][0]) == Ok(Some(l));
    assert [a, b][2..] == [];
    assert ReadRecords([]) == Ok([]);
    assert [l] + [] == [l];
  }

  /** Read as written, the original path of a rename becomes an entry of its
      own: `old.txt` yields status letters `o` and `l` for the path `.txt`. */
  lemma RenameOriginalMisread()
    ensures ReadFields(["R  new.txt", "old.txt"]) ==
      Ok([StatusLine('R', ' ', "new.txt"), StatusLine('o', 'l', ".txt")])
  {
    RenameLiterals();
    ReadAsciiPair("R  new.txt", "old.txt");
    assert "R  new.txt"[3..] == "new.txt";
    assert "old.txt"[3..] == ".txt";
  }

  /** Read as intended, the same fields give the one renamed entry. */
  lemma RenameOriginalSkipped()
    ensures ReadRecords(["R  new.txt", "old.txt"]) == Ok([StatusLine('R', ' ', "new.txt")])
  {
    RenameLiterals();
    ReadRenamePair("R  new.txt", "old.txt");
    assert "R  new.txt"[3..] == "new.txt";
  }

  /** The tallies of the misread and of the intended entries. */
  lemma RenameTallies(numstat: Numstat)
    ensures var t := TallyOf([StatusLine('R', ' ', "new.txt"), StatusLine('o', 'l', ".txt")], numstat);
      |t.staged| == 2 && |t.unstaged| == 1
    ensures var t := TallyOf([StatusLine('R', ' ', "new.txt")], numstat);
      |t.staged| == 1 && |t.unstaged| == 0 && |t.untracked| == 0
  {
    var l1, l2 := StatusLine('R', ' ', "new.txt"), StatusLine('o', 'l', ".txt");
    assert [l1, l2][..1] == [l1];
    assert [l1][..0] == [];
  }

  /** As written, the rename is counted twice as staged and once as
      unstaged. */
  lemma RenameMisclassified(numstat: Numstat)
    ensures var r := StatusAsWritten(RenderStatus([StatusRecord('R', ' ', "new.txt", Some("old.txt"))]), numstat);
      r.Ok? && |r.value.stagedFiles| == 2 && |r.value.unstagedFiles| == 1
  {
    RenameFields();
    RenameOriginalMisread();
    RenameTallies(numstat);
  }

  /** As intended, the rename is one staged entry and nothing else. */
  lemma RenameClassified(numstat: Numstat)
    ensures var r := Status(RenderStatus([StatusRecord('R', ' ', "new.txt", Some("old.txt"))]), numstat);
      r.Ok? && |r.value.stagedFiles| == 1 && |r.value.unstagedFiles| == 0 && |r.value.untrackedFiles| == 0
  {
    RenameFields();
    RenameOriginalSkipped();
    RenameTallies(numstat);
  }
}

=== FILE: interaction.dfy ===
/** The interaction provider: what the user asked for (command, message,
    flags) plus metadata about the run. The clock, the working directory
    and the `cursor-agent --version` output are inputs. */
module Interaction {
  import opened Wrappers
  import opened ContextTypes
  import Text

  /** The builder state of the provider. */
  datatype InteractionProvider = InteractionProvider(
    command: Option<string>,
    userMessage: Option<string>,
    flags: map<string, string>)

  /** What `gather` reads from its surroundings. `workingDirectory` is
      absent when the current directory cannot be determined. */
  datatype RunEnvironment = RunEnvironment(
    now: int,
    workingDirectory: Option<string>,
    gitAiVersion: string,
    agentVersionOutput: CommandOutput)

  const Unknown := "unknown"

  function New(): (p: InteractionProvider)
    ensures p.command.None? && p.userMessage.None? && |p.flags| == 0
  {
    InteractionProvider(None, None, map[])
  }

  function WithCommand(command: string): (p: InteractionProvider)
    ensures p.command == Some(command)
    ensures p.userMessage.None? && |p.flags| == 0
  {
    InteractionProvider(Some(command), None, map[])
  }

  /** Replaces the message; nothing else changes. */
  function WithMessage(p: InteractionProvider, message: Option<string>): (r: InteractionProvider)
    ensures r.userMessage == message
    ensures r.command == p.command && r.flags == p.flags
  {
    p.(userMessage := message)
  }

  /** Sets one flag; every other flag keeps its value. */
  function WithFlag(p: InteractionProvider, key: string, value: string): (r: InteractionProvider)
    ensures key in r.flags && r.flags[key] == value
    ensures forall k :: k != key ==> (k in r.flags <==> k in p.flags)
    ensures forall k :: k != key && k in p.flags ==> r.flags[k] == p.flags[k]
    ensures r.command == p.command && r.userMessage == p.userMessage
  {
    p.(flags := p.flags[key := value])
  }

  /** Adds a collection of flags; on a shared key the added value wins. */
  function WithFlags(p: InteractionProvider, flags: map<string, string>): (r: InteractionProvider)
    ensures r.flags.Keys == p.flags.Keys + flags.Keys
    ensures forall k :: k in flags ==> r.flags[k] == flags[k]
    ensures forall k :: k in p.flags && k !in flags ==> r.flags[k] == p.flags[k]
    ensures r.command == p.command && r.userMessage == p.userMessage
  {
    p.(flags := p.flags + flags)
  }

  /** Adding a one-flag collection is the same as setting that flag. */
  lemma WithFlagsSingleton(p: InteractionProvider, key: string, value: string)
    ensures WithFlags(p, map[key := value]) == WithFlag(p, key, value)
  {
    assert p.flags + map[key := value] == p.flags[key := value];
  }

  /** Adding two collections one after the other is adding their union,
      the later one winning. */
  lemma WithFlagsTwice(p: InteractionProvider, a: map<string, string>, b: map<string, string>)
    ensures WithFlags(WithFlags(p, a), b) == WithFlags(p, a + b)
  {
    assert (p.flags + a) + b == p.flags + (a + b);
  }

  /** The version reported by `cursor-agent --version`, trimmed, when the
      command ran and succeeded. */
  function AgentVersion(out: CommandOutput): (r: Option<string>)
    ensures r.Some? <==> out.Succeeded()
    ensures r.Some? ==> r.value == Text.Trim(out.stdout)
  {
    if out.Succeeded() then Some(Text.Trim(out.stdout)) else None
  }

  function Metadata(env: RunEnvironment): (m: ExecutionMetadata)
    ensures m.timestamp == env.now
    ensures m.workingDirectory == env.workingDirectory.GetOr(Unknown)
    ensures m.gitAiVersion == env.gitAiVersion
    ensures m.cursorAgentVersion == AgentVersion(env.agentVersionOutput)
  {
    ExecutionMetadata(env.now, env.workingDirectory.GetOr(Unknown), env.gitAiVersion, AgentVersion(env.agentVersionOutput))
  }

  /** The gathered context: the command (or "unknown"), the message and
      the flags exactly as built, and the run's metadata. */
  function Gather(p: InteractionProvider, env: RunEnvironment): (r: ContextData)
    ensures r.InteractionData? && r.Kind() == Interaction
    ensures r.interaction.command == (if p.command.Some? then p.command.value else Unknown)
    ensures r.interaction.userMessage == p.userMessage
    ensures r.interaction.flags == p.flags
    ensures r.interaction.executionMetadata == Metadata(env)
  {
    InteractionData(InteractionContext(p.command.GetOr(Unknown), p.userMessage, p.flags, Metadata(env)))
  }

  /** Interaction context is always considered out of date. */
  function ShouldRefresh(cached: ContextData): (r: bool)
    ensures r
  {
    true
  }
}

=== FILE: ordering.dfy ===
/** The orders the system sorts by. Rust compares `String`s byte-wise,
    which for UTF-8 text is the same as comparing code points one after the
    other; it compares `PathBuf`s component by component, with the current
    directory component `.` ranked below every ordinary name. Both are
    lexicographic extensions of an order on elements, so that extension is
    defined once and shown to be a total order. */
module Ordering {

  ghost predicate StrictTotal<E(!new)>(less: (E, E) -> bool) {
    && (forall a :: !less(a, a))
    && (forall a, b, c :: less(a, b) && less(b, c) ==> less(a, c))
    && (forall a, b :: a != b ==> less(a, b) || less(b, a))
  }

  ghost predicate TotalOrder<K(!new)>(leq: (K, K) -> bool) {
    && (forall a :: leq(a, a))
    && (forall a, b :: leq(a, b) && leq(b, a) ==> a == b)
    && (forall a, b, c :: leq(a, b) && leq(b, c) ==> leq(a, c))
    && (forall a, b :: leq(a, b) || leq(b, a))
  }

  /** `a` is a prefix of `b`, or `a` is smaller at the first difference. */
  function LexLeq<E(==)>(a: seq<E>, b: seq<E>, less: (E, E) -> bool): bool {
    if |a| == 0 then true
    else if |b| == 0 then false
    else if a[0] == b[0] then LexLeq(a[1..], b[1..], less)
    else less(a[0], b[0])
  }

  lemma {:induction false} LexReflexive<E(!new)>(a: seq<E>, less: (E, E) -> bool)
    ensures LexLeq(a, a, less)
  {
    if |a| > 0 {
      LexReflexive(a[1..], less);
    }
  }

  lemma {:induction false} LexAntisymmetric<E(!new)>(a: seq<E>, b: seq<E>, less: (E, E) -> bool)
    requires StrictTotal(less)
    requires LexLeq(a, b, less) && LexLeq(b, a, less)
    ensures a == b
  {
    if |a| > 0 && |b| > 0 && a[0] == b[0] {
      LexAntisymmetric(a[1..], b[1..], less);
      assert a == [a[0]] + a[1..] && b == [b[0]] + b[1..];
    }
  }

  lemma {:induction false} LexTransitive<E(!new)>(a: seq<E>, b: seq<E>, c: seq<E>, less: (E, E) -> bool)
    requires StrictTotal(less)
    requires LexLeq(a, b, less) && LexLeq(b, c, less)
    ensures LexLeq(a, c, less)
  {
    if |a| > 0 && |b| > 0 && |c| > 0 && a[0] == b[0] && b[0] == c[0] {
      LexTransitive(a[1..], b[1..], c[1..], less);
    }
  }

  lemma {:induction false} LexTotal<E(!new)>(a: seq<E>, b: seq<E>, less: (E, E) -> bool)
    requires StrictTotal(less)
    ensures LexLeq(a, b, less) || LexLeq(b, a, less)
  {
    if |a| > 0 && |b| > 0 && a[0] == b[0] {
      LexTotal(a[1..], b[1..], less);
    }
  }

  /** The lexicographic extension of a strict total order is a total order. */
  lemma LexIsTotalOrder<E(!new)>(less: (E, E) -> bool)
    requires StrictTotal(less)
    ensures forall a :: LexLeq(a, a, less)
    ensures forall a, b :: LexLeq(a, b, less) && LexLeq(b, a, less) ==> a == b
    ensures forall a, b, c :: LexLeq(a, b, less) && LexLeq(b, c, less) ==> LexLeq(a, c, less)
    ensures forall a, b :: LexLeq(a, b, less) || LexLeq(b, a, less)
  {
    forall a: seq<E> {
      LexReflexive(a, less);
    }
    forall a: seq<E>, b: seq<E> | LexLeq(a, b, less) && LexLeq(b, a, less)
      ensures a == b
    {
      LexAntisymmetric(a, b, less);
    }
    forall a: seq<E>, b: seq<E>, c: seq<E> | LexLeq(a, b, less) && LexLeq(b, c, less)
      ensures LexLeq(a, c, less)
    {
      LexTransitive(a, b, c, less);
    }
    forall a: seq<E>, b: seq<E>
      ensures LexLeq(a, b, less) || LexLeq(b, a, less)
    {
      LexTotal(a, b, less);
    }
  }

  // ---------------------------------------------------------------------
  // Strings

  function CharLess(a: char, b: char): bool {
    a < b
  }

  /** Rust's `Ord` for `String`. */
  function StrLeq(a: string, b: string): bool {
    LexLeq(a, b, CharLess)
  }

  lemma StrLeqIsTotalOrder()
    ensures TotalOrder(StrLeq)
  {
    assert StrictTotal(CharLess);
    LexIsTotalOrder(CharLess);
  }

  // ---------------------------------------------------------------------
  // Paths as component sequences

  /** Order on path components: the current-directory component `.` comes
      first, ordinary names compare as strings. */
  function ComponentLess(a: string, b: string): bool {
    if a == b then false
    else if a == "." then true
    else if b == "." then false
    else StrLeq(a, b)
  }

  lemma ComponentLessIsStrictTotal()
    ensures StrictTotal(ComponentLess)
  {
    StrLeqIsTotalOrder();
  }

  /** Rust's `Ord` for `PathBuf`, on paths given as their components. */
  function PathLeq(a: seq<string>, b: seq<string>): bool {
    LexLeq(a, b, ComponentLess)
  }

  lemma PathLeqIsTotalOrder()
    ensures TotalOrder(PathLeq)
  {
    ComponentLessIsStrictTotal();
    LexIsTotalOrder(ComponentLess);
  }
}

=== FILE: paths.dfy ===
/** The two `std::path::Path` queries the providers make on a path held as
    text: `file_name` and `extension`. A path is `/`-separated. */
module Paths {
  import opened Wrappers
  import Text

  /** Index of the last occurrence of `c`. */
  function LastIndexOf(s: string, c: char): (i: nat)
    requires c in s
    ensures i < |s| && s[i] == c && c !in s[i + 1..]
  {
    if s[|s| - 1] == c then |s| - 1
    else
      assert c in s[..|s| - 1] by {
        var k :| 0 <= k < |s| && s[k] == c;
        assert s[..|s| - 1][k] == c;
      }
      LastIndexOf(s[..|s| - 1], c)
  }

  /** The text after the last `/` (all of `s` when it has none). */
  function LastSegment(s: string): (r: string)
    ensures '/' !in r
    ensures Text.EndsWith(s, r)
    ensures |r| < |s| ==> s[|s| - |r| - 1] == '/'
  {
    if '/' !in s then s else s[LastIndexOf(s, '/') + 1..]
  }

  /** `Path::file_name`: the last component, trailing slashes ignored;
      none when that component is empty, `.` or `..`. Rust also drops a
      trailing `/.` and names the component before it; the walks this model
      reads never produce such a path, so that case is not followed. */
  function FileName(path: string): (r: Option<string>)
    ensures r.Some? ==> |r.value| > 0 && '/' !in r.value && r.value != "." && r.value != ".."
  {
    var name := LastSegment(Text.TrimEndChar(path, '/'));
    if name == "" || name == "." || name == ".." then None else Some(name)
  }

  /** `Path::extension` of a file name: the text after its last `.`, unless
      there is no `.`, the only `.` opens the name (a hidden file such as
      `.env`), or the name is `..`. A name ending in `.` has the empty
      extension. */
  function Extension(name: string): (r: Option<string>)
    ensures r.Some? ==> '.' !in r.value && Text.EndsWith(name, "." + r.value)
    ensures r.Some? ==> |r.value| + 1 < |name|
    ensures r.None? <==> name == ".." || '.' !in name || '.' !in name[1..]
  {
    if name == ".." || '.' !in name then None
    else
      var i := LastIndexOf(name, '.');
      if i == 0 then
        assert '.' !in name[1..] by {
          assert name[1..] == name[i + 1..];
        }
        None
      else
        assert name[i..] == "." + name[i + 1..];
        assert '.' in name[1..] by {
          assert name[1..][i - 1] == '.';
        }
        Some(name[i + 1..])
  }

  /** The extension of the path's file name, if it has one. */
  function PathExtension(path: string): (r: Option<string>)
    ensures r.Some? ==> FileName(path).Some? && r == Extension(FileName(path).value)
  {
    match FileName(path)
    case None => None
    case Some(name) => Extension(name)
  }

  /** A name built as stem, dot, extension has that extension back, for a
      non-empty stem and a dot-free extension. */
  lemma {:induction false} ExtensionOfJoined(stem: string, ext: string)
    requires |stem| > 0 && '.' !in ext
    requires stem + "." + ext != ".."
    ensures Extension(stem + "." + ext) == Some(ext)
  {
    var name := stem + "." + ext;
    assert name[|stem|] == '.';
    var i := LastIndexOf(name, '.');
    assert i == |stem|;
    assert name[i + 1..] == ext;
  }

  /** A `/`-free name that is not `.` or `..` is its own file name, and
      stays so under any directory prefix. */
  lemma FileNameOfJoined(dir: string, name: string)
    requires |name| > 0 && '/' !in name && name != "." && name != ".."
    ensures FileName(dir + "/" + name) == Some(name)
  {
    var p := dir + "/" + name;
    assert Text.TrimEndChar(p, '/') == p;
    var i := LastIndexOf(p, '/');
    assert p[|dir|] == '/';
    assert i == |dir|;
    assert p[i + 1..] == name;
  }
}

=== FILE: project.dfy ===
/** The project provider: the directory tree of the working directory,
    file counts by extension, total size and file count, and the recently
    changed files. The `.gitignore`-aware walk, the metadata reads and the
    two git commands are inputs: the walk as the list of entries it
    yielded, each command as its `CommandOutput`. */
module Project {
  import opened Wrappers
  import opened ContextTypes
  import Text
  import Paths
  import Ordering
  import Sorting
  import Counting
  import Collect

  // ---------------------------------------------------------------------
  // The directory tree

  /** What the metadata of a walked entry says, when it could be read. */
  datatype Metadata = Metadata(isFile: bool, len: nat, modified: Option<int>)

  /** One entry the walk yielded: its full path, whether its file type is a
      directory, and its metadata. */
  datatype Walked = Walked(path: string, isDir: bool, metadata: Option<Metadata>)

  /** `Path::strip_prefix(root)`, or the path itself when it is not under
      the root. */
  function Relative(path: string, root: string): (r: string)
    ensures |r| <= |path|
    ensures !Text.EndsWith(root, "/") && Text.StartsWith(path, root + "/") ==> path == root + "/" + r
    ensures Text.EndsWith(root, "/") && Text.StartsWith(path, root) ==> path == root + r
    ensures !Text.StartsWith(path, if Text.EndsWith(root, "/") then root else root + "/") ==> r == path
  {
    var prefix := if Text.EndsWith(root, "/") then root else root + "/";
    if Text.StartsWith(path, prefix) then path[|prefix|..] else path
  }

  /** The tree entry for a walked entry: a file size only when the metadata
      says it is a file, a modification time when the metadata has one, a
      directory exactly when the file type says so. */
  function ToEntry(w: Walked, root: string): (e: TreeEntry)
    ensures e.path == Relative(w.path, root)
    ensures e.entryType == (if w.isDir then Directory else File)
    ensures e.size.Some? <==> w.metadata.Some? && w.metadata.value.isFile
    ensures e.size.Some? ==> e.size.value == w.metadata.value.len
    ensures e.modified == (if w.metadata.Some? then w.metadata.value.modified else None)
  {
    var size := if w.metadata.Some? && w.metadata.value.isFile then Some(w.metadata.value.len) else None;
    var modified := if w.metadata.Some? then w.metadata.value.modified else None;
    TreeEntry(Relative(w.path, root), Paths.FileName(w.path).GetOr(""), if w.isDir then Directory else File, size, modified)
  }

  /** The readable walked entries other than the root, converted, in walk
      order. */
  function Entries(walk: seq<Result<Walked>>, root: string): (r: seq<TreeEntry>)
    ensures |r| <= |walk|
    ensures forall e :: e in r <==> exists i :: 0 <= i < |walk| && walk[i].Ok? && walk[i].value.path != root
                                               && e == ToEntry(walk[i].value, root)
  {
    if |walk| == 0 then []
    else
      var rest := Entries(walk[1..], root);
      assert forall i :: 0 <= i < |walk[1..]| ==> walk[1..][i] == walk[i + 1];
      if walk[0].Ok? && walk[0].value.path != root then [ToEntry(walk[0].value, root)] + rest else rest
  }

  function EntryPath(e: TreeEntry): string {
    e.path
  }

  /** The tree: the entries sorted by path (a stable sort). A working
      directory that cannot be determined fails the build. */
  function BuildTree(root: Result<string>, walk: seq<Result<Walked>>): (r: Result<DirectoryTree>)
    ensures r.Ok? <==> root.Ok?
    ensures r.Ok? ==> r.value.root == root.value
    ensures r.Ok? ==> Sorting.SortedBy(r.value.entries, EntryPath, Ordering.StrLeq)
    ensures r.Ok? ==> multiset(r.value.entries) == multiset(Entries(walk, root.value))
  {
    match root
    case Err(e) => Err(e)
    case Ok(dir) =>
      Ordering.StrLeqIsTotalOrder();
      Ok(DirectoryTree(dir, Sorting.SortBy(Entries(walk, dir), EntryPath, Ordering.StrLeq)))
  }

  // ---------------------------------------------------------------------
  // Counts and totals

  const NoExtension := "no_extension"

  /** The key a file is counted under: its lower-cased extension, or
      `no_extension`. */
  function ExtensionKey(e: TreeEntry): string {
    Text.ToLower(Paths.PathExtension(e.path).GetOr(NoExtension))
  }

  predicate IsFile(e: TreeEntry) {
    e.entryType == File
  }

  /** The number of file entries. */
  function FileCount(entries: seq<TreeEntry>): nat {
    Collect.CountOf(entries, IsFile)
  }

  /** The key of every file entry, in order; one key per file. */
  function ExtensionKeys(entries: seq<TreeEntry>): (r: seq<string>)
    ensures |r| == FileCount(entries)
  {
    Collect.KeysOf(entries, IsFile, ExtensionKey)
  }

  /** A key is among the keys exactly when some file has it. */
  lemma ExtensionKeysMembers(entries: seq<TreeEntry>, k: string)
    ensures k in ExtensionKeys(entries) <==> exists i :: 0 <= i < |entries| && entries[i].entryType == File && ExtensionKey(entries[i]) == k
  {
    Collect.KeysOfMembers(entries, IsFile, ExtensionKey, k);
  }

  /** `count_files_by_extension`: a key is present exactly when some file
      has it, and its count is the number of files that have it. */
  function CountByExtension(entries: seq<TreeEntry>): (r: map<string, nat>)
    ensures forall k :: k in r <==> exists i :: 0 <= i < |entries| && entries[i].entryType == File && ExtensionKey(entries[i]) == k
    ensures forall k :: k in r ==> r[k] == multiset(ExtensionKeys(entries))[k]
  {
    forall k ensures k in ExtensionKeys(entries) <==> exists i :: 0 <= i < |entries| && entries[i].entryType == File && ExtensionKey(entries[i]) == k {
      ExtensionKeysMembers(entries, k);
    }
    Counting.Tally(ExtensionKeys(entries))
  }

  /** Every file is counted exactly once: the counts add up to the number
      of files. */
  lemma CountsAddUp(entries: seq<TreeEntry>)
    ensures Counting.Total(CountByExtension(entries)) == FileCount(entries)
  {
    Counting.TallyTotal(ExtensionKeys(entries));
  }

  /** `count_total_files`: the file count, cast to `u32`. */
  function TotalFiles(entries: seq<TreeEntry>): (r: nat)
    ensures r < Text.U32Limit
    ensures FileCount(entries) < Text.U32Limit ==> r == FileCount(entries)
  {
    FileCount(entries) % Text.U32Limit
  }

  /** `calculate_total_size`: the sum of the sizes that are present. */
  function TotalSize(entries: seq<TreeEntry>): nat {
    if |entries| == 0 then 0
    else TotalSize(entries[..|entries| - 1]) + entries[|entries| - 1].size.GetOr(0)
  }

  lemma {:induction false} TotalSizeAppend(a: seq<TreeEntry>, b: seq<TreeEntry>)
    ensures TotalSize(a + b) == TotalSize(a) + TotalSize(b)
    decreases |b|
  {
    if |b| == 0 {
      assert a + b == a;
    } else {
      assert (a + b)[..|a + b| - 1] == a + b[..|b| - 1];
      TotalSizeAppend(a, b[..|b| - 1]);
    }
  }

  /** Entries without a size (directories, unreadable metadata) add
      nothing: the total is that of the sized entries alone. */
  lemma {:induction false} TotalSizeOfSized(entries: seq<TreeEntry>, sized: seq<TreeEntry>)
    requires sized == SizedOnly(entries)
    ensures TotalSize(entries) == TotalSize(sized)
  {
    if |entries| > 0 {
      var init := entries[..|entries| - 1];
      var last := entries[|entries| - 1];
      TotalSizeOfSized(init, SizedOnly(init));
      assert TotalSize(entries) == TotalSize(init) + last.size.GetOr(0);
      if last.size.Some? {
        assert sized == SizedOnly(init) + [last];
        TotalSizeAppend(SizedOnly(init), [last]);
        assert TotalSize([last]) == TotalSize([last][..0]) + last.size.value;
      } else {
        assert sized == SizedOnly(init) + [];
        assert SizedOnly(init) + [] == SizedOnly(init);
      }
    }
  }

  function SizedOnly(entries: seq<TreeEntry>): (r: seq<TreeEntry>)
    ensures forall e :: e in r ==> e.size.Some? && e in entries
  {
    if |entries| == 0 then []
    else
      var init := entries[..|entries| - 1];
      var last := entries[|entries| - 1];
      assert forall e :: e in init ==> e in entries;
      SizedOnly(init) + (if last.size.Some? then [last] else [])
  }

  /** The walk gives directories no size, so only files add to the total. */
  lemma DirectoriesHaveNoSize(w: Walked, root: string)
    requires w.isDir && (w.metadata.Some? ==> !w.metadata.value.isFile)
    ensures ToEntry(w, root).entryType == Directory && ToEntry(w, root).size.None?
  {
  }

  // ---------------------------------------------------------------------
  // Recently changed files

  /** The non-empty lines of a command's output, each trimmed (the
      emptiness test comes before the trim). */
  function ChangedNames(lines: seq<string>): (r: seq<string>)
    ensures |r| <= |lines|
    ensures forall x :: x in r ==> exists i :: 0 <= i < |lines| && lines[i] != "" && x == Text.Trim(lines[i])
    ensures forall i :: 0 <= i < |lines| && lines[i] != "" ==> Text.Trim(lines[i]) in r
  {
    if |lines| == 0 then []
    else
      var rest := ChangedNames(lines[1..]);
      assert forall i :: 0 <= i < |lines[1..]| ==> lines[1..][i] == lines[i + 1];
      (if lines[0] != "" then [Text.Trim(lines[0])] else []) + rest
  }

  /** The distinct names a command's output lists. */
  ghost function DistinctNames(output: string): set<string> {
    set x | x in ChangedNames(Text.Lines(output))
  }

  const RecentLimit := 50

  /** Sorted, de-duplicated and cut to the first 50. */
  function Normalise(output: string): (r: seq<string>)
    ensures |r| <= RecentLimit
    ensures |r| == if |DistinctNames(output)| <= RecentLimit then |DistinctNames(output)| else RecentLimit
    ensures Sorting.StrictlySortedBy(r, Sorting.Id, Ordering.StrLeq)
    ensures forall x :: x in r ==> x in ChangedNames(Text.Lines(output))
  {
    var all := Sorting.SortDedup(ChangedNames(Text.Lines(output)));
    assert |all| == |DistinctNames(output)|;
    if |all| <= RecentLimit then all
    else
      Sorting.StrictlySortedPrefix(all, RecentLimit, Sorting.Id, Ordering.StrLeq);
      all[..RecentLimit]
  }

  /** When there are at most 50 distinct names, none is dropped. */
  lemma NormaliseKeepsAll(output: string)
    requires |Sorting.SortDedup(ChangedNames(Text.Lines(output)))| <= RecentLimit
    ensures forall x :: x in ChangedNames(Text.Lines(output)) ==> x in Normalise(output)
  {
  }

  /** What is kept are the least names: every name dropped is above every
      name kept. */
  lemma NormaliseKeepsLeast(output: string, x: string, y: string)
    requires x in Normalise(output)
    requires y in ChangedNames(Text.Lines(output)) && y !in Normalise(output)
    ensures Ordering.StrLeq(x, y) && x != y
  {
    var all := Sorting.SortDedup(ChangedNames(Text.Lines(output)));
    var r := Normalise(output);
    assert r == all[..|r|];
    assert y in all;
    Sorting.PrefixBelowRest(all, |r|, x, y);
  }

  const DiffFailed := "Failed to execute git diff for recently changed files"
  const LogFailed := "Failed to execute git log for recently changed files"

  /** The recently changed files as the code reads them: `git diff`, and
      when that does not succeed `git log`, but the output parsed is always
      the diff's, because the log's output is bound to an inner name that
      goes out of scope. A command that cannot be started is an error; a
      failing log gives no files. */
  function RecentlyChangedAsWritten(diff: CommandOutput, log: CommandOutput): (r: Result<seq<string>>)
    ensures diff.NotSpawned? ==> r == Err(DiffFailed)
    ensures diff.Succeeded() ==> r == Ok(Normalise(diff.stdout))
    ensures diff.Finished? && !diff.success && log.NotSpawned? ==> r == Err(LogFailed)
    ensures diff.Finished? && !diff.success && log.Finished? && !log.success ==> r == Ok([])
    ensures diff.Finished? && !diff.success && log.Succeeded() ==> r == Ok(Normalise(diff.stdout))
  {
    match diff
    case NotSpawned => Err(DiffFailed)
    case Finished(ok, out) =>
      if ok then Ok(Normalise(out))
      else
        match log
        case NotSpawned => Err(LogFailed)
        case Finished(logOk, _) => if logOk then Ok(Normalise(out)) else Ok([])
  }

  /** The recently changed files as evidently intended: the fallback log's
      own output is parsed. */
  function RecentlyChanged(diff: CommandOutput, log: CommandOutput): (r: Result<seq<string>>)
    ensures diff.NotSpawned? ==> r == Err(DiffFailed)
    ensures diff.Succeeded() ==> r == Ok(Normalise(diff.stdout))
    ensures diff.Finished? && !diff.success && log.NotSpawned? ==> r == Err(LogFailed)
    ensures diff.Finished? && !diff.success && log.Finished? && !log.success ==> r == Ok([])
    ensures diff.Finished? && !diff.success && log.Succeeded() ==> r == Ok(Normalise(log.stdout))
  {
    match diff
    case NotSpawned => Err(DiffFailed)
    case Finished(ok, out) =>
      if ok then Ok(Normalise(out))
      else
        match log
        case NotSpawned => Err(LogFailed)
        case Finished(logOk, logOut) => if logOk then Ok(Normalise(logOut)) else Ok([])
  }

  /** With a failed diff and a successful log naming one file, the code as
      written reports no files; the intended reading reports that file. */
  lemma FallbackLogDiscarded()
    ensures RecentlyChangedAsWritten(Finished(false, ""), Finished(true, "a.rs\n")) == Ok([])
    ensures RecentlyChanged(Finished(false, ""), Finished(true, "a.rs\n")) == Ok(["a.rs"])
  {
    NormaliseEmpty();
    NormaliseOneName();
  }

  /** Empty output names no file. */
  lemma NormaliseEmpty()
    ensures Normalise("") == []
  {
    assert Text.Lines("") == [];
    assert Sorting.SortDedup([]) == [];
  }

  /** One terminated line names its file. */
  lemma NormaliseOneName()
    ensures Normalise("a.rs\n") == ["a.rs"]
  {
    var s := "a.rs\n";
    assert Text.IndexOf(s, '\n') == 4;
    assert s[..4] == "a.rs" && s[5..] == "";
    assert Text.Lines(s) == ["a.rs"];
    Text.TrimOfTrimmed("a.rs");
    assert ChangedNames(["a.rs"]) == ["a.rs"];
    SortDedupSingle("a.rs");
  }

  lemma SortDedupSingle(x: string)
    ensures Sorting.SortDedup([x]) == [x]
  {
    Sorting.StrictlySortedUnique(Sorting.SortDedup([x]), [x]);
  }

  // ---------------------------------------------------------------------
  // The provider

  /** The project context. The tree must build; the recently changed files
      fall back to none on error. */
  function Gather(root: Result<string>, walk: seq<Result<Walked>>, diff: CommandOutput, log: CommandOutput): (r: Result<ContextData>)
    ensures r.Ok? <==> root.Ok?
    ensures r.Ok? ==> r.value.ProjectData? && r.value.Kind() == Project
    ensures r.Ok? ==> var p := r.value.project;
      && BuildTree(root, walk) == Ok(p.directoryTree)
      && p.fileCounts == CountByExtension(p.directoryTree.entries)
      && p.recentlyChangedFiles == RecentlyChanged(diff, log).GetOr([])
      && p.totalFiles == TotalFiles(p.directoryTree.entries)
      && p.totalSize == TotalSize(p.directoryTree.entries)
  {
    match BuildTree(root, walk)
    case Err(e) => Err(e)
    case Ok(tree) =>
      Ok(ProjectData(ProjectContext(tree, CountByExtension(tree.entries), RecentlyChanged(diff, log).GetOr([]),
                                    TotalFiles(tree.entries), TotalSize(tree.entries))))
  }

  /** Cached project data is left to time-based expiry; data of any other
      kind is refreshed. */
  function ShouldRefresh(cached: ContextData): (r: bool)
    ensures r <==> cached.Kind() != Project
  {
    !cached.ProjectData?
  }
}

=== FILE: prompts.dfy ===
/** The prompt registry (`src/prompts/mod.rs`): one prompt per command,
    overridable from configuration, with an optional user message appended
    and, for merges, the branch name substituted into the template. The
    built-in prompt texts are data and enter as the registry's values. */
module Prompts {
  import opened Wrappers
  import opened Text

  datatype PromptRegistry = PromptRegistry(commit: string, pr: string, merge: string)

  datatype PromptConfig = PromptConfig(commit: Option<string>, pr: Option<string>, merge: Option<string>)

  /** `PromptRegistry::with_overrides`: each prompt is replaced exactly when
      its override is present. */
  function WithOverrides(reg: PromptRegistry, cfg: PromptConfig): (r: PromptRegistry)
    ensures cfg.commit.Some? ==> r.commit == cfg.commit.value
    ensures cfg.commit.None? ==> r.commit == reg.commit
    ensures cfg.pr.Some? ==> r.pr == cfg.pr.value
    ensures cfg.pr.None? ==> r.pr == reg.pr
    ensures cfg.merge.Some? ==> r.merge == cfg.merge.value
    ensures cfg.merge.None? ==> r.merge == reg.merge
  {
    var r1 := if cfg.commit.Some? then reg.(commit := cfg.commit.value) else reg;
    var r2 := if cfg.pr.Some? then r1.(pr := cfg.pr.value) else r1;
    if cfg.merge.Some? then r2.(merge := cfg.merge.value) else r2
  }

  /** The override present in `a`, else the one in `b`. */
  function Prefer(a: Option<string>, b: Option<string>): Option<string> {
    if a.Some? then a else b
  }

  /** Applying two override sets one after the other is applying one set in
      which the later set wins. */
  lemma WithOverridesTwice(reg: PromptRegistry, first: PromptConfig, second: PromptConfig)
    ensures WithOverrides(WithOverrides(reg, first), second) ==
      WithOverrides(reg, PromptConfig(Prefer(second.commit, first.commit), Prefer(second.pr, first.pr), Prefer(second.merge, first.merge)))
  {
  }

  /** An empty override set changes nothing, and reapplying a set is a no-op. */
  lemma WithOverridesIdempotent(reg: PromptRegistry, cfg: PromptConfig)
    ensures WithOverrides(reg, PromptConfig(None, None, None)) == reg
    ensures WithOverrides(WithOverrides(reg, cfg), cfg) == WithOverrides(reg, cfg)
  {
  }

  const CustomMessageLead := "\n\nThe user has provided this additional context to focus on: "

  /** `add_custom_message`: the base prompt, followed by the user's message
      under a fixed lead-in when there is one. */
  function AddCustomMessage(base: string, message: Option<string>): (r: string)
    ensures message.None? ==> r == base
    ensures message.Some? ==> r == base + CustomMessageLead + message.value
  {
    match message
    case None => base
    case Some(m) => base + CustomMessageLead + m
  }

  /** The base prompt and the message can be read back off the result, so
      different messages never give the same prompt. */
  lemma CustomMessageRecoverable(base: string, m: string)
    ensures var r := AddCustomMessage(base, Some(m));
      r[..|base|] == base && r[|base|..|base| + |CustomMessageLead|] == CustomMessageLead
      && r[|base| + |CustomMessageLead|..] == m
  {
  }

  lemma CustomMessageInjective(base: string, m1: string, m2: string)
    requires AddCustomMessage(base, Some(m1)) == AddCustomMessage(base, Some(m2))
    ensures m1 == m2
  {
    CustomMessageRecoverable(base, m1);
    CustomMessageRecoverable(base, m2);
  }

  const Placeholder := "{}"

  /** `get_prompt_for_command`: the registry's prompt for `commit`, `pr` or
      `merge` (with every `{}` replaced by the branch when one is given),
      followed by the custom message; any other command gets an error text
      and the message is dropped. */
  function PromptForCommand(reg: PromptRegistry, command: string, branch: Option<string>, message: Option<string>): (r: string)
    ensures command == "commit" ==> r == AddCustomMessage(reg.commit, message)
    ensures command == "pr" ==> r == AddCustomMessage(reg.pr, message)
    ensures command == "merge" && branch.None? ==> r == AddCustomMessage(reg.merge, message)
    ensures command == "merge" && branch.Some? ==>
      r == AddCustomMessage(ReplaceAll(reg.merge, Placeholder, branch.value), message)
    ensures command !in {"commit", "pr", "merge"} ==> r == "Unknown command: " + command
  {
    if command == "commit" then AddCustomMessage(reg.commit, message)
    else if command == "pr" then AddCustomMessage(reg.pr, message)
    else if command == "merge" then
      match branch
      case Some(b) => AddCustomMessage(ReplaceAll(reg.merge, Placeholder, b), message)
      case None => AddCustomMessage(reg.merge, message)
    else "Unknown command: " + command
  }

  /** A merge template without `{}` ignores the branch name. */
  lemma MergeWithoutPlaceholderIgnoresBranch(reg: PromptRegistry, branch: string, message: Option<string>)
    requires !Contains(reg.merge, Placeholder)
    ensures PromptForCommand(reg, "merge", Some(branch), message) == PromptForCommand(reg, "merge", None, message)
  {
    ReplaceAbsent(reg.merge, Placeholder, branch);
  }

  /** With a non-empty branch name free of braces, no `{}` survives in the
      merge part of the prompt. */
  lemma MergeBranchFillsEveryPlaceholder(reg: PromptRegistry, branch: string, message: Option<string>)
    requires |branch| > 0 && NoBraces(branch)
    ensures StartsWith(PromptForCommand(reg, "merge", Some(branch), message), ReplaceAll(reg.merge, Placeholder, branch))
    ensures !HasPlaceholder(ReplaceAll(reg.merge, Placeholder, branch))
  {
    var filled := ReplaceAll(reg.merge, Placeholder, branch);
    ReplacePlaceholderLeavesNone(reg.merge, branch);
    assert PromptForCommand(reg, "merge", Some(branch), message) == AddCustomMessage(filled, message);
    if message.Some? {
      CustomMessageRecoverable(filled, message.value);
    }
  }

  /** An unknown command's result does not depend on the registry, the
      branch or the message. */
  lemma UnknownCommandIgnoresInputs(reg: PromptRegistry, other: PromptRegistry, command: string,
                                    b1: Option<string>, b2: Option<string>, m1: Option<string>, m2: Option<string>)
    requires command !in {"commit", "pr", "merge"}
    ensures PromptForCommand(reg, command, b1, m1) == PromptForCommand(other, command, b2, m2)
  {
  }
}

=== FILE: repository.dfy ===
/** The repository-structure provider (`src/context/providers/repository.rs`):
    a directory tree (from the `tree` command, or built by hand from a walk
    of the working directory), the contents of dependency files matched by
    configured patterns, file counts per extension, recently changed files
    and overall totals. The walk is given as the list of entries the walker
    yields, each path held as its components (`.` then the names below it);
    command output is given as `CommandOutput`. */
module Repository {
  import opened Wrappers
  import opened Text
  import Paths
  import Ordering
  import Sorting
  import Counting
  import Collect
  import Configuration
  import ContextTypes

  /** A path below the working directory: `["."]` is the directory itself,
      `[".", "src", "main.rs"]` is `./src/main.rs`. */
  type RepoPath = seq<string>

  /** One walked entry: its path, whether it is a directory (`is_dir`) and
      whether it is a regular file (`is_file`; a broken link or a special
      file is neither), its size when its metadata can be read, and its
      text when read as a file. */
  datatype RepoEntry = RepoEntry(path: RepoPath, isDir: bool, isFile: bool, size: Option<nat>, content: Result<string>)

  /** The local record the provider fills. */
  datatype RepositoryContext = RepositoryContext(
    directoryTree: string,
    dependencyFiles: map<string, string>,
    fileCounts: map<string, nat>,
    recentlyChangedFiles: seq<string>,
    totalFiles: nat,
    totalSize: nat)

  // ---------------------------------------------------------------------
  // Paths

  /** `path.starts_with("./.git")`, compared component by component: the
      `.git` directory and everything in it, but not `.github` or
      `.gitignore`. */
  predicate UnderGitDir(p: RepoPath) {
    |p| >= 2 && p[0] == "." && p[1] == ".git"
  }

  /** `path.display()`: the components joined with `/`. */
  function PathString(p: RepoPath): string {
    Join(p, "/")
  }

  /** The path without its leading `./`. */
  function RelativePath(p: RepoPath): string {
    if |p| > 0 && p[0] == "." then Join(p[1..], "/") else Join(p, "/")
  }

  /** `path.file_name()` with the empty default: the last component, or
      nothing for the directory `.` itself. */
  function FileName(p: RepoPath): string {
    if |p| == 0 || p[|p| - 1] == "." then "" else p[|p| - 1]
  }

  function EntryPath(e: RepoEntry): RepoPath {
    e.path
  }

  /** The entries every part of the provider looks at: walk errors are
      skipped (`walker.flatten()`) and the `.git` directory is left out. */
  function Visible(walk: seq<Result<RepoEntry>>): (r: seq<RepoEntry>)
    ensures |r| <= |walk|
    ensures forall e :: e in r <==> Ok(e) in walk && !UnderGitDir(e.path)
  {
    if |walk| == 0 then []
    else
      assert walk == [walk[0]] + walk[1..];
      (if walk[0].Ok? && !UnderGitDir(walk[0].value.path) then [walk[0].value] else []) + Visible(walk[1..])
  }

  // ---------------------------------------------------------------------
  // The hand-built directory tree

  const TreeLimit: nat := 50
  const MaxDepth: nat := 3

  /** `path.components().count().saturating_sub(1)`. */
  function Depth(p: RepoPath): nat {
    if |p| == 0 then 0 else |p| - 1
  }

  /** The walk limited to three levels below the working directory
      (`max_depth(Some(3))`). */
  function Shallow(entries: seq<RepoEntry>): (r: seq<RepoEntry>)
    ensures forall e :: e in r <==> e in entries && Depth(e.path) <= MaxDepth
  {
    if |entries| == 0 then []
    else
      assert entries == [entries[0]] + entries[1..];
      (if Depth(entries[0].path) <= MaxDepth then [entries[0]] else []) + Shallow(entries[1..])
  }

  /** The entries the tree lists, in `PathBuf` order. */
  function TreeEntries(walk: seq<Result<RepoEntry>>): (r: seq<RepoEntry>)
    ensures Sorting.SortedBy(r, EntryPath, Ordering.PathLeq)
    ensures multiset(r) == multiset(Shallow(Visible(walk)))
    ensures forall e :: e in r ==> !UnderGitDir(e.path) && Depth(e.path) <= MaxDepth
  {
    Ordering.PathLeqIsTotalOrder();
    var r := Sorting.SortBy(Shallow(Visible(walk)), EntryPath, Ordering.PathLeq);
    assert forall e :: e in r ==> e in multiset(Shallow(Visible(walk)));
    r
  }

  /** Two spaces per level. */
  function Indent(depth: nat): (r: string)
    ensures |r| == 2 * depth
    ensures forall i :: 0 <= i < |r| ==> r[i] == ' '
  {
    if depth == 0 then "" else "  " + Indent(depth - 1)
  }

  /** One entry's line: indentation, a branch mark, the name, and a `/`
      after a directory's name. */
  function EntryLine(e: RepoEntry): string {
    Indent(Depth(e.path)) + "├── " + FileName(e.path) + (if e.isDir then "/" else "")
  }

  function Trailer(more: nat): string {
    "... and " + NatToString(more) + " more files/directories"
  }

  function Min(a: nat, b: nat): nat {
    if a <= b then a else b
  }

  /** The tree's lines: `.`, then one line for each of the first fifty
      entries, then a count of the entries left out, only when there are
      any. */
  function TreeLines(sorted: seq<RepoEntry>): (r: seq<string>)
    ensures |r| == 1 + Min(|sorted|, TreeLimit) + (if |sorted| > TreeLimit then 1 else 0)
    ensures r[0] == "."
    ensures forall i :: 0 <= i < Min(|sorted|, TreeLimit) ==> r[i + 1] == EntryLine(sorted[i])
    ensures |sorted| > TreeLimit ==> r[|r| - 1] == Trailer(|sorted| - TreeLimit)
  {
    var shown := sorted[..Min(|sorted|, TreeLimit)];
    var lines := seq(|shown|, i requires 0 <= i < |shown| => EntryLine(shown[i]));
    ["."] + lines + (if |sorted| > TreeLimit then [Trailer(|sorted| - TreeLimit)] else [])
  }

  /** `build_manual_tree`: the lines, each ended by a newline. */
  function ManualTree(walk: seq<Result<RepoEntry>>): string {
    JoinTerminated(TreeLines(TreeEntries(walk)), "\n")
  }

  /** With at most fifty entries every one is listed and there is no
      trailer; with more, exactly fifty are listed and the trailer counts
      the rest. */
  lemma TreeLimitRespected(sorted: seq<RepoEntry>)
    ensures |sorted| <= TreeLimit ==> TreeLines(sorted) == ["."] + seq(|sorted|, i requires 0 <= i < |sorted| => EntryLine(sorted[i]))
    ensures |sorted| > TreeLimit ==> |TreeLines(sorted)| == TreeLimit + 2
  {
    if |sorted| <= TreeLimit {
      assert sorted[..Min(|sorted|, TreeLimit)] == sorted;
    }
  }

  predicate PlainName(s: string) {
    '\n' !in s && '\r' !in s
  }

  lemma IndentIsPlain(depth: nat)
    ensures PlainName(Indent(depth))
  {
  }

  lemma {:induction false} RenderedIsPlain(n: nat)
    ensures PlainName(NatToString(n))
  {
    var s := NatToString(n);
    assert forall i :: 0 <= i < |s| ==> IsDigit(s[i]);
  }

  lemma EntryLineIsPlain(e: RepoEntry)
    requires PlainName(FileName(e.path))
    ensures PlainName(EntryLine(e))
  {
    IndentIsPlain(Depth(e.path));
  }

  lemma TrailerIsPlain(more: nat)
    ensures PlainName(Trailer(more))
  {
    RenderedIsPlain(more);
  }

  /** Every listed entry comes from the walk. */
  lemma TreeEntriesFromWalk(walk: seq<Result<RepoEntry>>, e: RepoEntry)
    requires e in TreeEntries(walk)
    ensures Ok(e) in walk
  {
    assert e in multiset(Shallow(Visible(walk)));
  }

  /** With names free of line breaks, reading the tree back line by line
      gives exactly its lines. */
  lemma ManualTreeLines(walk: seq<Result<RepoEntry>>)
    requires forall e :: Ok(e) in walk ==> PlainName(FileName(e.path))
    ensures Lines(ManualTree(walk)) == TreeLines(TreeEntries(walk))
  {
    var sorted := TreeEntries(walk);
    var ls := TreeLines(sorted);
    forall k | 0 <= k < |ls| ensures PlainName(ls[k]) {
      if 0 < k <= Min(|sorted|, TreeLimit) {
        TreeEntriesFromWalk(walk, sorted[k - 1]);
        EntryLineIsPlain(sorted[k - 1]);
      } else if k > 0 {
        TrailerIsPlain(|sorted| - TreeLimit);
      }
    }
    LinesOfJoined(ls);
  }

  /** `build_directory_tree`: the `tree` command's output when it runs and
      succeeds, the hand-built tree otherwise. */
  function DirectoryTree(treeCommand: CommandOutput, walk: seq<Result<RepoEntry>>): (r: string)
    ensures treeCommand.Finished? && treeCommand.success ==> r == treeCommand.stdout
    ensures !(treeCommand.Finished? && treeCommand.success) ==> r == ManualTree(walk)
  {
    if treeCommand.Finished? && treeCommand.success then treeCommand.stdout else ManualTree(walk)
  }

  // ---------------------------------------------------------------------
  // Dependency-file patterns

  /** The pattern rule, given the file name, the text a suffix is compared
      against, and the text a wildcard prefix is compared against. A
      pattern that splits into exactly two pieces around `*` matches by
      prefix and suffix; any other pattern matches the whole file name or
      a suffix of the path. */
  predicate PatternRule(pattern: string, name: string, path: string, prefixed: string) {
    if '*' in pattern then
      var parts := Split(pattern, '*');
      if |parts| == 2 then StartsWith(prefixed, parts[0]) && EndsWith(path, parts[1])
      else name == pattern || EndsWith(path, pattern)
    else name == pattern || EndsWith(path, pattern)
  }

  /** The matcher as written: the wildcard prefix is compared against the
      displayed path, which always starts with `./`. */
  predicate MatchesAsWritten(pattern: string, p: RepoPath) {
    PatternRule(pattern, FileName(p), PathString(p), PathString(p))
  }

  /** The matcher as intended: the wildcard prefix is compared against the
      path below the working directory. */
  predicate Matches(pattern: string, p: RepoPath) {
    PatternRule(pattern, FileName(p), PathString(p), RelativePath(p))
  }

  /** A pattern with exactly one `*` matches by the text before it (as a
      prefix) and the text after it (as a suffix). */
  lemma OneWildcardRule(pre: string, post: string, name: string, path: string, prefixed: string)
    requires '*' !in pre && '*' !in post
    ensures PatternRule(pre + "*" + post, name, path, prefixed) <==> StartsWith(prefixed, pre) && EndsWith(path, post)
  {
    var pattern := pre + "*" + post;
    assert pattern[|pre|] == '*';
    SplitCons(pre, '*', post);
  }

  /** Any other pattern matches the whole file name or a suffix of the
      path. */
  lemma OtherPatternRule(pattern: string, name: string, path: string, prefixed: string)
    requires CountChar(pattern, '*') != 1
    ensures PatternRule(pattern, name, path, prefixed) <==> name == pattern || EndsWith(path, pattern)
  {
    SplitCount(pattern, '*');
  }

  /** The displayed path of a walked entry starts with `.`, so as written a
      wildcard pattern whose prefix is non-empty and does not start with `.`
      matches nothing at all. */
  lemma WildcardPrefixNeverMatchesAsWritten(pre: string, post: string, p: RepoPath)
    requires '*' !in pre && '*' !in post
    requires |pre| > 0 && pre[0] != '.'
    requires |p| > 0 && p[0] == "."
    ensures !MatchesAsWritten(pre + "*" + post, p)
  {
    OneWildcardRule(pre, post, FileName(p), PathString(p), PathString(p));
    var s := PathString(p);
    if |p| > 1 {
      assert s == "." + "/" + Join(p[1..], "/");
    }
    assert s[0] == '.';
  }

  /** A file directly in the working directory whose name is the pattern's
      prefix, anything, then its suffix: missed as written, matched as
      intended. */
  lemma TopLevelWildcardFile(pre: string, mid: string, post: string)
    requires '*' !in pre && '*' !in post
    requires |pre| > 0 && pre[0] != '.'
    ensures !MatchesAsWritten(pre + "*" + post, [".", pre + mid + post])
    ensures Matches(pre + "*" + post, [".", pre + mid + post])
  {
    var name := pre + mid + post;
    var p := [".", name];
    WildcardPrefixNeverMatchesAsWritten(pre, post, p);
    OneWildcardRule(pre, post, FileName(p), PathString(p), RelativePath(p));
    assert p[1..] == [name];
    assert RelativePath(p) == name;
    assert PathString(p) == "./" + name;
    assert StartsWith(name, pre);
    assert EndsWith(PathString(p), post) by {
      assert PathString(p) == ("./" + pre + mid) + post;
    }
  }

  /** `requirements*.txt` misses `./requirements-dev.txt` as written and
      matches it as intended. */
  lemma RequirementsPatternExample()
    ensures !MatchesAsWritten("requirements*.txt", [".", "requirements-dev.txt"])
    ensures Matches("requirements*.txt", [".", "requirements-dev.txt"])
  {
    assert "requirements*.txt" == "requirements" + "*" + ".txt";
    assert "requirements-dev.txt" == "requirements" + "-dev" + ".txt";
    TopLevelWildcardFile("requirements", "-dev", ".txt");
  }

  // ---------------------------------------------------------------------
  // Dependency files

  /** Larger files are skipped, not truncated. */
  const ContentCap: nat := 50000

  /** Some pattern matches the path. */
  predicate AnyMatch(patterns: seq<string>, p: RepoPath) {
    exists k :: 0 <= k < |patterns| && Matches(patterns[k], p)
  }

  /** A file whose path matches, whose text can be read, and whose text is
      at most 50 000 bytes long. */
  predicate Included(patterns: seq<string>, e: RepoEntry) {
    e.isFile && AnyMatch(patterns, e.path) && e.content.Ok? && Utf8Len(e.content.value) <= ContentCap
  }

  function DisplayKey(e: RepoEntry): string {
    PathString(e.path)
  }

  function ReadText(e: RepoEntry): string {
    e.content.GetOr("")
  }

  predicate WithinCap(content: string) {
    Utf8Len(content) <= ContentCap
  }

  /** `get_dependency_files`: displayed path to text for each included
      file; a later entry with the same path replaces an earlier one. */
  function DependencyFiles(patterns: seq<string>, entries: seq<RepoEntry>): (r: map<string, string>)
    ensures forall k :: k in r ==> WithinCap(r[k])
  {
    var keep := (e: RepoEntry) => Included(patterns, e);
    Collect.IndexByValues(entries, keep, DisplayKey, ReadText, WithinCap);
    Collect.IndexBy(entries, keep, DisplayKey, ReadText)
  }

  /** A path is a key exactly when some included file has it, and its value
      is that file's text. */
  lemma DependencyFilesMembers(patterns: seq<string>, entries: seq<RepoEntry>, k: string)
    ensures k in DependencyFiles(patterns, entries) <==>
      exists i :: 0 <= i < |entries| && Included(patterns, entries[i]) && PathString(entries[i].path) == k
    ensures k in DependencyFiles(patterns, entries) ==>
      exists i :: 0 <= i < |entries| && Included(patterns, entries[i]) && PathString(entries[i].path) == k
        && entries[i].content == Ok(DependencyFiles(patterns, entries)[k])
  {
    var keep := (e: RepoEntry) => Included(patterns, e);
    Collect.IndexByMembers(entries, keep, DisplayKey, ReadText, k);
  }

  // ---------------------------------------------------------------------
  // Counts and totals

  const NoExtension := "no_extension"

  /** `path.extension()` as written, not lower-cased, or `no_extension`. */
  function ExtensionKey(e: RepoEntry): string {
    Paths.Extension(FileName(e.path)).GetOr(NoExtension)
  }

  predicate IsFile(e: RepoEntry) {
    e.isFile
  }

  /** The key of each file, in order. */
  function FileKeys(entries: seq<RepoEntry>): (r: seq<string>)
    ensures |r| == Collect.CountOf(entries, IsFile)
  {
    Collect.KeysOf(entries, IsFile, ExtensionKey)
  }

  /** A key is among the keys exactly when some file has it. */
  lemma FileKeysMembers(entries: seq<RepoEntry>, k: string)
    ensures k in FileKeys(entries) <==> exists i :: 0 <= i < |entries| && entries[i].isFile && ExtensionKey(entries[i]) == k
  {
    Collect.KeysOfMembers(entries, IsFile, ExtensionKey, k);
  }

  /** `count_files_by_extension`: how many files carry each key. */
  function CountByExtension(entries: seq<RepoEntry>): (r: map<string, nat>)
    ensures forall k :: k in r <==> exists i :: 0 <= i < |entries| && entries[i].isFile && ExtensionKey(entries[i]) == k
    ensures forall k :: k in r ==> r[k] == multiset(FileKeys(entries))[k]
  {
    forall k ensures k in FileKeys(entries) <==> exists i :: 0 <= i < |entries| && entries[i].isFile && ExtensionKey(entries[i]) == k {
      FileKeysMembers(entries, k);
    }
    Counting.Tally(FileKeys(entries))
  }

  /** The counts add up to the number of files. */
  lemma CountsAddUp(entries: seq<RepoEntry>)
    ensures Counting.Total(CountByExtension(entries)) == Collect.CountOf(entries, IsFile)
  {
    Counting.TallyTotal(FileKeys(entries));
  }

  /** The sizes of the files whose metadata could be read. */
  function TotalSize(entries: seq<RepoEntry>): nat {
    if |entries| == 0 then 0
    else
      var e := entries[|entries| - 1];
      TotalSize(entries[..|entries| - 1]) + (if e.isFile && e.size.Some? then e.size.value else 0)
  }

  lemma {:induction false} TotalSizeAppend(a: seq<RepoEntry>, b: seq<RepoEntry>)
    ensures TotalSize(a + b) == TotalSize(a) + TotalSize(b)
    decreases |b|
  {
    if |b| > 0 {
      assert (a + b)[..|a + b| - 1] == a + b[..|b| - 1];
      TotalSizeAppend(a, b[..|b| - 1]);
    } else {
      assert a + b == a;
    }
  }

  /** Entries that are not regular files, and unreadable metadata, add
      nothing to the total. */
  lemma DirectoriesHaveNoSize(entries: seq<RepoEntry>, e: RepoEntry)
    requires !e.isFile || e.size.None?
    ensures TotalSize(entries + [e]) == TotalSize(entries)
  {
    assert (entries + [e])[..|entries|] == entries;
  }

  /** `get_repository_stats`: the number of files and their total size. */
  function Stats(entries: seq<RepoEntry>): (r: (nat, nat))
    ensures r.0 == |FileKeys(entries)|
    ensures r.1 == TotalSize(entries)
  {
    (Collect.CountOf(entries, IsFile), TotalSize(entries))
  }

  // ---------------------------------------------------------------------
  // Recently changed files

  const RecentLimit: nat := 20

  /** The non-empty lines, in order. */
  function NonEmpty(lines: seq<string>): (r: seq<string>)
    ensures forall x :: x in r <==> x in lines && x != ""
  {
    if |lines| == 0 then []
    else
      assert lines == [lines[0]] + lines[1..];
      (if lines[0] != "" then [lines[0]] else []) + NonEmpty(lines[1..])
  }

  /** `get_recently_changed_files`: the distinct non-empty lines of
      `git log --name-only`, at most twenty of them; nothing when git
      fails. A `HashSet` fixes no order, so the set is taken in sorted
      order here; every claim below holds whatever order is taken. */
  function RecentlyChanged(log: CommandOutput): (r: seq<string>)
    ensures |r| <= RecentLimit
    ensures forall i, j :: 0 <= i < j < |r| ==> r[i] != r[j]
    ensures forall x :: x in r ==> x != "" && log.Finished? && log.success && x in Lines(log.stdout)
  {
    if log.Finished? && log.success then
      var distinct := Sorting.SortDedup(NonEmpty(Lines(log.stdout)));
      var r := if |distinct| <= RecentLimit then distinct else distinct[..RecentLimit];
      assert forall x :: x in r ==> x in distinct;
      r
    else []
  }

  /** When there are at most twenty distinct changed paths, all of them are
      reported. */
  lemma RecentlyChangedComplete(log: CommandOutput, x: string)
    requires log.Finished? && log.success
    requires |Sorting.SortDedup(NonEmpty(Lines(log.stdout)))| <= RecentLimit
    requires x in Lines(log.stdout) && x != ""
    ensures x in RecentlyChanged(log)
  {
  }

  // ---------------------------------------------------------------------
  // The provider

  /** `gather`: every part from the same walk. No part can fail: the
      hand-built tree always succeeds, and git failing yields no recent
      files. */
  function Gather(treeCommand: CommandOutput, walk: seq<Result<RepoEntry>>, config: Configuration.DependencyFiles, log: CommandOutput): (r: RepositoryContext)
    ensures r.directoryTree == DirectoryTree(treeCommand, walk)
    ensures r.dependencyFiles == DependencyFiles(Configuration.DependencyPatterns(config), Visible(walk))
    ensures r.fileCounts == CountByExtension(Visible(walk))
    ensures r.recentlyChangedFiles == RecentlyChanged(log)
    ensures r.totalFiles == Counting.Total(r.fileCounts)
    ensures r.totalSize == TotalSize(Visible(walk))
  {
    var entries := Visible(walk);
    var (files, size) := Stats(entries);
    CountsAddUp(entries);
    RepositoryContext(DirectoryTree(treeCommand, walk), DependencyFiles(Configuration.DependencyPatterns(config), entries),
                      CountByExtension(entries), RecentlyChanged(log), files, size)
  }

  /** Repository data is never refreshed ahead of its expiry. */
  function ShouldRefresh(cached: ContextTypes.ContextData): (r: bool)
    ensures !r
  {
    false
  }
}

=== FILE: sorting.dfy ===
/** Sorting and de-duplication as the providers use them: `Vec::sort_by`
    (a stable sort on a key), `Vec::dedup_by` (drop an element whose key
    equals that of the element kept just before it) and the common
    `sort(); dedup();` pair on strings. */
module Sorting {
  import opened Ordering

  ghost predicate SortedBy<T, K>(s: seq<T>, key: T -> K, leq: (K, K) -> bool) {
    forall i, j :: 0 <= i < j < |s| ==> leq(key(s[i]), key(s[j]))
  }

  /** The keys ascend and no two elements share a key. */
  ghost predicate StrictlySortedBy<T, K>(s: seq<T>, key: T -> K, leq: (K, K) -> bool) {
    forall i, j :: 0 <= i < j < |s| ==> leq(key(s[i]), key(s[j])) && key(s[i]) != key(s[j])
  }

  /** A head at or below every element of a sorted tail keeps it sorted. */
  lemma HeadBelowAll<T, K>(h: T, rest: seq<T>, key: T -> K, leq: (K, K) -> bool)
    requires SortedBy(rest, key, leq)
    requires forall y | y in multiset(rest) :: leq(key(h), key(y))
    ensures SortedBy([h] + rest, key, leq)
  {
    forall i, j | 0 <= i < j < |[h] + rest| ensures leq(key(([h] + rest)[i]), key(([h] + rest)[j])) {
      if i == 0 {
        assert rest[j - 1] in multiset(rest);
      }
    }
  }

  /** The first element of a sorted `s` is at or below everything in its
      tail with `x` added, when `x` is not at or below it. */
  lemma FirstBelowInserted<T, K(!new)>(x: T, s: seq<T>, rest: seq<T>, key: T -> K, leq: (K, K) -> bool)
    requires TotalOrder(leq)
    requires |s| > 0 && SortedBy(s, key, leq) && !leq(key(x), key(s[0]))
    requires multiset(rest) == multiset(s[1..]) + multiset{x}
    ensures forall y | y in multiset(rest) :: leq(key(s[0]), key(y))
  {
    forall y | y in multiset(rest) ensures leq(key(s[0]), key(y)) {
      if y != x {
        assert y in multiset(s[1..]);
        var k :| 0 <= k < |s[1..]| && s[1..][k] == y;
        assert s[k + 1] == y;
      }
    }
  }

  /** Places `x` before the first element whose key is not below its own. */
  function Insert<T, K(!new)>(x: T, s: seq<T>, key: T -> K, leq: (K, K) -> bool): (r: seq<T>)
    requires TotalOrder(leq)
    requires SortedBy(s, key, leq)
    ensures SortedBy(r, key, leq)
    ensures multiset(r) == multiset(s) + multiset{x}
  {
    if |s| == 0 then [x]
    else if leq(key(x), key(s[0])) then
      HeadBelowAll(x, s, key, leq);
      [x] + s
    else
      var rest := Insert(x, s[1..], key, leq);
      assert s == [s[0]] + s[1..];
      FirstBelowInserted(x, s, rest, key, leq);
      HeadBelowAll(s[0], rest, key, leq);
      [s[0]] + rest
  }

  /** A stable insertion sort on `key`. */
  function SortBy<T, K(!new)>(s: seq<T>, key: T -> K, leq: (K, K) -> bool): (r: seq<T>)
    requires TotalOrder(leq)
    ensures SortedBy(r, key, leq)
    ensures multiset(r) == multiset(s)
    ensures |r| == |s|
  {
    if |s| == 0 then []
    else
      assert s == [s[0]] + s[1..];
      var r := Insert(s[0], SortBy(s[1..], key, leq), key, leq);
      assert |r| == |multiset(r)|;
      r
  }

  /** `Vec::dedup_by`: of each run of neighbours sharing a key only the
      first is kept. */
  function DedupBy<T, K(==)>(s: seq<T>, key: T -> K): (r: seq<T>)
    ensures |r| <= |s|
    ensures |s| > 0 ==> |r| > 0 && key(r[|r| - 1]) == key(s[|s| - 1])
  {
    if |s| <= 1 then s
    else
      var d := DedupBy(s[..|s| - 1], key);
      if key(s[|s| - 1]) == key(s[|s| - 2]) then d else d + [s[|s| - 1]]
  }

  /** Everything kept comes from the input. */
  lemma {:induction false} DedupSubset<T, K>(s: seq<T>, key: T -> K)
    ensures forall y :: y in DedupBy(s, key) ==> y in s
  {
    if |s| > 1 {
      var init := s[..|s| - 1];
      DedupSubset(init, key);
      assert s == init + [s[|s| - 1]];
    }
  }

  /** Some element of `s` has key `k`. */
  ghost predicate HasKey<T, K>(s: seq<T>, key: T -> K, k: K) {
    exists y :: y in s && key(y) == k
  }

  /** Every key of the input survives. */
  lemma {:induction false} DedupCovers<T, K>(s: seq<T>, key: T -> K)
    ensures forall x :: x in s ==> HasKey(DedupBy(s, key), key, key(x))
  {
    var r := DedupBy(s, key);
    if |s| > 1 {
      var init := s[..|s| - 1];
      DedupCovers(init, key);
      var d := DedupBy(init, key);
      assert r == d || r == d + [s[|s| - 1]];
      forall x | x in s ensures HasKey(r, key, key(x)) {
        if x == s[|s| - 1] {
          assert r[|r| - 1] in r;
        } else {
          assert x in init;
          assert HasKey(d, key, key(x));
          var y :| y in d && key(y) == key(x);
          assert y in r;
        }
      }
    } else {
      forall x | x in s ensures HasKey(r, key, key(x)) {
        assert x in r;
      }
    }
  }

  /** Dropping neighbours keeps the relative order of what remains, so a
      sorted input gives a strictly sorted output. */
  lemma {:induction false} DedupSorted<T, K(!new)>(s: seq<T>, key: T -> K, leq: (K, K) -> bool)
    requires TotalOrder(leq)
    requires SortedBy(s, key, leq)
    ensures StrictlySortedBy(DedupBy(s, key), key, leq)
  {
    if |s| > 1 {
      var init := s[..|s| - 1];
      var last := s[|s| - 1];
      assert SortedBy(init, key, leq);
      DedupSorted(init, key, leq);
      DedupSubset(init, key);
      var d := DedupBy(init, key);
      forall y | y in d ensures leq(key(y), key(last)) {
        var k :| 0 <= k < |init| && init[k] == y;
        assert s[k] == y;
      }
      if key(last) != key(s[|s| - 2]) {
        var r := d + [last];
        assert DedupBy(s, key) == r;
        assert key(d[|d| - 1]) == key(init[|init| - 1]);
        forall i | 0 <= i < |d| ensures key(d[i]) != key(last) {
          assert leq(key(d[i]), key(d[|d| - 1]));
          assert leq(key(s[|s| - 2]), key(last));
        }
        forall i, j | 0 <= i < j < |r| ensures leq(key(r[i]), key(r[j])) && key(r[i]) != key(r[j]) {
          if j < |d| {
            assert r[i] == d[i] && r[j] == d[j];
          } else {
            assert r[i] == d[i] && d[i] in d;
          }
        }
      }
    }
  }

  function Id<T>(x: T): T {
    x
  }

  /** `v.sort(); v.dedup();` for any total order. */
  function SortDedupBy<K(==,!new)>(s: seq<K>, leq: (K, K) -> bool): (r: seq<K>)
    requires TotalOrder(leq)
    ensures StrictlySortedBy(r, Id, leq)
    ensures forall x :: x in r <==> x in s
  {
    var sorted := SortBy(s, Id, leq);
    assert forall x :: x in sorted <==> x in multiset(sorted);
    DedupSorted(sorted, Id, leq);
    DedupSubset(sorted, Id);
    DedupCovers(sorted, Id);
    DedupBy(sorted, Id)
  }

  /** A sequence without repeats is as long as the set of its values is
      large. */
  lemma {:induction false} DistinctCount<T>(s: seq<T>)
    requires forall i, j :: 0 <= i < j < |s| ==> s[i] != s[j]
    ensures |set x | x in s| == |s|
  {
    if |s| > 0 {
      var init := s[..|s| - 1];
      var last := s[|s| - 1];
      assert s == init + [last];
      DistinctCount(init);
      var before := set x | x in init;
      assert last !in before by {
        forall i | 0 <= i < |init| ensures init[i] != last {
          assert s[i] != s[|s| - 1];
        }
      }
      assert (set x | x in s) == before + {last};
    }
  }

  /** Any prefix of a strictly sorted sequence is strictly sorted. */
  lemma StrictlySortedPrefix<T, K>(s: seq<T>, n: nat, key: T -> K, leq: (K, K) -> bool)
    requires StrictlySortedBy(s, key, leq) && n <= |s|
    ensures StrictlySortedBy(s[..n], key, leq)
  {
    forall i, j | 0 <= i < j < n ensures leq(key(s[..n][i]), key(s[..n][j])) && key(s[..n][i]) != key(s[..n][j]) {
      assert s[..n][i] == s[i] && s[..n][j] == s[j];
    }
  }

  /** In a strictly sorted sequence, every element of a prefix lies below
      every element outside it. */
  lemma PrefixBelowRest(all: seq<string>, n: nat, x: string, y: string)
    requires StrictlySortedBy(all, Id, StrLeq) && n <= |all|
    requires x in all[..n] && y in all && y !in all[..n]
    ensures StrLeq(x, y) && x != y
  {
    var i :| 0 <= i < n && all[..n][i] == x;
    var j :| 0 <= j < |all| && all[j] == y;
    assert all[i] == x;
    assert forall k :: 0 <= k < n ==> all[..n][k] == all[k];
    assert i < j;
    assert Id(all[i]) != Id(all[j]);
  }

  /** `v.sort(); v.dedup();` on strings: each distinct string once, in
      order. */
  function SortDedup(s: seq<string>): (r: seq<string>)
    ensures StrictlySortedBy(r, Id, StrLeq)
    ensures forall x :: x in r <==> x in s
    ensures |r| == |set x | x in s|
  {
    StrLeqIsTotalOrder();
    var r := SortDedupBy(s, StrLeq);
    forall i, j | 0 <= i < j < |r| ensures r[i] != r[j] {
      assert Id(r[i]) != Id(r[j]);
    }
    DistinctCount(r);
    assert (set x | x in r) == (set x | x in s);
    r
  }

  /** The head of a strictly sorted sequence is its least element. */
  lemma HeadIsLeast(a: seq<string>, x: string)
    requires StrictlySortedBy(a, Id, StrLeq)
    requires x in a
    ensures StrLeq(a[0], x)
  {
    StrLeqIsTotalOrder();
  }

  /** Two strictly sorted sequences with the same elements are equal: the
      result of `SortDedup` depends only on the set of its input. */
  lemma {:induction false} StrictlySortedUnique(a: seq<string>, b: seq<string>)
    requires StrictlySortedBy(a, Id, StrLeq) && StrictlySortedBy(b, Id, StrLeq)
    requires forall x :: x in a <==> x in b
    ensures a == b
  {
    StrLeqIsTotalOrder();
    assert |a| > 0 ==> a[0] in b;
    assert |b| > 0 ==> b[0] in a;
    if |a| > 0 && |b| > 0 {
      HeadIsLeast(a, b[0]);
      HeadIsLeast(b, a[0]);
      assert a[0] == b[0];
      forall x ensures x in a[1..] <==> x in b[1..] {
        if x in a[1..] {
          var k :| 0 <= k < |a[1..]| && a[1..][k] == x;
          assert Id(a[0]) != Id(a[k + 1]);
          assert x in b;
        }
        if x in b[1..] {
          var k :| 0 <= k < |b[1..]| && b[1..][k] == x;
          assert Id(b[0]) != Id(b[k + 1]);
          assert x in a;
        }
      }
      StrictlySortedUnique(a[1..], b[1..]);
      assert a == [a[0]] + a[1..] && b == [b[0]] + b[1..];
    }
  }

  lemma SortDedupOfSameElements(s: seq<string>, t: seq<string>)
    requires forall x :: x in s <==> x in t
    ensures SortDedup(s) == SortDedup(t)
  {
    StrictlySortedUnique(SortDedup(s), SortDedup(t));
  }
}

=== FILE: text.dfy ===
/** The handful of Rust `str` operations the context code relies on,
    defined over `seq<char>`: prefix/suffix tests, `split`, `lines`,
    `split_whitespace`, `trim`, `trim_matches`, `replace`, `join`,
    ASCII lower-casing, UTF-8 byte length and `u32` parsing. Each is given
    the meaning the Rust standard library gives it. */
module Text {
  import opened Wrappers

  // ---------------------------------------------------------------------
  // Prefixes, suffixes, substrings

  predicate StartsWith(s: string, p: string) {
    p <= s
  }

  predicate EndsWith(s: string, p: string) {
    |p| <= |s| && s[|s| - |p|..] == p
  }

  /** `p` occurs in `s` starting at index `i`. */
  predicate OccursAt(s: string, p: string, i: int) {
    0 <= i && i + |p| <= |s| && s[i..i + |p|] == p
  }

  /** `s.contains(p)` for a string pattern. */
  predicate Contains(s: string, p: string) {
    exists i :: 0 <= i <= |s| && OccursAt(s, p, i)
  }

  /** Index of the first occurrence of `c`. */
  function IndexOf(s: string, c: char): (i: nat)
    requires c in s
    ensures i < |s| && s[i] == c && c !in s[..i]
  {
    if s[0] == c then 0 else 1 + IndexOf(s[1..], c)
  }

  /** Number of occurrences of `c` in `s`. */
  function CountChar(s: string, c: char): nat {
    if |s| == 0 then 0 else (if s[0] == c then 1 else 0) + CountChar(s[1..], c)
  }

  // ---------------------------------------------------------------------
  // Whitespace and trimming

  /** Rust's `char::is_whitespace`: the Unicode White_Space property. */
  predicate IsWhitespace(c: char) {
    var n := c as int;
    || (0x09 <= n <= 0x0D) || n == 0x20 || n == 0x85 || n == 0xA0
    || n == 0x1680 || (0x2000 <= n <= 0x200A) || n == 0x2028 || n == 0x2029
    || n == 0x202F || n == 0x205F || n == 0x3000
  }

  function TrimStart(s: string): (r: string)
    ensures EndsWith(s, r)
    ensures |r| > 0 ==> !IsWhitespace(r[0])
    ensures forall i :: 0 <= i < |s| - |r| ==> IsWhitespace(s[i])
  {
    if |s| > 0 && IsWhitespace(s[0]) then TrimStart(s[1..]) else s
  }

  function TrimEnd(s: string): (r: string)
    ensures StartsWith(s, r)
    ensures |r| > 0 ==> !IsWhitespace(r[|r| - 1])
    ensures forall i :: |r| <= i < |s| ==> IsWhitespace(s[i])
  {
    if |s| > 0 && IsWhitespace(s[|s| - 1]) then TrimEnd(s[..|s| - 1]) else s
  }

  /** `str::trim`: both ends stripped of whitespace. */
  function Trim(s: string): (r: string)
    ensures |r| <= |s|
    ensures |r| > 0 ==> !IsWhitespace(r[0]) && !IsWhitespace(r[|r| - 1])
    ensures Contains(s, r)
  {
    var t := TrimStart(s);
    var r := TrimEnd(t);
    assert |r| > 0 ==> r[0] == t[0];
    assert OccursAt(s, r, |s| - |t|) by {
      assert s[|s| - |t|..] == t;
      assert t[..|r|] == r;
    }
    r
  }

  /** `trim_start_matches(c)`: every leading `c` removed. */
  function TrimStartChar(s: string, c: char): (r: string)
    ensures EndsWith(s, r)
    ensures |r| > 0 ==> r[0] != c
  {
    if |s| > 0 && s[0] == c then TrimStartChar(s[1..], c) else s
  }

  /** `trim_end_matches(c)`: every trailing `c` removed. */
  function TrimEndChar(s: string, c: char): (r: string)
    ensures StartsWith(s, r)
    ensures |r| > 0 ==> r[|r| - 1] != c
    ensures forall i :: |r| <= i < |s| ==> s[i] == c
  {
    if |s| > 0 && s[|s| - 1] == c then TrimEndChar(s[..|s| - 1], c) else s
  }

  /** `trim_matches(c)`: every leading and trailing `c` removed. */
  function TrimChar(s: string, c: char): (r: string)
    ensures |r| <= |s|
    ensures |r| > 0 ==> r[0] != c && r[|r| - 1] != c
  {
    TrimEndChar(TrimStartChar(s, c), c)
  }

  /** Neither end is whitespace: what `trim` returns. */
  predicate IsTrimmed(s: string) {
    |s| == 0 || (!IsWhitespace(s[0]) && !IsWhitespace(s[|s| - 1]))
  }

  predicate AllWhitespace(w: string) {
    forall i :: 0 <= i < |w| ==> IsWhitespace(w[i])
  }

  lemma TrimOfTrimmed(s: string)
    requires IsTrimmed(s)
    ensures Trim(s) == s
  {
  }

  /** `trim` is idempotent. */
  lemma TrimTwice(s: string)
    ensures Trim(Trim(s)) == Trim(s)
  {
    TrimOfTrimmed(Trim(s));
  }

  lemma {:induction false} TrimStartPadded(w: string, s: string)
    requires AllWhitespace(w)
    requires |s| > 0 && !IsWhitespace(s[0])
    ensures TrimStart(w + s) == s
  {
    if |w| > 0 {
      assert (w + s)[1..] == w[1..] + s;
      TrimStartPadded(w[1..], s);
    }
  }

  lemma {:induction false} TrimEndPadded(s: string, w: string)
    requires AllWhitespace(w)
    requires |s| > 0 && !IsWhitespace(s[|s| - 1])
    ensures TrimEnd(s + w) == s
  {
    if |w| > 0 {
      assert (s + w)[..|s + w| - 1] == s + w[..|w| - 1];
      TrimEndPadded(s, w[..|w| - 1]);
    } else {
      assert s + w == s;
    }
  }

  /** Whitespace around a trimmed non-empty text is exactly what `trim`
      removes. */
  lemma TrimPadded(w1: string, s: string, w2: string)
    requires AllWhitespace(w1) && AllWhitespace(w2)
    requires |s| > 0 && IsTrimmed(s)
    ensures Trim(w1 + s + w2) == s
  {
    assert w1 + s + w2 == w1 + (s + w2);
    TrimStartPadded(w1, s + w2);
    TrimEndPadded(s, w2);
  }

  /** `trim_matches(c)` on a text wrapped in one `c` each side, whose own
      ends are not `c`, gives that text back. */
  lemma TrimCharWrapped(v: string, c: char)
    requires |v| > 0 && v[0] != c && v[|v| - 1] != c
    ensures TrimChar([c] + v + [c], c) == v
  {
    var w := [c] + v + [c];
    assert w[1..] == v + [c];
    assert TrimStartChar(w, c) == v + [c];
    assert (v + [c])[..|v|] == v;
  }

  lemma TrimCharNone(v: string, c: char)
    requires |v| > 0 && v[0] != c && v[|v| - 1] != c
    ensures TrimChar(v, c) == v
  {
  }

  /** Trimming only removes characters, so it never introduces one. */
  lemma TrimKeepsAbsent(s: string, ch: char)
    requires ch !in s
    ensures ch !in Trim(s)
  {
    var t := TrimStart(s);
    assert t == s[|s| - |t|..];
    assert ch !in t;
    var r := TrimEnd(t);
    assert r == t[..|r|];
  }

  lemma TrimCharKeepsAbsent(s: string, c: char, ch: char)
    requires ch !in s
    ensures ch !in TrimChar(s, c)
  {
    var t := TrimStartChar(s, c);
    assert t == s[|s| - |t|..];
    assert ch !in t;
    var r := TrimEndChar(t, c);
    assert r == t[..|r|];
  }

  // ---------------------------------------------------------------------
  // Splitting and joining

  /** `parts.join(sep)`. */
  function Join(parts: seq<string>, sep: string): string {
    if |parts| == 0 then ""
    else if |parts| == 1 then parts[0]
    else parts[0] + sep + Join(parts[1..], sep)
  }

  /** `s.split(c)`: the pieces between occurrences of `c`. There is always at
      least one piece, and empty pieces are kept. */
  function Split(s: string, c: char): (r: seq<string>)
    ensures |r| >= 1
    ensures forall k :: 0 <= k < |r| ==> c !in r[k]
    decreases |s|
  {
    if c !in s then [s]
    else
      var i := IndexOf(s, c);
      [s[..i]] + Split(s[i + 1..], c)
  }

  /** Splitting and re-joining on the same separator gives back the text. */
  lemma {:induction false} SplitJoin(s: string, c: char)
    ensures Join(Split(s, c), [c]) == s
    decreases |s|
  {
    if c in s {
      var i := IndexOf(s, c);
      var rest := Split(s[i + 1..], c);
      SplitJoin(s[i + 1..], c);
      assert Split(s, c) == [s[..i]] + rest;
      var parts := [s[..i]] + rest;
      assert parts[0] == s[..i] && parts[1..] == rest;
      assert Join(parts, [c]) == s[..i] + [c] + Join(rest, [c]);
      assert s == s[..i] + [c] + s[i + 1..];
    }
  }

  /** The number of pieces is one more than the number of separators. */
  lemma {:induction false} SplitCount(s: string, c: char)
    ensures |Split(s, c)| == CountChar(s, c) + 1
    decreases |s|
  {
    if c in s {
      var i := IndexOf(s, c);
      SplitCount(s[i + 1..], c);
      CountCharSplitAt(s, c, i);
    } else {
      CountCharAbsent(s, c);
    }
  }

  lemma {:induction false} CountCharAbsent(s: string, c: char)
    requires c !in s
    ensures CountChar(s, c) == 0
  {
    if |s| > 0 {
      assert c !in s[1..];
      CountCharAbsent(s[1..], c);
    }
  }

  /** Counting across the first occurrence of `c`, at index `i`. */
  lemma {:induction false} CountCharSplitAt(s: string, c: char, i: nat)
    requires i < |s| && s[i] == c && c !in s[..i]
    ensures CountChar(s, c) == 1 + CountChar(s[i + 1..], c)
  {
    if i > 0 {
      assert s[1..][..i - 1] == s[1..i];
      assert c !in s[1..][..i - 1];
      CountCharSplitAt(s[1..], c, i - 1);
      assert s[1..][i..] == s[i + 1..];
    }
  }

  /** The first piece of `a + [c] + b` is `a`, the others are the pieces
      of `b`. */
  lemma SplitCons(a: string, c: char, b: string)
    requires c !in a
    ensures Split(a + [c] + b, c) == [a] + Split(b, c)
  {
    var s := a + [c] + b;
    assert s[|a|] == c;
    assert s[..|a|] == a;
    assert s[|a| + 1..] == b;
    assert IndexOf(s, c) == |a|;
  }

  /** Pieces free of `c`, joined with `c`, split back into the same pieces. */
  lemma {:induction false} SplitOfJoin(parts: seq<string>, c: char)
    requires |parts| > 0
    requires forall k :: 0 <= k < |parts| ==> c !in parts[k]
    ensures Split(Join(parts, [c]), c) == parts
  {
    if |parts| > 1 {
      SplitCons(parts[0], c, Join(parts[1..], [c]));
      SplitOfJoin(parts[1..], c);
      assert parts == [parts[0]] + parts[1..];
    }
  }

  /** Joining two non-empty lists is joining each and gluing with `sep`. */
  lemma {:induction false} JoinAppend(xs: seq<string>, ys: seq<string>, sep: string)
    requires |xs| > 0 && |ys| > 0
    ensures Join(xs + ys, sep) == Join(xs, sep) + sep + Join(ys, sep)
  {
    if |xs| > 1 {
      assert (xs + ys)[1..] == xs[1..] + ys;
      JoinAppend(xs[1..], ys, sep);
    } else {
      assert (xs + ys)[1..] == ys;
    }
  }

  /** Splitting `x + [c] + y` splits `x` and `y` separately. */
  lemma SplitAppend(x: string, c: char, y: string)
    ensures Split(x + [c] + y, c) == Split(x, c) + Split(y, c)
  {
    var xs, ys := Split(x, c), Split(y, c);
    var j := Join(xs + ys, [c]);
    assert j == x + [c] + y by {
      SplitJoin(x, c);
      SplitJoin(y, c);
      JoinAppend(xs, ys, [c]);
    }
    assert Split(j, c) == xs + ys by {
      forall k | 0 <= k < |xs + ys| ensures c !in (xs + ys)[k] {
        if k < |xs| {
          assert (xs + ys)[k] == xs[k];
        } else {
          assert (xs + ys)[k] == ys[k - |xs|];
        }
      }
      SplitOfJoin(xs + ys, c);
    }
  }

  /** Five pieces separated by `c`, of which only the middle one may hold
      `c`, split into the outer four and the pieces of the middle one. */
  lemma SplitFramed(a: string, b: string, m: string, d: string, e: string, c: char)
    requires c !in a && c !in b && c !in d && c !in e
    ensures Split(a + [c] + b + [c] + m + [c] + d + [c] + e, c) == [a, b] + Split(m, c) + [d, e]
  {
    var ab := a + [c] + b;
    assert Split(ab, c) == [a, b] by {
      SplitAppend(a, c, b);
    }
    var abm := ab + [c] + m;
    assert Split(abm, c) == [a, b] + Split(m, c) by {
      SplitAppend(ab, c, m);
    }
    var abmd := abm + [c] + d;
    assert Split(abmd, c) == [a, b] + Split(m, c) + [d] by {
      SplitAppend(abm, c, d);
    }
    assert Split(abmd + [c] + e, c) == [a, b] + Split(m, c) + [d] + [e] by {
      SplitAppend(abmd, c, e);
    }
  }

  /** Items each followed by `c` split back into the items and one final
      empty piece. */
  lemma {:induction false} SplitTerminated(parts: seq<string>, c: char)
    requires forall k :: 0 <= k < |parts| ==> c !in parts[k]
    ensures Split(JoinTerminated(parts, [c]), c) == parts + [""]
  {
    if |parts| > 0 {
      SplitCons(parts[0], c, JoinTerminated(parts[1..], [c]));
      SplitTerminated(parts[1..], c);
      assert parts == [parts[0]] + parts[1..];
    }
  }

  function StripTrailingCR(line: string): string {
    if |line| > 0 && line[|line| - 1] == '\r' then line[..|line| - 1] else line
  }

  /** `str::lines`: pieces ended by `\n` (a `\r` just before that `\n` is
      dropped too); a final `\n` does not start an extra empty line, and the
      empty text has no lines. */
  function Lines(s: string): (r: seq<string>)
    ensures forall k :: 0 <= k < |r| ==> '\n' !in r[k]
    ensures |s| > 0 ==> |r| > 0
    decreases |s|
  {
    if |s| == 0 then []
    else if '\n' !in s then [s]
    else
      var i := IndexOf(s, '\n');
      [StripTrailingCR(s[..i])] + Lines(s[i + 1..])
  }

  /** Lines written one per `\n`-terminated row are read back unchanged. */
  lemma {:induction false} LinesOfJoined(ls: seq<string>)
    requires forall k :: 0 <= k < |ls| ==> '\n' !in ls[k] && '\r' !in ls[k]
    ensures Lines(JoinTerminated(ls, "\n")) == ls
  {
    if |ls| > 0 {
      var rest := JoinTerminated(ls[1..], "\n");
      LinesCons(ls[0], rest);
      LinesOfJoined(ls[1..]);
      if |ls[0]| > 0 {
        assert ls[0][|ls[0]| - 1] in ls[0];
      }
    }
  }

  /** The first line of `a + "\n" + b` is `a`, the others are the lines of `b`. */
  lemma LinesCons(a: string, b: string)
    requires '\n' !in a
    ensures Lines(a + "\n" + b) == [StripTrailingCR(a)] + Lines(b)
  {
    var s := a + "\n" + b;
    assert s[|a|] == '\n';
    assert s[..|a|] == a;
    assert s[|a| + 1..] == b;
    assert IndexOf(s, '\n') == |a|;
  }

  /** Each part followed by `term` (how a command prints one item per line). */
  function JoinTerminated(parts: seq<string>, term: string): string {
    if |parts| == 0 then "" else parts[0] + term + JoinTerminated(parts[1..], term)
  }

  /** Index of the first whitespace character, or `|s|` when there is none. */
  function FirstWhitespace(s: string): (i: nat)
    ensures i <= |s|
    ensures forall k :: 0 <= k < i ==> !IsWhitespace(s[k])
    ensures i < |s| ==> IsWhitespace(s[i])
  {
    if |s| == 0 || IsWhitespace(s[0]) then 0 else 1 + FirstWhitespace(s[1..])
  }

  /** A non-empty run of non-whitespace characters. */
  predicate IsToken(t: string) {
    |t| > 0 && forall j :: 0 <= j < |t| ==> !IsWhitespace(t[j])
  }

  /** `str::split_whitespace`: the maximal runs of non-whitespace. */
  function SplitWhitespace(s: string): (r: seq<string>)
    ensures forall k :: 0 <= k < |r| ==> IsToken(r[k])
    decreases |s|
  {
    var t := TrimStart(s);
    if |t| == 0 then []
    else
      var i := FirstWhitespace(t);
      [t[..i]] + SplitWhitespace(t[i..])
  }

  /** Leading whitespace does not change the tokens. */
  lemma SplitWhitespaceSkip(w: char, rest: string)
    requires IsWhitespace(w)
    ensures SplitWhitespace([w] + rest) == SplitWhitespace(rest)
  {
    assert ([w] + rest)[1..] == rest;
    assert TrimStart([w] + rest) == TrimStart(rest);
  }

  lemma {:induction false} FirstWhitespaceAfter(run: string, w: char, rest: string)
    requires forall k :: 0 <= k < |run| ==> !IsWhitespace(run[k])
    requires IsWhitespace(w)
    ensures FirstWhitespace(run + [w] + rest) == |run|
  {
    if |run| > 0 {
      assert (run + [w] + rest)[1..] == run[1..] + [w] + rest;
      FirstWhitespaceAfter(run[1..], w, rest);
    }
  }

  /** A token followed by whitespace is the first token. */
  lemma SplitWhitespaceCons(tok: string, w: char, rest: string)
    requires IsToken(tok) && IsWhitespace(w)
    ensures SplitWhitespace(tok + [w] + rest) == [tok] + SplitWhitespace(rest)
  {
    var s := tok + [w] + rest;
    assert TrimStart(s) == s;
    var i := FirstWhitespace(s);
    FirstWhitespaceAfter(tok, w, rest);
    assert s[..i] == tok;
    assert s[i..] == [w] + rest;
    SplitWhitespaceSkip(w, rest);
  }

  /** A lone token is its own only token. */
  lemma SplitWhitespaceToken(tok: string)
    requires IsToken(tok)
    ensures SplitWhitespace(tok) == [tok]
  {
    assert TrimStart(tok) == tok;
    var i := FirstWhitespace(tok);
    assert i == |tok|;
    assert tok[..i] == tok;
    assert SplitWhitespace(tok[i..]) == [];
  }

  // ---------------------------------------------------------------------
  // Case, replacement, byte length

  function LowerChar(c: char): char {
    if 'A' <= c <= 'Z' then (c as int + 32) as char else c
  }

  /** ASCII lower-casing (`to_lowercase` restricted to ASCII letters). */
  function ToLower(s: string): (r: string)
    ensures |r| == |s|
    ensures forall i :: 0 <= i < |s| ==> r[i] == LowerChar(s[i])
  {
    seq(|s|, i requires 0 <= i < |s| => LowerChar(s[i]))
  }

  /** `s.replace(pat, rep)`: every non-overlapping occurrence of `pat`,
      found left to right, replaced by `rep`. */
  function ReplaceAll(s: string, pat: string, rep: string): string
    requires |pat| > 0
    decreases |s|
  {
    if |s| == 0 then ""
    else if StartsWith(s, pat) then rep + ReplaceAll(s[|pat|..], pat, rep)
    else [s[0]] + ReplaceAll(s[1..], pat, rep)
  }

  /** Text without the pattern is left as it is. */
  lemma {:induction false} ReplaceAbsent(s: string, pat: string, rep: string)
    requires |pat| > 0
    requires !Contains(s, pat)
    ensures ReplaceAll(s, pat, rep) == s
    decreases |s|
  {
    if |s| > 0 {
      assert !OccursAt(s, pat, 0);
      assert !StartsWith(s, pat) by {
        if |pat| <= |s| {
          assert s[..|pat|] == s[0..|pat|];
        }
      }
      forall i | OccursAt(s[1..], pat, i)
        ensures OccursAt(s, pat, i + 1)
      {
        assert s[1..][i..i + |pat|] == s[i + 1..i + 1 + |pat|];
      }
      ReplaceAbsent(s[1..], pat, rep);
    }
  }

  predicate HasPlaceholder(s: string) {
    exists i :: 0 <= i < |s| - 1 && s[i] == '{' && s[i + 1] == '}'
  }

  predicate NoBraces(s: string) {
    '{' !in s && '}' !in s
  }

  /** After replacing every `{}` by a non-empty brace-free text, no `{}` is
      left, not even one formed across a replacement boundary. */
  lemma {:induction false} ReplacePlaceholderLeavesNone(s: string, rep: string)
    requires |rep| > 0 && NoBraces(rep)
    ensures !HasPlaceholder(ReplaceAll(s, "{}", rep))
    decreases |s|
  {
    var r := ReplaceAll(s, "{}", rep);
    if |s| == 0 {
    } else if StartsWith(s, "{}") {
      var tail := ReplaceAll(s[2..], "{}", rep);
      ReplacePlaceholderLeavesNone(s[2..], rep);
      assert r == rep + tail;
      forall i | 0 <= i < |r| - 1
        ensures !(r[i] == '{' && r[i + 1] == '}')
      {
        if i < |rep| {
          assert r[i] == rep[i];
        } else {
          assert r[i] == tail[i - |rep|] && r[i + 1] == tail[i - |rep| + 1];
        }
      }
    } else {
      var tail := ReplaceAll(s[1..], "{}", rep);
      ReplacePlaceholderLeavesNone(s[1..], rep);
      assert r == [s[0]] + tail;
      forall i | 0 <= i < |r| - 1
        ensures !(r[i] == '{' && r[i + 1] == '}')
      {
        if i == 0 {
          if |tail| > 0 && tail[0] == '}' {
            ReplaceHeadClose(s[1..], rep);
            assert s[0] != '{' by {
              if |s| >= 2 {
                assert s[..2] == [s[0], s[1]];
              }
            }
          }
        } else {
          assert r[i] == tail[i - 1] && r[i + 1] == tail[i];
        }
      }
    }
  }

  /** A replacement result begins with `}` only when its input does. */
  lemma {:induction false} ReplaceHeadClose(t: string, rep: string)
    requires |rep| > 0 && NoBraces(rep)
    requires |ReplaceAll(t, "{}", rep)| > 0 && ReplaceAll(t, "{}", rep)[0] == '}'
    ensures |t| > 0 && t[0] == '}'
  {

  }

  function CharUtf8Len(c: char): nat {
    if c as int < 0x80 then 1
    else if c as int < 0x800 then 2
    else if c as int < 0x10000 then 3
    else 4
  }

  /** `str::len`: the length of the UTF-8 encoding, in bytes. */
  function Utf8Len(s: string): (n: nat)
    ensures |s| <= n <= 4 * |s|
  {
    if |s| == 0 then 0 else CharUtf8Len(s[0]) + Utf8Len(s[1..])
  }

  // ---------------------------------------------------------------------
  // Decimal numbers

  predicate IsDigit(c: char) {
    '0' <= c <= '9'
  }

  predicate AllDigits(s: string) {
    forall i :: 0 <= i < |s| ==> IsDigit(s[i])
  }

  function DigitsValue(s: string): nat
    requires AllDigits(s)
  {
    if |s| == 0 then 0
    else DigitsValue(s[..|s| - 1]) * 10 + (s[|s| - 1] as int - '0' as int)
  }

  const U32Limit: nat := 0x1_0000_0000

  /** `s.parse::<u32>()`: an optional `+`, then one or more ASCII digits,
      with a value that fits in 32 bits. */
  function ParseU32(s: string): (r: Option<nat>)
    ensures r.Some? ==> r.value < U32Limit
  {
    var digits := if |s| > 0 && s[0] == '+' then s[1..] else s;
    if |digits| == 0 || !AllDigits(digits) then None
    else
      var v := DigitsValue(digits);
      if v < U32Limit then Some(v) else None
  }

  function DigitChar(d: nat): char
    requires d < 10
  {
    ('0' as int + d) as char
  }

  /** Decimal rendering (`format!("{}", n)`). */
  function NatToString(n: nat): (r: string)
    ensures |r| > 0 && AllDigits(r)
  {
    if n < 10 then [DigitChar(n)] else NatToString(n / 10) + [DigitChar(n % 10)]
  }

  /** The character at `i`, or a space past either end. */
  function CharAt(s: string, i: int): char {
    if 0 <= i < |s| then s[i] else ' '
  }

  /** A run of digits followed by text that does not start with a digit is
      told apart from the text after it. */
  lemma DigitRunUnique(x1: string, q1: string, x2: string, q2: string)
    requires AllDigits(x1) && AllDigits(x2)
    requires |q1| > 0 ==> !IsDigit(q1[0])
    requires |q2| > 0 ==> !IsDigit(q2[0])
    requires x1 + q1 == x2 + q2
    ensures x1 == x2 && q1 == q2
  {
    var s := x1 + q1;
    assert |x1| < |x2| ==> CharAt(s, |x1|) == CharAt(x2, |x1|) && CharAt(s, |x1|) == CharAt(q1, 0);
    assert |x2| < |x1| ==> CharAt(s, |x2|) == CharAt(x1, |x2|) && CharAt(s, |x2|) == CharAt(q2, 0);
    assert x1 == s[..|x1|] && x2 == s[..|x2|];
    assert q1 == s[|x1|..] && q2 == s[|x2|..];
  }

  /** Different numbers render differently. */
  lemma RenderedInjective(x: nat, y: nat)
    requires NatToString(x) == NatToString(y)
    ensures x == y
  {
    DigitsOfRendered(x);
    DigitsOfRendered(y);
  }

  /** A rendered number is one whitespace-free token. */
  lemma RenderedIsToken(n: nat)
    ensures IsToken(NatToString(n))
  {
  }

  /** Rendering then parsing gives the number back. */
  lemma {:induction false} ParseRendered(n: nat)
    requires n < U32Limit
    ensures ParseU32(NatToString(n)) == Some(n)
  {
    DigitsOfRendered(n);
  }

  lemma {:induction false} DigitsOfRendered(n: nat)
    ensures DigitsValue(NatToString(n)) == n
  {
    var s := NatToString(n);
    if n >= 10 {
      DigitsOfRendered(n / 10);
      assert s[..|s| - 1] == NatToString(n / 10);
    }
  }
}

=== FILE: types.dfy ===
/** The records the context system passes around: the four context kinds,
    the data each provider produces, and the bundle handed to the agent.
    Time, commit dates included, is a count of seconds. */
module ContextTypes {
  import opened Wrappers

  /** The four kinds of context the manager knows. */
  datatype ContextType = Git | Project | Agent | Interaction

  // ---------------------------------------------------------------------
  // Git

  datatype FileStatus = FileStatus(
    path: string,
    status: string,
    insertions: Option<nat>,
    deletions: Option<nat>)

  datatype RepositoryStatus = RepositoryStatus(
    stagedFiles: seq<FileStatus>,
    unstagedFiles: seq<FileStatus>,
    untrackedFiles: seq<string>,
    isClean: bool,
    hasConflicts: bool)

  datatype GitDiffs = GitDiffs(staged: Option<string>, unstaged: Option<string>, branchDiff: Option<string>)

  datatype CommitInfo = CommitInfo(
    hash: string,
    shortHash: string,
    message: string,
    author: string,
    date: int,
    filesChanged: seq<string>)

  datatype BranchInfo = BranchInfo(
    currentBranch: string,
    upstreamBranch: Option<string>,
    ahead: nat,
    behind: nat,
    trackingStatus: string)

  datatype UserContext = UserContext(name: Option<string>, email: Option<string>)

  datatype RepositoryMetadata = RepositoryMetadata(
    rootPath: string,
    gitDir: string,
    isBare: bool,
    remoteUrls: seq<string>)

  datatype GitContext = GitContext(
    repositoryStatus: RepositoryStatus,
    diffs: GitDiffs,
    recentCommits: seq<CommitInfo>,
    branchInfo: BranchInfo,
    userContext: UserContext,
    repositoryMetadata: RepositoryMetadata)

  // ---------------------------------------------------------------------
  // Project

  datatype EntryType = File | Directory

  /** One walked entry; `size` is present only for files whose metadata
      could be read. */
  datatype TreeEntry = TreeEntry(
    path: string,
    name: string,
    entryType: EntryType,
    size: Option<nat>,
    modified: Option<int>)

  datatype DirectoryTree = DirectoryTree(root: string, entries: seq<TreeEntry>)

  datatype ProjectContext = ProjectContext(
    directoryTree: DirectoryTree,
    fileCounts: map<string, nat>,
    recentlyChangedFiles: seq<string>,
    totalFiles: nat,
    totalSize: nat)

  // ---------------------------------------------------------------------
  // Agent

  datatype ConfigFormat = Json | Yaml | Toml | Text

  datatype AgentConfigFile = AgentConfigFile(path: string, content: string, format: ConfigFormat)

  datatype AgentContext = AgentContext(
    configFiles: seq<AgentConfigFile>,
    rules: seq<string>,
    customPrompts: map<string, string>)

  // ---------------------------------------------------------------------
  // Interaction

  datatype ExecutionMetadata = ExecutionMetadata(
    timestamp: int,
    workingDirectory: string,
    gitAiVersion: string,
    cursorAgentVersion: Option<string>)

  datatype InteractionContext = InteractionContext(
    command: string,
    userMessage: Option<string>,
    flags: map<string, string>,
    executionMetadata: ExecutionMetadata)

  // ---------------------------------------------------------------------
  // Context data and the bundle

  datatype ContextData =
    | GitData(git: GitContext)
    | ProjectData(project: ProjectContext)
    | AgentData(agent: AgentContext)
    | InteractionData(interaction: InteractionContext)
  {
    /** The kind of context this value carries. */
    function Kind(): ContextType {
      match this
      case GitData(_) => Git
      case ProjectData(_) => Project
      case AgentData(_) => Agent
      case InteractionData(_) => Interaction
    }
  }

  datatype ContextBundle = ContextBundle(
    contexts: map<ContextType, ContextData>,
    generatedAt: int,
    gitHash: Option<string>,
    workingTreeHash: Option<string>)
  {
    /** The data gathered for `t`, if any. */
    function Get(t: ContextType): (r: Option<ContextData>)
      ensures r.Some? <==> t in contexts
      ensures r.Some? ==> r.value == contexts[t]
    {
      if t in contexts then Some(contexts[t]) else None
    }

    /** Whether the bundle holds data for `t`. */
    function Has(t: ContextType): (r: bool)
      ensures r <==> Get(t).Some?
    {
      t in contexts
    }
  }

  /** A fresh bundle over `contexts`, stamped with `now` and carrying no
      fingerprints yet. */
  function NewBundle(contexts: map<ContextType, ContextData>, now: int): (b: ContextBundle)
    ensures b.contexts == contexts
    ensures b.generatedAt == now
    ensures b.gitHash.None? && b.workingTreeHash.None?
  {
    ContextBundle(contexts, now, None, None)
  }
}

=== FILE: values.dfy ===
/** A parsed JSON or YAML document: the common shape of `serde_json::Value`
    and `serde_yaml::Value` as far as the providers look into them.
    Parsing itself is not modelled; a parser is passed around as a
    function from text to a document or an error. */
module Values {
  import opened Wrappers

  /** A mapping key. JSON keys are always strings; a YAML mapping may also
      have a number, a boolean or a nested value as a key, and such a key
      never equals a looked-up name. */
  datatype Key = KeyStr(name: string) | KeyOther

  datatype Field = Field(key: Key, value: Value)

  /** Numbers are carried but never inspected. An object lists its fields in
      the parser's iteration order. */
  datatype Value =
    | Null
    | Bool(b: bool)
    | Number(n: int)
    | Str(s: string)
    | Array(items: seq<Value>)
    | Object(fields: seq<Field>)

  /** A parser: the document, or the parse error. */
  type Parser = string -> Result<Value>

  /** No two fields share a string key, as in any parsed mapping. */
  predicate UniqueKeys(fields: seq<Field>) {
    forall i, j :: 0 <= i < j < |fields| && fields[i].key.KeyStr? ==> fields[i].key != fields[j].key
  }

  /** Position of the first field named `name`. */
  function Find(fields: seq<Field>, name: string): (r: Option<nat>)
    ensures r.Some? ==> r.value < |fields| && fields[r.value].key == KeyStr(name)
    ensures r.Some? ==> forall j :: 0 <= j < r.value ==> fields[j].key != KeyStr(name)
    ensures r.None? <==> forall j :: 0 <= j < |fields| ==> fields[j].key != KeyStr(name)
  {
    if |fields| == 0 then None
    else if fields[0].key == KeyStr(name) then Some(0)
    else
      match Find(fields[1..], name)
      case None => None
      case Some(i) => Some(i + 1)
  }

  /** `value.get(name)`: the value under `name` when `v` is a mapping that
      has that key, nothing otherwise. */
  function Get(v: Value, name: string): (r: Option<Value>)
    ensures r.Some? <==> v.Object? && exists j :: 0 <= j < |v.fields| && v.fields[j].key == KeyStr(name)
    ensures r.Some? ==> Field(KeyStr(name), r.value) in v.fields
  {
    if !v.Object? then None
    else
      match Find(v.fields, name)
      case None => None
      case Some(i) => Some(v.fields[i].value)
  }

  /** With unique keys, `Get` returns the one field under that name. */
  lemma GetUnique(v: Value, j: nat)
    requires v.Object? && UniqueKeys(v.fields)
    requires j < |v.fields| && v.fields[j].key.KeyStr?
    ensures Get(v, v.fields[j].key.name) == Some(v.fields[j].value)
  {
    var name := v.fields[j].key.name;
    var i := Find(v.fields, name).value;
    assert !(i < j) && !(j < i);
  }

  /** `as_str()`: the text of a string value. */
  function AsStr(v: Value): (r: Option<string>)
    ensures r.Some? <==> v.Str?
    ensures r.Some? ==> v == Str(r.value)
  {
    if v.Str? then Some(v.s) else None
  }

  /** The string elements of `items`, in order. */
  function Strings(items: seq<Value>): (r: seq<string>)
    ensures |r| <= |items|
    ensures forall x :: x in r <==> Str(x) in items
  {
    if |items| == 0 then []
    else
      assert items == [items[0]] + items[1..];
      (if items[0].Str? then [items[0].s] else []) + Strings(items[1..])
  }

  lemma {:induction false} StringsAppend(a: seq<Value>, b: seq<Value>)
    ensures Strings(a + b) == Strings(a) + Strings(b)
  {
    if |a| > 0 {
      assert (a + b)[1..] == a[1..] + b;
      StringsAppend(a[1..], b);
    } else {
      assert a + b == b;
    }
  }
}

=== FILE: wrappers.dfy ===
/** Option and Result, the two failure shapes the system's Rust code uses
    (`Option<T>` and `anyhow::Result<T>`). An `anyhow` error is modelled by
    its message only. */
module Wrappers {

  datatype Option<+T> = None | Some(value: T) {

    /** The value, or `default` when there is none (`unwrap_or`). */
    function GetOr(default: T): T {
      match this
      case Some(v) => v
      case None => default
    }
  }

  datatype Result<+T> = Ok(value: T) | Err(error: string) {

    /** The value, or `default` on failure (`unwrap_or`). */
    function GetOr(default: T): T {
      match this
      case Ok(v) => v
      case Err(_) => default
    }

    /** Drops the error (`.ok()`). */
    function ToOption(): Option<T> {
      match this
      case Ok(v) => Some(v)
      case Err(_) => None
    }
  }

  /** What a spawned external command reports: either it could not be
      started at all (`Command::output()` returned an I/O error) or it ran
      and finished with a success flag and its standard output. */
  datatype CommandOutput = NotSpawned | Finished(success: bool, stdout: string) {

    predicate Succeeded() {
      Finished? && success
    }
  }
}
